=== FILE: README.md ===
# The ingestion front end of autis and otis, modelled in Dafny

autis and otis read combinatorial problems written as text and turn them
into calls on a solving backend. autis drives a Universe solver. otis tells a
parse listener what it reads, and a problem builder assembles constraints
from those events. This project models that front end:

- the character scanner, with its one-character lookahead and putback,
  its number reader and its line skipping (`Scanning`);
- the literal range check shared by every grammar (`AbstractParsing`);
- the DIMACS CNF grammar, in its solver form (`CnfParsing`) and its
  listener form (`OtisCnfParsing`), with a proof that the two agree
  (`CnfAgreement`);
- the OPB pseudo-Boolean grammar: the pieces both forms share
  (`OpbGrammar`), the solver form (`OpbParsing`) and the listener form
  (`OtisOpbParsing`);
- the default parse listener (`ParseEvents`) and the problem-building
  listener (`ProblemBuilding`);
- the two format dispatchers (`Dispatching`, `OtisDispatching`);
- the XCSP3 callback that translates expression trees into intension
  constraints and passes extension and sum constraints to the CSP solver
  (`XcspCallback`, over the factory calls of `IntensionFactory`).

Each grammar appears twice. A function over the text and a cursor says
what the grammar reads, which calls or events it makes, and how it ends.
Each source method becomes a Dafny method on a class holding the same
fields, and that method is proved to do what the function says. The
properties of the grammar are proved as lemmas about the functions.

A thrown exception is an `Outcome` of `Raise(error)`, with the error's
class and message. The calls a solver receives are recorded in the
solver's `calls` field, and the events a listener receives in the
listener's `received` field. A listener's answer is a parameter that
depends only on the event (`ParseEvents.Listener.respond`). This covers
the default listener and the problem builder, whose answers depend only
on the event, and any listener that throws on given events. A listener
whose answer depends on what it received before is not covered.

Where the code differs from a plain reading of the format, the model
follows the code:

- A term written without a coefficient, such as `x1 +2 x2 >= 1;`, raises
  "Number expected".
- A negated identifier such as `~x1` is always rejected. The test after
  the `~` holds whatever `look` finds.
- An at-most constraint written `<=` cannot be read, because the term
  loop rejects `<` as a missing number. `addAtMost` is therefore never
  called.
- A comment line after the last constraint leads to one more attempt to
  read a constraint at the end of the stream. That attempt raises
  "Unrecognized relational operator".

## Model

| member | source | states |
|---|---|---|
| Scanning.Get | autis/src/core/Scanner.cpp:68-70 | `read()` takes exactly one character and returns it; with none left it returns `(char) EOF` and raises the end-of-file flag; the cursor stays within the text and never moves back |
| Scanning.Peek | autis/src/core/Scanner.cpp:52-66 | `look` either finds a non-blank character, which it returns and leaves unread under the cursor, or fails with the end-of-file flag raised |
| Scanning.PastLine | autis/src/core/Scanner.cpp:115-117 | `skipLine` stays within the text and always moves forward until the flag is raised |
| Scanning.SkipToNumber | autis/src/core/Scanner.cpp:82-85 | the first loop of the number reader stops on a digit or a sign, or at the end of the stream |
| Scanning.Accumulate | autis/src/core/Scanner.cpp:103-106 | the accumulator loop stops at the end of the stream or on a non-digit |
| Scanning.ScanNumber | autis/src/core/Scanner.cpp:78-113 | the number reader fails only with "Non-digit character found while looking for a number" and otherwise always moves forward |
| Scanning.ScanDigits | autis/src/core/Scanner.cpp:98-112 | after the sign, a missing digit raises that same error; otherwise the reader succeeds |
| Scanning.PeekFindsFirstNonBlank | autis/src/core/Scanner.cpp:52-66 | `look` succeeds exactly when a non-blank character is left; it returns the first one and leaves the cursor on it, so the next `read()` yields it; otherwise it ends at the end of the stream |
| Scanning.PeekAtEndFails | autis/src/core/Scanner.cpp:56-61 | once the end-of-file flag is raised, `look` keeps failing |
| Scanning.PeekFailsOnlyOnBlanks | autis/src/core/Scanner.cpp:52-61 | `look` fails exactly when only blanks, or nothing, are left |
| Scanning.PastLineSkipsToNewline | autis/src/core/Scanner.cpp:115-117 | `skipLine` discards everything up to and including the next newline, or everything when there is none |
| Scanning.SkipToNumberFindsStart | autis/src/core/Scanner.cpp:82-85 | every character that is neither a digit nor a sign, such as a letter or `#`, is skipped silently, up to the first digit or sign |
| Scanning.AccumulateReadsRun | autis/src/core/Scanner.cpp:103-106 | the accumulator loop folds the whole run of digits into its decimal value and stops on the first character after it |
| Scanning.ScanNumberMeaning | autis/src/core/Scanner.cpp:78-113 | the number is the sign times the decimal value of the longest run of digits after the first digit or sign; a leading `-` negates and a leading `+` is dropped; with no digit after the sign the reader raises "Non-digit character found while looking for a number"; the character after the run is put back unless the stream ended |
| Scanning.ScanDigitsAt | autis/src/core/Scanner.cpp:98-112 | the same, from the first character after the sign |
| Scanning.ScanNumberExample | autis/src/core/Scanner.cpp:78-113 | on `"  -007abc"` the reader yields -7 and leaves `a` as the next character |
| Scanning.Scanner.constructor | autis/src/core/Scanner.cpp:43-46 | a new scanner is at the start of its stream, with the flag down |
| Scanning.Scanner.Read | autis/src/core/Scanner.cpp:68-70 | the scanner reads in place what `Get` says |
| Scanning.Scanner.Putback | autis/src/core/Scanner.cpp:63-65 | putting back the character just read steps the position back and clears the flag |
| Scanning.Scanner.Look | autis/src/core/Scanner.cpp:52-66 | the do-while loop and the put-back do in place what `Peek` says |
| Scanning.Scanner.SkipToNumberStart | autis/src/core/Scanner.cpp:82-85 | the skip loop does in place what `SkipToNumber` says |
| Scanning.Scanner.AccumulateDigits | autis/src/core/Scanner.cpp:103-106 | the accumulator loop does in place what `Accumulate` says, from the first digit |
| Scanning.Scanner.ReadNumber | autis/src/core/Scanner.cpp:72-113 | the skip loop, the sign, the digit check, the accumulator loop and the put-back do in place what `ScanNumber` says |
| Scanning.Scanner.SkipLine | autis/src/core/Scanner.cpp:115-117 | the scanner skips in place what `PastLine` says |
| Scanning.Scanner.Eof | autis/src/core/Scanner.cpp:119-121 | the flag is only raised once the whole text has been taken |
| AbstractParsing.CheckLiteral | autis/src/core/AbstractParser.cpp:48-54 | a literal is accepted, and returned unchanged, exactly when it stands for a variable in `1..numberOfVariables`; otherwise "An invalid literal has been read" is raised |
| AbstractParsing.ZeroIsRejected | autis/src/core/AbstractParser.cpp:48-52 | `0` is never a literal |
| AbstractParsing.EverythingRejectedBeforeHeader | autis/src/core/AbstractParser.cpp:40-52 | with the variable count a parser starts with, which is zero, every literal is rejected |
| AbstractParsing.CheckIsSymmetric | autis/src/core/AbstractParser.cpp:48-53 | the check does not depend on the sign of the literal |
| AbstractParsing.CheckIsMonotone | autis/src/core/AbstractParser.cpp:48-53 | a literal accepted under some variable count is accepted under every larger one |
| ParseEvents.DefaultResponse | otis/core/ParseListener.cpp:8-38 | the default `startParse`, `endParse` and `setWriter` return normally; every objective event raises "Optimization problems are not supported"; both product events raise "Non-linear constraints are not supported"; the answer depends on the event alone, so no default changes any state |
| ParseEvents.Emit | otis/core/ParseListener.cpp:8-38 | a sequence of listener calls stops at the first that throws, which is the last received; when none throws, every event is received, in order |
| ParseEvents.EmitOne | otis/core/ParseListener.cpp:8-38 | sending one event: it is received, and the answer is the listener's |
| ParseEvents.Listener.Notify | otis/core/ParseListener.cpp:8-38 | a listener call records the event and returns the listener's answer |
| ParseEvents.Listener.NotifyAll | otis/core/ParseListener.cpp:8-38 | calls in a loop do what `Emit` says |
| CnfParsing.Started | source/cnf/CnfParser.cpp:45-48 | the loop starts with no clause open, no clause counted and no call made |
| CnfParsing.ClauseStep | source/cnf/CnfParser.cpp:50-82 | one turn of the loop makes at most one call; the calls are all clauses without a `0`, and each clause started is either given to the solver or still open; a `c` line leaves the clause state unchanged; the only errors are a malformed number and an invalid literal |
| CnfParsing.HeaderStep | source/cnf/CnfParser.cpp:55-59 | a `p` line changes only the cursor and the two header fields, the variable count being set even when reading the clause count fails; the range every literal was checked against widens to the new variable count, so literals accepted before stay declared |
| CnfParsing.IntegerStep | source/cnf/CnfParser.cpp:61-82 | an integer makes at most one call and keeps the clause accounting |
| CnfParsing.OpenClause | source/cnf/CnfParser.cpp:66-71 | with no clause open, a fresh empty clause is opened and counted |
| CnfParsing.IntegerInClause | source/cnf/CnfParser.cpp:73-81 | a `0` gives the open clause to the solver and closes it; any other integer is checked and appended |
| CnfParsing.ClauseLoop | source/cnf/CnfParser.cpp:50-83 | the loop only adds calls, keeps the clause accounting, and when it finishes the stream is exhausted |
| CnfParsing.ParseClauses | source/cnf/CnfParser.cpp:45-94 | every call made is `addClause` of a clause without `0`, each of whose literals stands for a variable in `1..N`, where `N` is exactly the largest of the starting variable count and those of the `p` lines read, and the final variable count is the last `p` line's (with no `p` line the header stays the starting one); on success the number of clauses given to the solver is the declared one; "Unexpected number of clauses" means the clauses read, all given to the solver, differ from the declared count |
| CnfParsing.Conclusion | source/cnf/CnfParser.cpp:85-93 | a clause still open is given to the solver; the parse succeeds exactly when the number of clauses read is the declared one, and otherwise raises "Unexpected number of clauses" |
| CnfParsing.ZeroClosesClause | source/cnf/CnfParser.cpp:66-76 | a `0` read with no clause open gives the solver an empty clause and counts it; read inside a clause, it gives the solver that clause; either way the clause is closed and nothing else but the cursor changes |
| CnfParsing.LiteralExtendsClause | source/cnf/CnfParser.cpp:66-81 | a non-zero literal extends the open clause, or opens and counts one, exactly when it stands for a declared variable, and makes no call |
| CnfParsing.HeaderLineSetsCounts | source/cnf/CnfParser.cpp:55-59 | a `p` line sets the variable count, then the clause count, from the next two integers and skips the rest of the line |
| CnfParsing.NoHeaderKeepsRange | source/cnf/CnfParser.cpp:50-83 | with no `p` character left in the input, not even in a comment, the loop keeps the header and the range of declared variables |
| CnfParsing.CommentLineIsSkipped | source/cnf/CnfParser.cpp:51-53 | a line starting with `c` is skipped whole: the loop goes on from the next line as if it were absent |
| CnfParsing.OneHeaderDeclaresEveryLiteral | source/cnf/CnfParser.cpp:45-94 | for any input read with a single `p` line, wherever it stands, every clause given to the solver consists of literals standing for variables in `1..N`, `N` being that line's variable count, which is the final header's |
| CnfParsing.LoopReadsInteger | source/cnf/CnfParser.cpp:50-82 | when the next non-blank character starts an integer, the loop reads it: a `0` gives the open clause, or an empty one, to the solver; a declared literal joins the open clause or opens one |
| CnfParsing.OneClauseExample | source/cnf/CnfParser.cpp:45-94 | on `p cnf 2 1` followed by `1 -2 0`, the solver receives exactly the clause `1 -2` and the parse succeeds |
| CnfParsing.CnfParser.constructor | source/cnf/CnfParser.cpp:40-43 | a new parser has both counts at zero |
| CnfParsing.CnfParser.ConcreteSolver | source/cnf/CnfParser.cpp:96-98 | the solver is the one the parser was built with |
| CnfParsing.CnfParser.Parse | source/cnf/CnfParser.cpp:45-94 | the solver receives the calls `ParseClauses` describes and the outcome is the same; on success the fields hold the header read |
| CnfParsing.CnfParser.Loop | source/cnf/CnfParser.cpp:50-83 | the `for (look)` loop does in place what `ClauseLoop` says |
| CnfParsing.CnfParser.Conclude | source/cnf/CnfParser.cpp:85-93 | the end of `parse` does what `Conclusion` says |
| CnfParsing.CnfParser.Step | source/cnf/CnfParser.cpp:51-82 | the body of the loop does what `ClauseStep` says |
| CnfParsing.CnfParser.ReadHeader | source/cnf/CnfParser.cpp:55-59 | the `p` branch does what `HeaderStep` says |
| CnfParsing.CnfParser.ReadInteger | source/cnf/CnfParser.cpp:61-82 | the integer branch does what `IntegerStep` says |
| ProblemBuilding.BuilderResponse | otis/core/ProblemBuilderParseListener.cpp:19-75 | the builder returns normally from every event except the objective and product events, which keep their default bodies and throw |
| ProblemBuilding.Classify | otis/core/ProblemBuilderParseListener.cpp:49-65 | a constraint is a clause exactly when all its coefficients are 1, its operator is `>=` and its degree 1; it keeps its coefficients exactly when one of them differs from 1; it keeps its literals in every case |
| ProblemBuilding.ReceiveKeepsCoherent | otis/core/ProblemBuilderParseListener.cpp:24-39 | every event keeps the literal and coefficient buffers parallel, and keeps `allCoefficientsAre1` equal to "every buffered coefficient is 1" |
| ProblemBuilding.ReplayKeepsCoherent | otis/core/ProblemBuilderParseListener.cpp:24-39 | the same holds after any sequence of events |
| ProblemBuilding.EndConstraintClassifies | otis/core/ProblemBuilderParseListener.cpp:49-65 | `endConstraint` appends exactly one constraint, the buffered one classified by its coefficients, operator and degree, and keeps the earlier ones |
| ProblemBuilding.TermsAreBuffered | otis/core/ProblemBuilderParseListener.cpp:32-39 | the term events append their coefficients and literals in order, clear the flag exactly when a coefficient differs from 1, and change nothing else |
| ProblemBuilding.ConstraintIsBuilt | otis/core/ProblemBuilderParseListener.cpp:24-65 | the events of one whole constraint add exactly that constraint, classified, after those already built, leave the variable count and the writer alone, and leave the buffer coherent |
| ProblemBuilding.ProblemBuilderParseListener.constructor | otis/core/ProblemBuilderParseListener.cpp:8-17 | a new builder has no variables, no constraints, empty buffers, operator `""`, degree 0, the flag set and no writer |
| ProblemBuilding.ProblemBuilderParseListener.MetaData | otis/core/ProblemBuilderParseListener.cpp:19-22 | `metaData` records the variable count and changes nothing else |
| ProblemBuilding.ProblemBuilderParseListener.BeginConstraint | otis/core/ProblemBuilderParseListener.cpp:24-30 | `beginConstraint` empties the buffers, clears the operator and the degree and sets the flag |
| ProblemBuilding.ProblemBuilderParseListener.ConstraintTerm | otis/core/ProblemBuilderParseListener.cpp:32-39 | `constraintTerm` appends the coefficient and the literal and clears the flag when the coefficient is not 1 |
| ProblemBuilding.ProblemBuilderParseListener.ConstraintRelationalOperator | otis/core/ProblemBuilderParseListener.cpp:41-43 | the operator is recorded |
| ProblemBuilding.ProblemBuilderParseListener.ConstraintDegree | otis/core/ProblemBuilderParseListener.cpp:45-47 | the degree is recorded |
| ProblemBuilding.ProblemBuilderParseListener.EndConstraint | otis/core/ProblemBuilderParseListener.cpp:49-65 | `endConstraint` appends the clause, cardinality or pseudo-Boolean constraint that `Receive` describes |
| ProblemBuilding.ProblemBuilderParseListener.SetWriter | otis/core/ProblemBuilderParseListener.cpp:73-75 | the writer is recorded |
| ProblemBuilding.ProblemBuilderParseListener.BuildProblem | otis/core/ProblemBuilderParseListener.cpp:67-71 | the problem holds the variable count, the constraints in arrival order and the writer |
| ProblemBuilding.ProblemBuilderParseListener.Notify | otis/core/ProblemBuilderParseListener.cpp:19-75 | each listener call changes the fields as `Receive` says and answers as `BuilderResponse` says |
| OtisCnfParsing.Send | otis/CnfParser.cpp:17-69 | a run of listener calls changes only the events received; it stops at the first call the listener throws from, and when none throws every event is received in order |
| OtisCnfParsing.OtisStep | otis/CnfParser.cpp:20-54 | one turn of the loop only adds events, each a header or clause event (a term always has coefficient 1 and a non-zero literal), and on success always moves forward |
| OtisCnfParsing.HeaderStep | otis/CnfParser.cpp:24-29 | a `p` line sends only header events and moves forward; the range every literal was checked against widens to the new variable count |
| OtisCnfParsing.IntegerStep | otis/CnfParser.cpp:31-53 | an integer sends only clause events and moves forward |
| OtisCnfParsing.OpenClause | otis/CnfParser.cpp:36-41 | opening a clause sends only clause events, leaves the cursor and header alone, and leaves a clause open |
| OtisCnfParsing.IntegerInClause | otis/CnfParser.cpp:43-53 | a `0` or a literal sends only clause events and leaves the cursor alone |
| OtisCnfParsing.OtisLoop | otis/CnfParser.cpp:19-55 | the loop sends only clause and header events, and when it finishes the stream is exhausted |
| OtisCnfParsing.CloseLast | otis/CnfParser.cpp:57-62 | a clause still open is closed with `>=`, degree 1 and `endConstraint`, and nothing else changes |
| OtisCnfParsing.OtisConclusion | otis/CnfParser.cpp:57-69 | after the loop, the parse succeeds exactly when the last clause, if open, is closed, the number of clauses read is the declared one and the listener accepts `endParse`; `endParse` is sent last and only when the count matches |
| OtisCnfParsing.OtisParseClauses | otis/CnfParser.cpp:13-70 | `startParse` is the first event; every other event is a header or clause event, except `endParse`, which can only come last and only when the clause count matches; a successful parse ends with `endParse`; the range of declared variables is exactly the largest of the starting variable count and those of the `p` lines read, and the final variable count is the last `p` line's (with no `p` line the header stays the starting one) |
| OtisCnfParsing.ParseBody | otis/CnfParser.cpp:19-69 | after `startParse`, the listener receives only header and clause events, with `endParse` only last and only when the count matches; a successful parse ends with it |
| OtisCnfParsing.SendTerm | otis/CnfParser.cpp:52 | a checked literal is sent as one clause event, and nothing else changes |
| OtisCnfParsing.ParseSendsDeclaredTerms | otis/CnfParser.cpp:13-70 | every term the listener receives has a literal standing for a variable in `1..N`, where `N` is the largest variable count declared by the start or by any `p` line, and is no smaller than the last header's |
| OtisCnfParsing.NoHeaderKeepsRange | otis/CnfParser.cpp:19-55 | with no `p` character left in the input, not even in a comment, the loop keeps the header and the range of declared variables |
| OtisCnfParsing.CommentLineIsSkipped | otis/CnfParser.cpp:20-22 | a line starting with `c` is skipped whole: the loop goes on from the next line as if it were absent |
| OtisCnfParsing.OneHeaderDeclaresEveryTerm | otis/CnfParser.cpp:13-70 | for any input read with a single `p` line, wherever it stands, every term the listener receives has a literal standing for a variable in `1..N`, `N` being that line's variable count, which is the final header's |
| OtisCnfParsing.HeaderLineSendsMetaData | otis/CnfParser.cpp:24-29 | a `p` line sends exactly one `metaData` with the two integers read, then skips the rest of the line |
| OtisCnfParsing.ZeroSendsClosing | otis/CnfParser.cpp:36-48 | the first integer read with no clause open sends `beginConstraint` and counts a clause; a `0` then sends `>=`, degree 1 and `endConstraint`, so a lone `0` is an empty clause |
| OtisCnfParsing.LiteralSendsTerm | otis/CnfParser.cpp:36-53 | a non-zero literal is accepted exactly when it stands for a declared variable; it then sends `beginConstraint` and counts a clause when none is open, then one term of coefficient 1 with that literal, and leaves a clause open |
| OtisCnfParsing.OtisCnfParser.constructor | otis/CnfParser.cpp:8-11 | a new parser has both counts at zero |
| OtisCnfParsing.OtisCnfParser.Parse | otis/CnfParser.cpp:13-70 | the listener receives the events `OtisParseClauses` describes and the outcome is the same |
| OtisCnfParsing.OtisCnfParser.Loop | otis/CnfParser.cpp:19-55 | the `for (look)` loop does in place what `OtisLoop` says |
| OtisCnfParsing.OtisCnfParser.Conclude | otis/CnfParser.cpp:57-69 | the end of `parse` does what `OtisConclusion` says |
| OtisCnfParsing.OtisCnfParser.Step | otis/CnfParser.cpp:20-54 | the body of the loop does what `OtisStep` says |
| OtisCnfParsing.OtisCnfParser.ReadHeader | otis/CnfParser.cpp:24-29 | the `p` branch does what `HeaderStep` says |
| OtisCnfParsing.OtisCnfParser.ReadInteger | otis/CnfParser.cpp:31-53 | the integer branch does what `IntegerStep` says |
| OtisCnfParsing.OtisCnfParser.EndOrTerm | otis/CnfParser.cpp:43-53 | the `0` and literal branches do what `IntegerInClause` says |
| CnfAgreement.ClausesOf | source/cnf/CnfParser.cpp:75-87 | the problem clauses the `addClause` calls stand for, one per call |
| CnfAgreement.HeaderAgrees | otis/CnfParser.cpp:24-29 | a `p` line keeps the two front ends in step |
| CnfAgreement.MetaDataAgrees | otis/core/ProblemBuilderParseListener.cpp:19-22 | `metaData` gives the builder the variable count the solver-based parser read |
| CnfAgreement.IntegerAgrees | otis/CnfParser.cpp:31-53 | an integer ends both front ends the same way and keeps them in step |
| CnfAgreement.OpenAgrees | otis/CnfParser.cpp:36-41 | opening a clause keeps the two front ends in step |
| CnfAgreement.InClauseAgrees | otis/CnfParser.cpp:43-53 | a `0` gives the builder the same clause the solver receives; a literal extends both buffers |
| CnfAgreement.StepAgrees | otis/CnfParser.cpp:20-54 | one turn of both loops ends the same way and keeps them in step |
| CnfAgreement.LoopAgrees | otis/CnfParser.cpp:19-55 | both main loops end the same way, in step |
| CnfAgreement.CloseLastAgrees | otis/CnfParser.cpp:57-62 | a clause still open at the end gives the builder the clause the solver receives |
| CnfAgreement.ConclusionAgrees | otis/CnfParser.cpp:57-69 | both conclusions end the same way and leave the same clauses |
| CnfAgreement.LoopAndConclusionAgree | otis/CnfParser.cpp:19-69 | from runs in step, the main loop followed by the conclusion ends the same way in both front ends and leaves the same clauses |
| CnfAgreement.ListenerBuildsTheSameClauses | otis/CnfParser.cpp:13-70 | from the same input, the listener-based grammar driving the problem builder ends as the solver-based grammar does (source/cnf/CnfParser.cpp:45-94), and the builder holds exactly the clauses given to the solver, in order |
| OpbGrammar.ScanMetaData | source/pb/OpbParser.cpp:72-85 | the header needs a raw `*` first, else "Metadata line expected"; then two numbers, and the rest of the line is skipped; the only other error is a malformed number |
| OpbGrammar.PastComments | source/pb/OpbParser.cpp:87-91 | `skipComments` stops where `look` finds no `*` |
| OpbGrammar.ReadsMin | source/pb/OpbParser.cpp:102 | the keyword test makes up to four raw reads and never moves back |
| OpbGrammar.ScanIdentifier | source/pb/OpbParser.cpp:180-212 | an identifier read is a literal that stands for a declared variable; the only errors are grammar errors |
| OpbGrammar.ScanIdentifiers | source/pb/OpbParser.cpp:174 | `while (readIdentifier(literals));` only appends literals, each standing for a declared variable |
| OpbGrammar.ScanTerm | source/pb/OpbParser.cpp:172-178 | a term has at least one literal, each standing for a declared variable, and always moves forward |
| OpbGrammar.ScanRelationalOperator | source/pb/OpbParser.cpp:214-235 | the operator read is `=`, `>=` or `<=`; anything else raises "Unrecognized relational operator" |
| OpbGrammar.ScanSemicolon | source/pb/OpbParser.cpp:150-158 | a constraint must end with `;`, which is then consumed; otherwise "Semi-colon expected at end of constraint" |
| OpbGrammar.PeekAgain | source/pb/OpbParser.cpp:87-91 | looking again finds the same character and does not move |
| OpbGrammar.ReadsMinMeaning | source/pb/OpbParser.cpp:102 | the keyword test succeeds exactly when the next four characters are `min:` |
| OpbGrammar.NegationIsAlwaysRejected | source/pb/OpbParser.cpp:190-198 | as written, a negated identifier is always rejected with "Symbol `x' expected", even `~x1`, because the test `look(c) \|\| c != 'x'` holds whatever `look` finds |
| OpbGrammar.OtherCharacterIsLeft | source/pb/OpbParser.cpp:185-211 | anything but `x` or `~` is no identifier and is left to be read again |
| OpbGrammar.IdentifierReadsLiteral | source/pb/OpbParser.cpp:201-209 | `x` and a number give that number as a literal exactly when it stands for a declared variable |
| OpbGrammar.TermNeedsIdentifier | source/pb/OpbParser.cpp:172-178 | a coefficient with no identifier after it raises "Literal identifier expected" |
| OpbGrammar.OperatorMeaning | source/pb/OpbParser.cpp:214-235 | the operator is `=` exactly when the first character is `=`, `>=` exactly when the two characters are `>` and `=`, and `<=` exactly when they are `<` and `=` |
| OpbGrammar.OperatorAfterTerms | source/pb/OpbParser.cpp:116-144 | where the term loop stops, the operator read can only be `=` or `>=` |
| OpbGrammar.SkipComments | source/pb/OpbParser.cpp:87-91 | the loop does in place what `PastComments` says |
| OpbGrammar.ReadIdentifier | source/pb/OpbParser.cpp:180-212 | the scanner does in place what `ScanIdentifier` says |
| OpbGrammar.ReadTerm | source/pb/OpbParser.cpp:172-178 | the scanner does in place what `ScanTerm` says |
| OpbGrammar.ReadRelationalOperator | source/pb/OpbParser.cpp:214-235 | the scanner does in place what `ScanRelationalOperator` says |
| OpbGrammar.ReadSemicolon | source/pb/OpbParser.cpp:150-158 | the scanner does in place what `ScanSemicolon` says |
| OpbParsing.ScanTerms | source/pb/OpbParser.cpp:116-140 | the term loop stops only on `>`, `=` or the end of the stream; it appends literals and coefficients in step, each literal standing for a declared variable |
| OpbParsing.Dispatch | source/pb/OpbParser.cpp:160-169 | `=` gives `addExactly`, `>=` gives `addAtLeast`, and any other operator `addAtMost`, over the literals, coefficients and degree read |
| OpbParsing.ScanConstraint | source/pb/OpbParser.cpp:112-170 | a constraint read becomes one `addExactly` or `addAtLeast` call over parallel lists of declared literals; `addAtMost` is never reached |
| OpbParsing.ScanObjective | source/pb/OpbParser.cpp:93-110 | with no `m` next, `readObjective` returns normally and reads only blanks; otherwise it raises "Objective function not supported" or "Keyword `min:' expected" |
| OpbParsing.ConstraintStep | source/pb/OpbParser.cpp:55-64 | one turn of the constraint loop makes at most one call, well formed, and counts it |
| OpbParsing.ConstraintLoop | source/pb/OpbParser.cpp:55-64 | the loop keeps one well-formed call per constraint counted, and when it finishes the stream is exhausted |
| OpbParsing.CountCheck | source/pb/OpbParser.cpp:66-69 | the parse succeeds exactly when the number of constraints read is the declared one, and otherwise raises "Unexpected number of constraints" |
| OpbParsing.AfterHeader | source/pb/OpbParser.cpp:50-69 | after the header, a successful parse gives the solver exactly the declared number of well-formed calls |
| OpbParsing.ParseOpb | source/pb/OpbParser.cpp:45-70 | on success the solver got exactly the declared number of constraints, each an equality or an at-least constraint over declared variables |
| OpbParsing.HeaderNeedsStar | source/pb/OpbParser.cpp:72-77 | input not starting with `*` raises "Metadata line expected" |
| OpbParsing.ObjectiveIsRejected | source/pb/OpbParser.cpp:93-110 | an objective is never accepted: `min:` raises "Objective function not supported" and any other word starting with `m` raises "Keyword `min:' expected", before any constraint reaches the solver |
| OpbParsing.ObjectiveIsRead | source/pb/OpbParser.cpp:96-109 | with `m` next, the objective is rejected one way or the other |
| OpbParsing.ObjectiveEndsParse | source/pb/OpbParser.cpp:50-51 | a rejected objective ends the parse with no call made |
| OpbParsing.BareIdentifierIsNumberExpected | source/pb/OpbParser.cpp:116-125 | a term written without its coefficient, starting with `x`, raises "Number expected" |
| OpbParsing.LessThanIsNumberExpected | source/pb/OpbParser.cpp:116-125 | as written, `<` where a term or the operator may start raises "Number expected", so an at-most constraint cannot be read |
| OpbParsing.NeverAtMost | source/pb/OpbParser.cpp:160-169 | so no constraint ever becomes `addAtMost` |
| OpbParsing.LinearTermIsAppended | source/pb/OpbParser.cpp:128-134 | a term with one identifier appends its literal and its coefficient in step |
| OpbParsing.ProductIsRejected | source/pb/OpbParser.cpp:136-139 | a term with two or more identifiers raises "Non linear constraints are not supported" |
| OpbParsing.ConstraintBecomesOneCall | source/pb/OpbParser.cpp:142-169 | the operator read picks the call, over the literals and coefficients in the order read |
| OpbParsing.TrailingCommentIsRejected | source/pb/OpbParser.cpp:55-64 | as written, a comment after the last constraint is followed by one more `readConstraint` at the end of the stream, which raises "Unrecognized relational operator" |
| OpbParsing.OpbParser.constructor | source/pb/OpbParser.cpp:40-43 | a new parser has both counts at zero |
| OpbParsing.OpbParser.ConcreteSolver | source/pb/OpbParser.cpp:237-239 | the solver is the one the parser was built with |
| OpbParsing.OpbParser.IsOptimization | source/pb/OpbParser.cpp:241-243 | `isOptimization` returns the field |
| OpbParsing.OpbParser.Parse | source/pb/OpbParser.cpp:45-70 | the solver receives the calls `ParseOpb` describes and the outcome is the same; on success the header fields hold the header read, and `optimization` is set exactly when `min:` was found |
| OpbParsing.OpbParser.ReadMetaData | source/pb/OpbParser.cpp:72-85 | `readMetaData` does what `ScanMetaData` says and sets both counts |
| OpbParsing.OpbParser.ReadObjective | source/pb/OpbParser.cpp:93-110 | `readObjective` does what `ScanObjective` says; `optimization` is set exactly when `min:` was read |
| OpbParsing.OpbParser.Loop | source/pb/OpbParser.cpp:54-64 | the `for (look)` loop does in place what `ConstraintLoop` says |
| OpbParsing.OpbParser.Step | source/pb/OpbParser.cpp:56-63 | the body of the loop does what `ConstraintStep` says |
| OpbParsing.OpbParser.ReadConstraint | source/pb/OpbParser.cpp:112-170 | `readConstraint` does what `ScanConstraint` says and makes its call |
| OpbParsing.OpbParser.ReadTerms | source/pb/OpbParser.cpp:116-140 | the term loop does in place what `ScanTerms` says |
| OtisOpbParsing.ConstraintTermEvent | otis/pb/OpbParser.cpp:133-140 | a term of one literal is sent as `constraintTerm` with that literal, a longer one as `constraintProduct` with all its literals, each with its coefficient |
| OtisOpbParsing.ObjectiveTermEvent | otis/pb/OpbParser.cpp:97-104 | the same choice between `objectiveTerm` and `objectiveProduct` in the objective function |
| OtisOpbParsing.NextTerm | otis/pb/OpbParser.cpp:88-104 | one term must start a number, else "Number expected"; the term read is sent as at most one event, of the objective or of a constraint, and the stream moves forward |
| OtisOpbParsing.ObjectiveLoop | otis/pb/OpbParser.cpp:80-105 | the objective's term loop ends on `;` or the end of the stream, only appends events and never moves back |
| OtisOpbParsing.Objective | otis/pb/OpbParser.cpp:68-113 | with no `m` next nothing is sent and only blanks are read; a keyword other than `min:` raises "Keyword `min:' expected" |
| OtisOpbParsing.MinObjective | otis/pb/OpbParser.cpp:77-107 | after `min:`, `beginObjective` is sent first; if the listener throws there, nothing more is read or sent |
| OtisOpbParsing.TermLoop | otis/pb/OpbParser.cpp:118-141 | the constraint's term loop stops only on `>`, `=` or the end of the stream, and only appends events |
| OtisOpbParsing.Closing | otis/pb/OpbParser.cpp:143-162 | the end of a constraint sends at most three events and, when it succeeds, moves forward |
| OtisOpbParsing.Constraint | otis/pb/OpbParser.cpp:115-163 | `readConstraint` only appends events and, when it succeeds, moves forward |
| OtisOpbParsing.ConstraintStep | otis/pb/OpbParser.cpp:25-34 | one turn of the constraint loop counts one constraint when it succeeds and keeps the header |
| OtisOpbParsing.ConstraintLoop | otis/pb/OpbParser.cpp:25-34 | the loop keeps the header, only appends events, and ends at the end of the stream when it succeeds |
| OtisOpbParsing.Conclusion | otis/pb/OpbParser.cpp:36-41 | `endParse` is sent only when the number of constraints read is the declared one, and the parse succeeds exactly when it is and the listener accepts `endParse` |
| OtisOpbParsing.AfterHeader | otis/pb/OpbParser.cpp:18-41 | after the header the events are only appended, and a successful parse ends at the end of the stream |
| OtisOpbParsing.HeaderLine | otis/pb/OpbParser.cpp:44-60 | the header line sends at most one event, `metaData` with the two counts read, and sends it when it succeeds |
| OtisOpbParsing.AfterStart | otis/pb/OpbParser.cpp:16-41 | after `startParse` the events are only appended, and a successful parse ends at the end of the stream |
| OtisOpbParsing.ParseOpbEvents | otis/pb/OpbParser.cpp:13-42 | `startParse` is sent first, whatever follows |
| OtisOpbParsing.ObjectiveLoopSendsTerms | otis/pb/OpbParser.cpp:80-105 | every event the objective's term loop sends is an objective term or product, each of whose literals stands for a variable the header declares |
| OtisOpbParsing.ObjectiveSendsInOrder | otis/pb/OpbParser.cpp:68-113 | an objective is sent as `beginObjective`, its terms, and `endObjective` last when it succeeds; nothing else; every literal sent stands for a declared variable |
| OtisOpbParsing.TermLoopSendsTerms | otis/pb/OpbParser.cpp:118-141 | every event the constraint's term loop sends is a constraint term or product, each of whose literals stands for a variable the header declares |
| OtisOpbParsing.ClosingSendsInOrder | otis/pb/OpbParser.cpp:143-162 | the operator is sent first, the degree second, `endConstraint` third; the end succeeds exactly when all three are sent and `endConstraint` is accepted, and then the operator, the degree and the `;` were all read |
| OtisOpbParsing.ConstraintsFromJoin | otis/pb/OpbParser.cpp:115-163 | events of constraints before and after a point are events of constraints throughout |
| OtisOpbParsing.ClosingSendsItsEvents | otis/pb/OpbParser.cpp:143-162 | the end of a constraint sends only events of that constraint, none of which begins another, and every literal sent stands for a declared variable |
| OtisOpbParsing.ConstraintSendsItsEvents | otis/pb/OpbParser.cpp:115-163 | every event sent while a constraint is read belongs to a constraint, with literals standing for declared variables |
| OtisOpbParsing.ConstraintBeginsOnce | otis/pb/OpbParser.cpp:115-163 | reading one constraint, in full or not, sends exactly one `beginConstraint` |
| OtisOpbParsing.ConstraintSendsInOrder | otis/pb/OpbParser.cpp:115-163 | a constraint read in full is sent as `beginConstraint`, its terms, its operator, its degree and `endConstraint`, in that order |
| OtisOpbParsing.ConstraintLoopSendsConstraints | otis/pb/OpbParser.cpp:25-34 | every event the constraint loop sends belongs to a constraint and carries only declared literals; it begins one constraint per constraint counted, plus the one that failed when the loop stops on an error |
| OtisOpbParsing.AfterHeaderSendsBody | otis/pb/OpbParser.cpp:18-41 | after the header the listener receives only objective and constraint events, with `endParse` only last and only once the count matches; a successful parse ends with it |
| OtisOpbParsing.AfterHeaderSendsDeclared | otis/pb/OpbParser.cpp:18-41 | after the header line, every literal the listener receives stands for a variable the header declares |
| OtisOpbParsing.AfterHeaderBeginsDeclared | otis/pb/OpbParser.cpp:24-41 | after the header line, a parse that succeeds begins exactly as many constraints as the header declares, less those already counted |
| OtisOpbParsing.ParseSendsDeclaredConstraints | otis/pb/OpbParser.cpp:13-42 | every term and product the listener receives has literals standing for variables the header read declares, and a successful parse begins exactly as many constraints as that header declares |
| OtisOpbParsing.ParseSendsInOrder | otis/pb/OpbParser.cpp:13-42 | `startParse` first, `metaData` with the counts read second, then objective and constraint events; `endParse` only last and only once the count matches, and a successful parse ends with it |
| OtisOpbParsing.TermIsSentAsIs | otis/pb/OpbParser.cpp:129-140 | a term with one literal is sent as a term, one with more as a product; the parser itself rejects neither |
| OtisOpbParsing.BareIdentifierIsNumberExpected | otis/pb/OpbParser.cpp:80-127 | a term written without its coefficient, starting with `x`, raises "Number expected" in a constraint and in the objective, with nothing sent for it |
| OtisOpbParsing.LessThanIsNumberExpected | otis/pb/OpbParser.cpp:118-127 | as written, `<` where a term or the operator may start raises "Number expected", so `<=` cannot be read here either |
| OtisOpbParsing.DefaultListenerRejectsObjective | otis/pb/OpbParser.cpp:77-78 | with the default answer to `beginObjective`, `min:` is rejected as soon as the objective begins, with only `beginObjective` sent |
| OtisOpbParsing.MinStartsObjective | otis/pb/OpbParser.cpp:77 | `min:` where the objective may start leads to the objective function |
| OtisOpbParsing.MinObjectiveRejected | otis/pb/OpbParser.cpp:78 | a listener that rejects `beginObjective` stops the objective there, with what it raised and nothing else sent |
| OtisOpbParsing.DefaultListenerRejectsMin | otis/core/ParseListener.cpp:12-14 | after `min:`, a listener answering `beginObjective` by default raises "Optimization problems are not supported", with only `beginObjective` sent |
| OtisOpbParsing.OtisOpbParser.constructor | otis/pb/OpbParser.cpp:8-11 | a new parser has both counts at zero |
| OtisOpbParsing.OtisOpbParser.Parse | otis/pb/OpbParser.cpp:13-42 | the listener receives the events `ParseOpbEvents` describes, the outcome is the same, and on success the header fields hold the header read |
| OtisOpbParsing.OtisOpbParser.ReadMetaData | otis/pb/OpbParser.cpp:44-60 | `readMetaData` does what `HeaderLine` says |
| OtisOpbParsing.OtisOpbParser.Rest | otis/pb/OpbParser.cpp:18-41 | what follows the header does what `AfterHeader` says |
| OtisOpbParsing.OtisOpbParser.ReadObjective | otis/pb/OpbParser.cpp:68-113 | `readObjective` does what `Objective` says |
| OtisOpbParsing.OtisOpbParser.ObjectiveTerms | otis/pb/OpbParser.cpp:80-105 | the objective's term loop does what `ObjectiveLoop` says |
| OtisOpbParsing.OtisOpbParser.Loop | otis/pb/OpbParser.cpp:24-34 | the constraint loop does what `ConstraintLoop` says |
| OtisOpbParsing.OtisOpbParser.ReadConstraint | otis/pb/OpbParser.cpp:115-163 | `readConstraint` does what `Constraint` says |
| OtisOpbParsing.OtisOpbParser.ReadTerms | otis/pb/OpbParser.cpp:118-141 | the constraint's term loop does what `TermLoop` says |
| OtisOpbParsing.OtisOpbParser.ReadClosing | otis/pb/OpbParser.cpp:143-162 | the end of `readConstraint` does what `Closing` says |
| Dispatching.FormatOf | source/core/parser.cpp:60-78 | `c` or `p` announces DIMACS CNF, `*` OPB and `<` XCSP3, each exactly; nothing else announces a format |
| Dispatching.Select | source/core/parser.cpp:55-78 | a format is selected on a character that announces it, which is left unread for the grammar; every rejection is a parse error |
| Dispatching.Grammar | source/core/parser.cpp:60-80 | the CNF grammar gives the solver only clauses without a 0 literal, and the OPB grammar only equality or at-least constraints |
| Dispatching.EmptyInputIsRejected | source/core/parser.cpp:55-58 | "Input is empty" is raised exactly when the input is empty or only blanks |
| Dispatching.SelectionIsFirstNonBlank | source/core/parser.cpp:55-78 | a grammar is chosen exactly when the first non-blank character announces a format, and it starts on that character; any other character gives "Could not determine input type" |
| Dispatching.GrammarReadsDispatchCharacter | source/core/parser.cpp:53-80 | the first character the grammar reads is the one that selected it |
| Dispatching.Forward | source/core/parser.cpp:70-73 | the calls the XCSP3 parser's callbacks make reach the solver, all of them and in order |
| Dispatching.Parse | source/core/parser.cpp:49-83 | when no format is selected the call throws before the factory is used; otherwise the factory creates exactly one solver, of the format's kind, which receives the grammar's calls and is returned exactly when the grammar does not throw |
| OtisDispatching.WriterOf | otis/core/parser.cpp:53-66 | `c` or `p` gives the DIMACS writer and `*` the OPB writer, each exactly; nothing else, `<` included, gives a writer |
| OtisDispatching.Select | otis/core/parser.cpp:48-66 | a writer is selected on a character that announces it, which is left unread for the grammar; every rejection is a parse error |
| OtisDispatching.Grammar | otis/core/parser.cpp:53-69 | whichever grammar runs, the listener receives `startParse` first, and a parse that succeeds ends with `endParse` |
| OtisDispatching.Dispatch | otis/core/parser.cpp:68-69 | `setWriter` with the selected writer is sent before anything else, and `startParse` right after it |
| OtisDispatching.EmptyInputIsRejected | otis/core/parser.cpp:48-51 | "Input is empty" is raised exactly when the input is empty or only blanks |
| OtisDispatching.SelectionIsFirstNonBlank | otis/core/parser.cpp:48-66 | a grammar is chosen exactly when the first non-blank character is `c`, `p` or `*`, and it starts on that character; any other character, `<` included, gives "Could not determine input type" |
| OtisDispatching.FormatsAgree | otis/core/parser.cpp:53-66 | both dispatchers read `c`, `p` and `*` alike, and only the solver-based one knows `<` |
| OtisDispatching.Parse | otis/core/parser.cpp:42-70 | when no writer is selected the call throws before the listener hears anything; otherwise the listener receives what `Dispatch` describes |
| XcspCallback.SwitchIsOneToOne | autis/src/xcsp/AutisXcspCallback.cpp:212-374 | the operator switch fails exactly on tags it does not know, and each factory call comes from exactly one tag |
| XcspCallback.CreateIntension | autis/src/xcsp/AutisXcspCallback.cpp:204-376 | the only error the translation of a tree raises is "Unknown operator" |
| XcspCallback.CreateAll | autis/src/xcsp/AutisXcspCallback.cpp:219-225 | the loop over the children of an n-ary node gives one translation per child, or raises "Unknown operator" |
| XcspCallback.CreateIntensionMirrors | autis/src/xcsp/AutisXcspCallback.cpp:204-376 | a tree translates to a constraint exactly when that constraint mirrors it: leaves give constants and variables, and each operator gives its factory call over the translations of its children, in order |
| XcspCallback.CreateAllMirrors | autis/src/xcsp/AutisXcspCallback.cpp:219-225 | the loop over the children gives their translations, one each and in order, exactly when each child mirrors its translation |
| XcspCallback.FailsExactlyOnUnknownTag | autis/src/xcsp/AutisXcspCallback.cpp:372-374 | the translation throws exactly when a tag the translation reaches (the first parameter of a unary tag, the first two of a binary one, every parameter of an n-ary one) is unknown; parameters past a tag's arity are never read |
| XcspCallback.AllFailExactlyOnUnknownTag | autis/src/xcsp/AutisXcspCallback.cpp:219-225 | the loop over the children throws exactly when some child reaches an unknown tag, in the sense of `FailsExactlyOnUnknownTag` |
| XcspCallback.ChildrenPastArityAreIgnored | autis/src/xcsp/AutisXcspCallback.cpp:214-236 | a unary tag reads only its first parameter and a binary one only its first two: adding parameters past the arity changes neither the translation nor whether its tags are known |
| XcspCallback.UnreachedUnknownTagExample | autis/src/xcsp/AutisXcspCallback.cpp:214-217 | `abs(x, foo())`, whose second parameter has an unknown tag, translates to the absolute value of `x` without throwing |
| XcspCallback.RoundTrip | autis/src/xcsp/AutisXcspCallback.cpp:204-376 | every constraint the factory can build is the translation of the tree it is written as |
| XcspCallback.SumEqualityExample | autis/src/xcsp/AutisXcspCallback.cpp:204-352 | the tree of `eq(add(x,y),z)` becomes the n-ary equality of the n-ary sum of `x` and `y` with `z` |
| XcspCallback.OperatorOf | autis/src/xcsp/AutisXcspCallback.cpp:185-202 | every comparison except `IN` has a solver operator; `IN` raises "Unsupported condition operator" |
| XcspCallback.OperatorOfIsOneToOne | autis/src/xcsp/AutisXcspCallback.cpp:185-202 | `LT`, `LE`, `EQ`, `NE`, `GE` and `GT` map one-to-one onto the solver's operators |
| XcspCallback.ConditionOf | autis/src/xcsp/AutisXcspCallback.cpp:109-120 | an interval raises "Unsupported condition type"; otherwise the operator is the condition's, and the right-hand side is its value for an integer and its variable for a variable |
| XcspCallback.Ids | autis/src/xcsp/AutisXcspCallback.cpp:378-384 | the identifiers of the variables, one each and in order |
| XcspCallback.CreateEach | autis/src/xcsp/AutisXcspCallback.cpp:394-401 | the trees' translations, one each and in order, exactly when every tree translates; otherwise "Unknown operator" |
| XcspCallback.ToStringVector | autis/src/xcsp/AutisXcspCallback.cpp:378-384 | the loop gives the identifiers of the variables, in order |
| XcspCallback.ToBigIntegerVector | autis/src/xcsp/AutisXcspCallback.cpp:386-392 | the loop gives the same integers, in order |
| XcspCallback.ToBigIntegerMatrix | autis/src/xcsp/AutisXcspCallback.cpp:403-409 | the loop gives the same tuples, in order |
| XcspCallback.ToIntensionConstraintVector | autis/src/xcsp/AutisXcspCallback.cpp:394-401 | the loop gives what `CreateEach` says |
| XcspCallback.IntensionOf | autis/src/xcsp/AutisXcspCallback.cpp:79-81 | an intension constraint is added exactly when every tag the translation reaches is known (the first parameter of a unary tag, the first two of a binary one, every parameter of an n-ary one), and the constraint added mirrors the tree |
| XcspCallback.UnaryExtensionOf | autis/src/xcsp/AutisXcspCallback.cpp:83-94 | starred tuples, and only they, raise "Starred tuples are not supported"; otherwise supports or conflicts as asked, on the variable's identifier with the same values |
| XcspCallback.ExtensionOf | autis/src/xcsp/AutisXcspCallback.cpp:96-107 | the same on a list of variables, with their identifiers in order and the same tuples |
| XcspCallback.SumOf | autis/src/xcsp/AutisXcspCallback.cpp:109-120 | a sum over the identifiers in order, failing exactly when the condition does, with its error |
| XcspCallback.WeightedSumOf | autis/src/xcsp/AutisXcspCallback.cpp:122-133 | a weighted sum over the identifiers and the same coefficients, failing exactly when the condition does |
| XcspCallback.VariableCoefficientSumOf | autis/src/xcsp/AutisXcspCallback.cpp:135-148 | a sum with variable coefficients over the identifiers of both lists, failing exactly when the condition does |
| XcspCallback.SumIntensionOf | autis/src/xcsp/AutisXcspCallback.cpp:150-163 | an interval raises "Unsupported condition type"; otherwise a sum over the trees' translations succeeds exactly when every tree translates and the operator is supported |
| XcspCallback.WeightedSumIntensionOf | autis/src/xcsp/AutisXcspCallback.cpp:165-178 | the same with the coefficients, unchanged |
| XcspCallback.AutisXcspCallback.constructor | autis/src/xcsp/AutisXcspCallback.cpp:48-53 | the callback asks for trees, not strings, and fills the given solver |
| XcspCallback.AutisXcspCallback.BeginInstance | autis/src/xcsp/AutisXcspCallback.cpp:55-57 | the instance is an optimisation problem exactly when it is a COP |
| XcspCallback.AutisXcspCallback.BuildConstraintIntension | autis/src/xcsp/AutisXcspCallback.cpp:79-81 | the solver gets the call `IntensionOf` gives, or nothing and the error |
| XcspCallback.AutisXcspCallback.BuildConstraintUnaryExtension | autis/src/xcsp/AutisXcspCallback.cpp:83-94 | the solver gets the call `UnaryExtensionOf` gives, or nothing and the error |
| XcspCallback.AutisXcspCallback.BuildConstraintExtension | autis/src/xcsp/AutisXcspCallback.cpp:96-107 | the solver gets the call `ExtensionOf` gives, or nothing and the error |
| XcspCallback.AutisXcspCallback.RightHandSideOf | autis/src/xcsp/AutisXcspCallback.cpp:111-115 | the value for an integer operand, the variable for a variable operand |
| XcspCallback.AutisXcspCallback.BuildConstraintSum | autis/src/xcsp/AutisXcspCallback.cpp:109-120 | the solver gets the call `SumOf` gives, or nothing and the error |
| XcspCallback.AutisXcspCallback.BuildConstraintWeightedSum | autis/src/xcsp/AutisXcspCallback.cpp:122-133 | the solver gets the call `WeightedSumOf` gives, or nothing and the error |
| XcspCallback.AutisXcspCallback.BuildConstraintVariableCoefficientSum | autis/src/xcsp/AutisXcspCallback.cpp:135-148 | the solver gets the call `VariableCoefficientSumOf` gives, or nothing and the error |
| XcspCallback.AutisXcspCallback.BuildConstraintSumIntension | autis/src/xcsp/AutisXcspCallback.cpp:150-163 | the solver gets the call `SumIntensionOf` gives, or nothing and the error |
| XcspCallback.AutisXcspCallback.BuildConstraintWeightedSumIntension | autis/src/xcsp/AutisXcspCallback.cpp:165-178 | the solver gets the call `WeightedSumIntensionOf` gives, or nothing and the error |

## Left out

- XcspCallback.CreateIntension: parameters of a unary or binary operator past its arity are never read, as in the C++; an unknown tag among them does not make the translation throw (see `ChildrenPastArityAreIgnored`).
- `parse(path)` in source/core/parser.cpp:44-47 and otis/core/parser.cpp:37-40 only opens a file and calls the stream version. File I/O is not modelled.
- The XCSP3 XML parser is a foreign library. The solver-based dispatcher takes it as a parameter (`Dispatching.XcspParser`) and sees it only through the calls its callbacks make and how it ends. The adapter's `dynamic_cast` of the solver is not modelled.
- `dynamic_cast` of the solver in the dispatcher and the `getConcreteSolver` overrides are runtime type tests on foreign classes. The solver's kind is recorded in `Backend.Solver.kind` instead.
- Fixed-width integers are not modelled. `int` and `long long` are unbounded here. So are the `(int)` narrowing of the number reader, `abs(INT_MIN)` and the `(long)` casts of the XCSP3 constants. `BigInteger` is `int`.
- `RelationalOperator::valueOf` and the Clause, Cardinality and PseudoBoolean constructors are backend internals. The problem builder's constraints are datatypes carrying the same fields.
- `metaData`'s `reserve` on the constraint list only affects capacity, so it is not modelled.
- The verbatim copies of the modelled files are covered by their canonical file. These are the other Scanner, AbstractParser, CnfParser, OpbParser, parser and XCSP callback copies.
- The native and Java XCSP3 callbacks differ only in the factory they hard-wire, so one translator over `IntensionFactory` stands for both.
- The other XCSP3 callbacks are not modelled because they only forward their arguments to unseen solver methods. These are `buildVariableInteger` (autis/src/xcsp/AutisXcspCallback.cpp:67-73), `buildConstraintAlldifferent` (75-77), `buildObjectiveMaximize` (180-183), `newNativeInstance` and `newJavaInstance` (59-65), and the roughly eighty global-constraint declarations of the callback header.
- XCSP3 `Tree` objects are modelled by their root `Node`. The bounds of an interval condition are not modelled, since an interval is always rejected.
- XcspCallback.CreateIntension: requires `Translatable`, i.e. unary tags with at least one child and binary tags with at least two. The XCSP3 parser guarantees this when it builds a tree, and the C++ would index past the children otherwise.
- XcspCallback.AutisXcspCallback.constructor: `optimization` is not initialised by the C++ constructor. The model starts it at `false`.
- XcspCallback.SumIntensionOf: C++ leaves the order of evaluation of a call's arguments unspecified. When both the trees and the operator are invalid, the model raises the trees' error ("Unknown operator") first. The same holds for `WeightedSumIntensionOf`.
- The cursor and the header fields after a throw are not stated by the class methods. Those objects are discarded by the callers once an exception propagates.
- The stream's eof flag is modelled as a sticky flag on the cursor, and the character `read()` returns at the end of the stream as a constant outside the grammar's alphabet. Real `istream` state is not modelled.
- A listener's answer (`ParseEvents.Listener.respond`) is a function of the event alone. A listener whose answer depends on the events it received before is not covered, for example one that throws on a second `metaData` or after some number of constraints. The default listener and the problem builder answer by the event alone.
- The backend solver and the factory are recording stubs (`Backend`). The Universe solvers themselves are not part of this model.

=== FILE: abstract_parser.dfy ===
/** What every grammar shares: the two counts read from a header, which start
    at zero, and the range check applied to every literal read. */
module AbstractParsing {
  import opened Outcomes

  const InvalidLiteralMessage := "An invalid literal has been read"

  /** `numberOfVariables` and `numberOfConstraints` as a header sets them. */
  datatype Header = Header(numberOfVariables: int, numberOfConstraints: int)

  /** `literal` stands for the variable `v`, positively or negatively. */
  predicate Denotes(literal: int, v: int) {
    literal == v || literal == -v
  }

  /** `checkLiteral`: a literal is accepted, unchanged, exactly when it stands
      for one of the declared variables `1..numberOfVariables`. */
  function CheckLiteral(numberOfVariables: int, literal: int): (r: Result<int>)
    ensures r.Ok? <==> exists v :: 1 <= v <= numberOfVariables && Denotes(literal, v)
    ensures r.Ok? ==> r.value == literal
    ensures r.Fail? ==> r.error == ParseException(InvalidLiteralMessage)
  {
    var variable: int := Abs(literal);
    if variable == 0 || variable > numberOfVariables then
      assert forall v :: Denotes(literal, v) ==> v == variable || v == -variable;
      Fail(ParseException(InvalidLiteralMessage))
    else
      assert Denotes(literal, variable);
      Ok(literal)
  }

  /** Every literal of `literals` passes the check against `numberOfVariables`. */
  predicate DeclaredLiterals(numberOfVariables: int, literals: seq<int>) {
    forall j :: 0 <= j < |literals| ==> CheckLiteral(numberOfVariables, literals[j]).Ok?
  }

  /** The larger of the variable count declared so far and a newly declared
      one. */
  function Widen(widest: int, numberOfVariables: int): (r: int)
    ensures widest <= r && numberOfVariables <= r
    ensures r == widest || r == numberOfVariables
  {
    if numberOfVariables > widest then numberOfVariables else widest
  }

  /** The largest of `start` and the variable counts `counts`, declared in
      turn: it bounds each of them and is one of them. */
  function Largest(start: int, counts: seq<int>): (r: int)
    ensures start <= r && forall i :: 0 <= i < |counts| ==> counts[i] <= r
    ensures r == start || exists i :: 0 <= i < |counts| && r == counts[i]
  {
    if |counts| == 0 then start
    else
      var earlier := Largest(start, counts[..|counts| - 1]);
      assert forall i :: 0 <= i < |counts| - 1 ==> counts[..|counts| - 1][i] == counts[i];
      Widen(earlier, counts[|counts| - 1])
  }

  /** Declaring `a`, then `b`, widens as declaring `a + b` does. */
  lemma {:induction false} LargestJoin(start: int, a: seq<int>, b: seq<int>)
    ensures Largest(Largest(start, a), b) == Largest(start, a + b)
  {
    if |b| > 0 {
      LargestJoin(start, a, b[..|b| - 1]);
      assert (a + b)[..|a + b| - 1] == a + b[..|b| - 1];
    } else {
      assert a + b == a;
    }
  }

  /** With a single `p` line and no variable declared before it, the range
      every literal is checked against is the one that line declares. */
  lemma SingleDeclaration(count: int, literals: seq<int>)
    ensures DeclaredLiterals(Largest(0, [count]), literals) ==> DeclaredLiterals(count, literals)
  {
    if count <= 0 && |literals| > 0 {
      assert !CheckLiteral(0, literals[0]).Ok?;
    }
  }

  /** Zero is never a literal. */
  lemma ZeroIsRejected(numberOfVariables: int)
    ensures CheckLiteral(numberOfVariables, 0) == Fail(ParseException(InvalidLiteralMessage))
  {
  }

  /** With the variable count a parser starts with, every literal is rejected. */
  lemma EverythingRejectedBeforeHeader(literal: int)
    ensures CheckLiteral(0, literal).Fail?
  {
  }

  /** The check does not depend on the sign of the literal. */
  lemma CheckIsSymmetric(numberOfVariables: int, literal: int)
    ensures CheckLiteral(numberOfVariables, literal).Ok? <==> CheckLiteral(numberOfVariables, -literal).Ok?
  {
  }

  /** A literal accepted under some count is accepted under every larger one. */
  lemma CheckIsMonotone(numberOfVariables: int, larger: int, literal: int)
    requires numberOfVariables <= larger
    requires CheckLiteral(numberOfVariables, literal).Ok?
    ensures CheckLiteral(larger, literal) == Ok(literal)
  {
  }
}

=== FILE: backend.dfy ===
/** The solver side of the front end. The solvers are outside the model: what
    matters is which solver was created and which calls it received, in order,
    so a solver is a log of the calls made on it. */
module Backend {
  import opened IntensionFactory

  /** The three solvers a factory can create. */
  datatype SolverKind = SatSolver | PseudoBooleanSolver | CspSolver

  /** The relational operators a CSP solver understands. */
  datatype RelationalOperator = LT | LE | EQ | NEQ | GE | GT

  /** The right-hand side of a sum: an integer value or a variable. */
  datatype RightHandSide = Value(value: int) | OnVariable(variable: string)

  /** One call made on a solver, with its arguments. */
  datatype Call =
    | AddClause(literals: seq<int>)
    | AddExactly(literals: seq<int>, coefficients: seq<int>, degree: int)
    | AddAtLeast(literals: seq<int>, coefficients: seq<int>, degree: int)
    | AddAtMost(literals: seq<int>, coefficients: seq<int>, degree: int)
    | Csp(call: CspCall)

  /** The calls only a CSP solver receives. */
  datatype CspCall =
    | AddIntension(constraint: Intension)
    | AddSupportOf(variable: string, values: seq<int>)
    | AddConflictsOf(variable: string, values: seq<int>)
    | AddSupport(variables: seq<string>, tuples: seq<seq<int>>)
    | AddConflicts(variables: seq<string>, tuples: seq<seq<int>>)
    | AddSum(variables: seq<string>, operator: RelationalOperator, rhs: RightHandSide)
    | AddWeightedSum(variables: seq<string>, coefficients: seq<int>, operator: RelationalOperator, rhs: RightHandSide)
    | AddSumWithVariableCoefficients(variables: seq<string>, coefficientVariables: seq<string>, operator: RelationalOperator, rhs: RightHandSide)
    | AddSumIntension(constraints: seq<Intension>, operator: RelationalOperator, rhs: RightHandSide)
    | AddWeightedSumIntension(constraints: seq<Intension>, coefficients: seq<int>, operator: RelationalOperator, rhs: RightHandSide)

  /** A solver, seen through the calls made on it. */
  class Solver {
    const kind: SolverKind
    var calls: seq<Call>

    constructor (kind: SolverKind)
      ensures this.kind == kind && calls == []
    {
      this.kind := kind;
      calls := [];
    }

    method Add(call: Call)
      modifies this
      ensures calls == old(calls) + [call]
    {
      calls := calls + [call];
    }
  }

  /** A solver factory, seen through the solvers it was asked to create. */
  class SolverFactory {
    var created: seq<SolverKind>

    constructor ()
      ensures created == []
    {
      created := [];
    }

    /** `createSatSolver`, `createPseudoBooleanSolver` or `createCspSolver`. */
    method Create(kind: SolverKind) returns (solver: Solver)
      modifies this
      ensures fresh(solver) && solver.kind == kind && solver.calls == []
      ensures created == old(created) + [kind]
    {
      solver := new Solver(kind);
      created := created + [kind];
    }
  }
}

=== FILE: cnf_agreement.dfy ===
/** The two DIMACS CNF front ends agree: the problem builder, listening to
    the events of the listener-based grammar, builds one clause per call the
    solver-based grammar makes on its solver, with the same literals in the
    same order, and both parses end the same way. */
module CnfAgreement {
  import opened Outcomes
  import opened Scanning
  import opened AbstractParsing
  import opened Backend
  import opened ParseEvents
  import opened CnfParsing
  import opened OtisCnfParsing
  import opened ProblemBuilding

  /** The problem constraints that the solver calls `added` stand for: one
      clause per `addClause`, the other calls standing for none. */
  function ClausesOf(added: seq<Call>): (cs: seq<Constraint>)
    ensures (forall i :: 0 <= i < |added| ==> added[i].AddClause?) ==> |cs| == |added|
    decreases |added|
  {
    if added == [] then []
    else
      var last := added[|added| - 1];
      ClausesOf(added[..|added| - 1]) + (if last.AddClause? then [Clause(last.literals)] else [])
  }

  lemma ClausesOfSnoc(added: seq<Call>, literals: seq<int>)
    ensures ClausesOf(added + [AddClause(literals)]) == ClausesOf(added) + [Clause(literals)]
  {
    assert (added + [AddClause(literals)])[..|added|] == added;
  }

  lemma ReplaySnoc(b: Builder, es: seq<Event>, e: Event)
    ensures Replay(b, es + [e]) == Receive(Replay(b, es), e)
  {
    assert (es + [e])[..|es|] == es;
  }

  /** The builder after the events of a listener-based run. */
  function Built(o: EventState): Builder {
    Replay(Fresh, o.sent)
  }

  /** The builder holds one clause per `addClause` of the other run. */
  ghost predicate SameClauses(a: ClauseState, o: EventState) {
    Built(o).constraints == ClausesOf(a.added)
  }

  /** The two runs are in step: same cursor, header and clause counters, the
      builder holds the clauses given to the solver and the variable count
      read, and while a clause is open the builder's buffer holds its
      literals, with coefficients all 1. */
  ghost predicate Agree(a: ClauseState, o: EventState) {
    && a.at == o.at && a.header == o.header && a.inClause == o.inClause && a.clausesRead == o.clausesRead
    && SameClauses(a, o)
    && Built(o).numberOfVariables == a.header.numberOfVariables
    && (a.inClause ==> Built(o).literals == a.clause && Built(o).allCoefficientsAre1)
  }

  /** Closing an open clause gives the builder that clause. */
  lemma ClosingBuildsClause(b: Builder, es: seq<Event>)
    requires b.allCoefficientsAre1
    ensures var r := Replay(Fresh, es + ClosingEvents);
            Replay(Fresh, es) == b ==> r.constraints == b.constraints + [Clause(b.literals)] && r.numberOfVariables == b.numberOfVariables
  {
    if Replay(Fresh, es) == b {
      ReplayAppend(Fresh, es, ClosingEvents);
      ReplayClosing(b, ">=", 1);
    }
  }

  lemma HeaderAgrees(s: seq<char>, a: ClauseState, o: EventState)
    requires Agree(a, o)
    ensures var ra := CnfParsing.HeaderStep(s, a);
            var ro := OtisCnfParsing.HeaderStep(s, BuilderResponse, o);
            && ra.outcome == ro.outcome && SameClauses(ra.state, ro.state)
            && (ra.outcome.Pass? ==> Agree(ra.state, ro.state))
  {
    match ScanNumber(s, a.at)
    case Fail(_) =>
    case Ok(v) =>
      match ScanNumber(s, v.after)
      case Fail(_) =>
        assert SameClauses(a.(header := a.header.(numberOfVariables := v.value)), o.(header := o.header.(numberOfVariables := v.value)));
      case Ok(n) => MetaDataAgrees(a, o, v.value, n.value, Widen(a.widest, v.value), n.after, PastLine(s, n.after));
  }

  /** The `metaData` event gives the builder the variable count read; the
      two runs then skip to the same place. */
  lemma MetaDataAgrees(a: ClauseState, o: EventState, variables: int, constraints: int, widest: int, at: Cursor, past: Cursor)
    requires Agree(a, o)
    ensures var h := Header(variables, constraints);
            var told := Send(BuilderResponse, o.(at := at, header := h, widest := widest), [MetaData(variables, constraints)]);
            && told.outcome.Pass?
            && Agree(a.(at := past, header := h, widest := widest), told.state.(at := past))
  {
    var e := MetaData(variables, constraints);
    assert Accepts(BuilderResponse, [e]);
    ReplaySnoc(Fresh, o.sent, e);
  }

  lemma IntegerAgrees(s: seq<char>, a: ClauseState, o: EventState)
    requires Agree(a, o)
    ensures var ra := CnfParsing.IntegerStep(s, a);
            var ro := OtisCnfParsing.IntegerStep(s, BuilderResponse, o);
            && ra.outcome == ro.outcome && SameClauses(ra.state, ro.state)
            && (ra.outcome.Pass? ==> Agree(ra.state, ro.state))
  {
    match ScanNumber(s, a.at)
    case Fail(_) =>
    case Ok(l) =>
      OpenAgrees(a.(at := l.after), o.(at := l.after));
      InClauseAgrees(CnfParsing.OpenClause(a.(at := l.after)), OtisCnfParsing.OpenClause(BuilderResponse, o.(at := l.after)).state, l.value);
  }

  /** Opening a clause, or finding one open, keeps the runs in step. */
  lemma OpenAgrees(a: ClauseState, o: EventState)
    requires Agree(a, o)
    ensures var begun := OtisCnfParsing.OpenClause(BuilderResponse, o);
            begun.outcome.Pass? && Agree(CnfParsing.OpenClause(a), begun.state)
  {
    if !o.inClause {
      assert Accepts(BuilderResponse, [BeginConstraint]);
      ReplaySnoc(Fresh, o.sent, BeginConstraint);
    }
  }

  lemma InClauseAgrees(a: ClauseState, o: EventState, value: int)
    requires Agree(a, o) && a.inClause
    ensures var ra := CnfParsing.IntegerInClause(a, value);
            var ro := OtisCnfParsing.IntegerInClause(BuilderResponse, o, value);
            && ra.outcome == ro.outcome && SameClauses(ra.state, ro.state)
            && (ra.outcome.Pass? ==> Agree(ra.state, ro.state))
  {
    if value == 0 {
      assert Accepts(BuilderResponse, ClosingEvents);
      ClosingBuildsClause(Built(o), o.sent);
      ClausesOfSnoc(a.added, a.clause);
    } else {
      match CheckLiteral(a.header.numberOfVariables, value)
      case Fail(_) =>
      case Ok(literal) =>
        assert Accepts(BuilderResponse, [ConstraintTerm(1, literal)]);
        ReplaySnoc(Fresh, o.sent, ConstraintTerm(1, literal));
    }
  }

  /** One iteration of both main loops keeps them in step. */
  lemma StepAgrees(s: seq<char>, a: ClauseState, o: EventState, next: char)
    requires Agree(a, o)
    ensures var ra := ClauseStep(s, a, next);
            var ro := OtisStep(s, BuilderResponse, o, next);
            && ra.outcome == ro.outcome && SameClauses(ra.state, ro.state)
            && (ra.outcome.Pass? ==> Agree(ra.state, ro.state))
  {
    if next == 'p' {
      HeaderAgrees(s, a, o);
    } else if next != 'c' {
      IntegerAgrees(s, a, o);
    }
  }

  /** Both main loops end the same way, in step. */
  lemma {:induction false} LoopAgrees(s: seq<char>, a: ClauseState, o: EventState)
    requires Agree(a, o)
    ensures var ra := ClauseLoop(s, a);
            var ro := OtisLoop(s, BuilderResponse, o);
            && ra.outcome == ro.outcome && SameClauses(ra.state, ro.state)
            && (ra.outcome.Pass? ==> Agree(ra.state, ro.state))
    decreases Rank(s, a.at)
  {
    var look := Peek(s, a.at);
    if look.found {
      var a' := a.(at := look.after);
      var o' := o.(at := look.after);
      StepAgrees(s, a', o', look.ch);
      var ra := ClauseStep(s, a', look.ch);
      if ra.outcome.Pass? {
        LoopAgrees(s, ra.state, OtisStep(s, BuilderResponse, o', look.ch).state);
      }
    }
  }

  /** Closing a clause still open at the end gives the builder the clause
      given to the solver. */
  lemma CloseLastAgrees(a: ClauseState, o: EventState)
    requires Agree(a, o)
    ensures var closed := CloseLast(BuilderResponse, o);
            var added := if a.inClause then a.added + [AddClause(a.clause)] else a.added;
            closed.outcome.Pass? && Built(closed.state).constraints == ClausesOf(added)
  {
    if a.inClause {
      assert Accepts(BuilderResponse, ClosingEvents);
      ClosingBuildsClause(Built(o), o.sent);
      ClausesOfSnoc(a.added, a.clause);
    }
  }

  /** Both conclusions end the same way and leave the same clauses. */
  lemma ConclusionAgrees(a: ClauseState, o: EventState)
    requires Agree(a, o)
    ensures var ra := Conclusion(a);
            var ro := OtisConclusion(BuilderResponse, o);
            ra.outcome == ro.outcome && SameClauses(ra.state, ro.state)
  {
    CloseLastAgrees(a, o);
    var closed := CloseLast(BuilderResponse, o);
    assert closed.outcome.Pass?;
    assert Conclusion(a).state.added == if a.inClause then a.added + [AddClause(a.clause)] else a.added;
    if a.clausesRead != a.header.numberOfConstraints {
      assert OtisConclusion(BuilderResponse, o) == Run(closed.state, Raise(ParseException(CnfParsing.UnexpectedClauseCount)));
    } else {
      var ended := Send(BuilderResponse, closed.state, [EndParse]);
      assert Accepts(BuilderResponse, [EndParse]);
      assert ended.state.sent == closed.state.sent + [EndParse];
      ReplaySnoc(Fresh, closed.state.sent, EndParse);
      assert Built(ended.state).constraints == Built(closed.state).constraints;
      assert OtisConclusion(BuilderResponse, o) == ended;
    }
  }

  /** From runs in step, the main loop and the conclusion of both grammars
      end the same way and leave the same clauses. */
  lemma LoopAndConclusionAgree(s: seq<char>, a: ClauseState, o: EventState)
    requires Agree(a, o)
    ensures var la := ClauseLoop(s, a);
            var lo := OtisLoop(s, BuilderResponse, o);
            var ra := if la.outcome.Raise? then la else Conclusion(la.state);
            var ro := if lo.outcome.Raise? then lo else OtisConclusion(BuilderResponse, lo.state);
            ra.outcome == ro.outcome && SameClauses(ra.state, ro.state)
  {
    LoopAgrees(s, a, o);
    var la := ClauseLoop(s, a);
    if la.outcome.Pass? {
      ConclusionAgrees(la.state, OtisLoop(s, BuilderResponse, o).state);
    }
  }

  /** The theorem: from the same input and a fresh parser, the listener-based
      grammar driving the problem builder ends as the solver-based grammar
      does, and the builder then holds exactly the clauses given to the
      solver, in order. */
  lemma ListenerBuildsTheSameClauses(s: seq<char>, c: Cursor)
    ensures var ra := ParseClauses(s, c, Header(0, 0));
            var ro := OtisParseClauses(s, BuilderResponse, c, Header(0, 0), []);
            && ra.outcome == ro.outcome
            && Built(ro.state).constraints == ClausesOf(ra.state.added)
            && |Built(ro.state).constraints| == |ra.state.added|
  {
    var start := Started(c, Header(0, 0));
    assert Accepts(BuilderResponse, [StartParse]);
    ReplayOne(Fresh, StartParse);
    var started := Send(BuilderResponse, EventState(c, Header(0, 0), 0, [], false, 0, []), [StartParse]);
    assert started.outcome.Pass?;
    assert Agree(start, started.state);
    LoopAndConclusionAgree(s, start, started.state);
    var la := ClauseLoop(s, start);
    var lo := OtisLoop(s, BuilderResponse, started.state);
    assert ParseClauses(s, c, Header(0, 0)) == if la.outcome.Raise? then la else Conclusion(la.state);
    assert OtisParseClauses(s, BuilderResponse, c, Header(0, 0), [])
           == if lo.outcome.Raise? then lo else OtisConclusion(BuilderResponse, lo.state);
  }
}

=== FILE: cnf_parser.dfy ===
/** The DIMACS CNF grammar driving a SAT solver. Lines whose first non-blank
    character is `c` are comments, a `p` line gives the numbers of variables
    and of clauses, and every other integer is a literal, a `0` closing the
    current clause. Each closed clause is given to the solver as it is read. */
module CnfParsing {
  import opened Outcomes
  import opened Scanning
  import opened AbstractParsing
  import opened Backend

  const UnexpectedClauseCount := "Unexpected number of clauses"

  /** The state of the main loop: the stream, the header read so far, the
      largest variable count declared so far, the variable counts of the `p`
      lines read, the clause being read, whether one is open, how many
      clauses were started, and the calls made on the solver. `widest` and
      `declared` are no fields of the parser: they record the range every
      literal so far was checked against, since a later `p` line may lower
      `numberOfVariables`, and where that range comes from. */
  datatype ClauseState = ClauseState(
    at: Cursor, header: Header, widest: int, declared: seq<int>,
    clause: seq<int>, inClause: bool, clausesRead: int, added: seq<Call>)

  /** `r` follows `st`: the variable counts of the `p` lines read in
      between are appended to `declared`, `widest` grows to the largest of
      them, and the header is the last one read, or is unchanged when none
      was. */
  ghost predicate Follows(st: ClauseState, r: ClauseState) {
    && st.declared <= r.declared
    && r.widest == Largest(st.widest, r.declared[|st.declared|..])
    && (if |r.declared| == |st.declared| then r.header == st.header
        else r.header.numberOfVariables == r.declared[|r.declared| - 1])
  }

  /** Two stretches of the loop in a row make one. */
  lemma FollowsJoin(a: ClauseState, b: ClauseState, c: ClauseState)
    requires Follows(a, b) && Follows(b, c)
    ensures Follows(a, c)
  {
    LargestJoin(a.widest, b.declared[|a.declared|..], c.declared[|b.declared|..]);
    assert c.declared[|a.declared|..] == b.declared[|a.declared|..] + c.declared[|b.declared|..];
  }

  /** Every call made is a clause without a zero literal, the open clause has
      no zero literal either, and every clause started is either closed and
      given to the solver or still open. */
  ghost predicate Counted(st: ClauseState) {
    && |st.added| + (if st.inClause then 1 else 0) == st.clausesRead
    && (forall i :: 0 <= i < |st.added| ==> st.added[i].AddClause? && 0 !in st.added[i].literals)
    && 0 !in st.clause
  }

  /** Every literal given to the solver, and every literal of the open
      clause, stands for a variable declared by some header read so far. */
  ghost predicate Declared(st: ClauseState) {
    && st.header.numberOfVariables <= st.widest
    && (forall i :: 0 <= i < |st.added| && st.added[i].AddClause? ==> DeclaredLiterals(st.widest, st.added[i].literals))
    && DeclaredLiterals(st.widest, st.clause)
  }

  /** The errors the main loop itself can raise: a malformed number or a
      literal out of range. */
  predicate LoopError(e: Error) {
    e == ParseException(NonDigitMessage) || e == ParseException(InvalidLiteralMessage)
  }

  /** The state of a freshly started loop. */
  function Started(c: Cursor, header: Header): (st: ClauseState)
    ensures Counted(st) && Declared(st) && st.added == []
    ensures st.header == header && st.widest == header.numberOfVariables && st.declared == []
  {
    ClauseState(c, header, header.numberOfVariables, [], [], false, 0, [])
  }

  /** One iteration of the main loop, once `look` has found `next` and left
      the cursor on it. */
  function ClauseStep(s: seq<char>, st: ClauseState, next: char): (r: Run<ClauseState>)
    ensures Counted(st) ==> Counted(r.state)
    ensures Declared(st) ==> Declared(r.state)
    ensures st.widest <= r.state.widest
    ensures next != 'p' ==> r.state.header == st.header && r.state.widest == st.widest && r.state.declared == st.declared
    ensures Follows(st, r.state)
    ensures st.added <= r.state.added && |r.state.added| <= |st.added| + 1
    ensures r.outcome.Pass? ==> Consistent(s, r.state.at)
    ensures r.outcome.Raise? ==> LoopError(r.outcome.error)
    ensures r.outcome.Pass? && !st.at.eof ==> Rank(s, r.state.at) < Rank(s, st.at)
    ensures next == 'c' ==> r.outcome.Pass? && r.state.clause == st.clause && r.state.added == st.added
                             && r.state.inClause == st.inClause && r.state.clausesRead == st.clausesRead
  {
    if next == 'c' then
      Run(st.(at := PastLine(s, st.at)), Pass)
    else if next == 'p' then
      HeaderStep(s, st)
    else
      IntegerStep(s, st)
  }

  /** The header line: the numbers of variables and of clauses, then the
      rest of the line is skipped. The clause state is left alone. */
  function HeaderStep(s: seq<char>, st: ClauseState): (r: Run<ClauseState>)
    ensures r.state == st.(at := r.state.at, header := r.state.header, widest := r.state.widest, declared := r.state.declared)
    ensures Declared(st) ==> Declared(r.state)
    ensures Follows(st, r.state)
    ensures st.widest <= r.state.widest
    ensures r.outcome.Pass? ==> r.state.widest == Widen(st.widest, r.state.header.numberOfVariables)
    ensures r.outcome.Pass? ==> Consistent(s, r.state.at) && Rank(s, r.state.at) < Rank(s, st.at)
    ensures r.outcome.Raise? ==> LoopError(r.outcome.error)
  {
    match ScanNumber(s, st.at)
    case Fail(e) => Run(st, Raise(e))
    case Ok(v) =>
      var widest := Widen(st.widest, v.value);
      var declared := st.declared + [v.value];
      assert declared[|st.declared|..] == [v.value];
      match ScanNumber(s, v.after)
      case Fail(e) =>
        var h := st.header.(numberOfVariables := v.value);
        WidenKeepsDeclared(st, h, widest, declared);
        Run(st.(header := h, widest := widest, declared := declared), Raise(e))
      case Ok(n) =>
        WidenKeepsDeclared(st, Header(v.value, n.value), widest, declared);
        Run(st.(at := PastLine(s, n.after), header := Header(v.value, n.value), widest := widest, declared := declared), Pass)
  }

  /** Literals within some range stay within any wider one, whatever header
      is read. */
  lemma WidenKeepsDeclared(st: ClauseState, header: Header, widest: int, declared: seq<int>)
    ensures Declared(st) && st.widest <= widest && header.numberOfVariables <= widest ==>
              Declared(st.(header := header, widest := widest, declared := declared))
  {
    if Declared(st) && st.widest <= widest {
      forall i | 0 <= i < |st.added| && st.added[i].AddClause?
        ensures DeclaredLiterals(widest, st.added[i].literals)
      {
        assert DeclaredLiterals(st.widest, st.added[i].literals);
      }
    }
  }

  /** An integer of a clause: it opens a clause if none is open, then a `0`
      closes the clause and any other integer is a literal of it. */
  function IntegerStep(s: seq<char>, st: ClauseState): (r: Run<ClauseState>)
    ensures Counted(st) ==> Counted(r.state)
    ensures Declared(st) ==> Declared(r.state)
    ensures r.state.header == st.header && r.state.widest == st.widest && r.state.declared == st.declared
    ensures st.added <= r.state.added && |r.state.added| <= |st.added| + 1
    ensures r.outcome.Pass? ==> Consistent(s, r.state.at) && Rank(s, r.state.at) < Rank(s, st.at)
    ensures r.outcome.Raise? ==> LoopError(r.outcome.error)
  {
    match ScanNumber(s, st.at)
    case Fail(e) => Run(st, Raise(e))
    case Ok(l) => IntegerInClause(OpenClause(st.(at := l.after)), l.value)
  }

  /** With no clause open, a fresh empty clause is opened and counted. */
  function OpenClause(st: ClauseState): (r: ClauseState)
    ensures Counted(st) ==> Counted(r)
    ensures Declared(st) ==> Declared(r)
    ensures r.inClause && r.at == st.at && r.header == st.header && r.widest == st.widest && r.declared == st.declared
    ensures r.added == st.added
  {
    if st.inClause then st else st.(clause := [], inClause := true, clausesRead := st.clausesRead + 1)
  }

  /** An integer read once a clause is open: a `0` gives the clause to the
      solver and closes it, any other integer is checked and appended. */
  function IntegerInClause(open: ClauseState, value: int): (r: Run<ClauseState>)
    ensures Counted(open) && open.inClause ==> Counted(r.state)
    ensures Declared(open) ==> Declared(r.state)
    ensures open.added <= r.state.added && |r.state.added| <= |open.added| + 1
    ensures r.state.at == open.at && r.state.header == open.header && r.state.widest == open.widest
    ensures r.state.declared == open.declared
    ensures r.outcome.Raise? ==> LoopError(r.outcome.error)
  {
    if value == 0 then
      Run(open.(added := open.added + [AddClause(open.clause)], inClause := false), Pass)
    else
      match CheckLiteral(open.header.numberOfVariables, value)
      case Fail(e) => Run(open, Raise(e))
      case Ok(literal) => Run(open.(clause := open.clause + [literal]), Pass)
  }

  /** The main loop: iterate while `look` finds a character. */
  function ClauseLoop(s: seq<char>, st: ClauseState): (r: Run<ClauseState>)
    ensures Counted(st) ==> Counted(r.state)
    ensures Declared(st) ==> Declared(r.state)
    ensures st.widest <= r.state.widest
    ensures Follows(st, r.state)
    ensures st.added <= r.state.added
    ensures r.outcome.Pass? ==> r.state.at == Cursor(|s|, true)
    ensures r.outcome.Raise? ==> LoopError(r.outcome.error)
    decreases Rank(s, st.at)
  {
    var look := Peek(s, st.at);
    if !look.found then
      Run(st.(at := look.after), Pass)
    else
      var r := ClauseStep(s, st.(at := look.after), look.ch);
      if r.outcome.Raise? then r
      else
        var rest := ClauseLoop(s, r.state);
        FollowsJoin(st, r.state, rest.state);
        rest
  }

  /** What a parse from the header fields `header` ends with: every call on
      the solver adds a clause with no `0` in it, whose literals stand for
      variables within the largest count declared, which is the largest of
      `header`'s and those of the `p` lines read; the header is the last one
      read; a parse that succeeds added as many clauses as that header
      declares, and one that fails on the count added as many as it
      started, a different number. */
  ghost predicate Parsed(header: Header, r: Run<ClauseState>) {
    && (forall i :: 0 <= i < |r.state.added| ==> r.state.added[i].AddClause? && 0 !in r.state.added[i].literals)
    && header.numberOfVariables <= r.state.widest && r.state.header.numberOfVariables <= r.state.widest
    && (forall i :: 0 <= i < |r.state.added| ==> DeclaredLiterals(r.state.widest, r.state.added[i].literals))
    && r.state.widest == Largest(header.numberOfVariables, r.state.declared)
    && (if |r.state.declared| == 0 then r.state.header == header
        else r.state.header.numberOfVariables == r.state.declared[|r.state.declared| - 1])
    && (r.outcome.Pass? ==> |r.state.added| == r.state.header.numberOfConstraints)
    && (r.outcome == Raise(ParseException(UnexpectedClauseCount)) ==>
          |r.state.added| == r.state.clausesRead != r.state.header.numberOfConstraints)
  }

  /** `parse`, from the cursor `c` with the header fields `header`: run the
      loop, give a clause still open at the end to the solver, then compare
      the number of clauses read with the declared one. */
  function ParseClauses(s: seq<char>, c: Cursor, header: Header): (r: Run<ClauseState>)
    ensures Parsed(header, r)
  {
    var loop := ClauseLoop(s, Started(c, header));
    if loop.outcome.Raise? then
      FromStart(c, header, loop.state, loop.state);
      loop
    else
      var r := Conclusion(loop.state);
      FromStart(c, header, loop.state, r.state);
      r
  }

  /** A state that follows the start, or one with its header and declared
      counts, has the largest count declared as its range and the last
      header read as its header. */
  lemma FromStart(c: Cursor, header: Header, a: ClauseState, b: ClauseState)
    requires Follows(Started(c, header), a)
    requires b.header == a.header && b.widest == a.widest && b.declared == a.declared
    ensures b.widest == Largest(header.numberOfVariables, b.declared)
    ensures if |b.declared| == 0 then b.header == header else b.header.numberOfVariables == b.declared[|b.declared| - 1]
  {
    assert a.declared[0..] == a.declared;
  }

  /** What follows the main loop: a clause still open is given to the solver,
      then the number of clauses read is compared with the declared one. */
  function Conclusion(st: ClauseState): (r: Run<ClauseState>)
    ensures Counted(st) ==> Counted(r.state) && |r.state.added| == r.state.clausesRead
    ensures Declared(st) ==> Declared(r.state)
    ensures r.state.header == st.header && r.state.widest == st.widest && r.state.declared == st.declared
    ensures r.outcome.Pass? <==> r.state.clausesRead == r.state.header.numberOfConstraints
    ensures r.outcome.Raise? ==> r.outcome.error == ParseException(UnexpectedClauseCount)
  {
    var closed := if st.inClause then st.(added := st.added + [AddClause(st.clause)], inClause := false) else st;
    if closed.clausesRead != closed.header.numberOfConstraints then Run(closed, Raise(ParseException(UnexpectedClauseCount)))
    else Run(closed, Pass)
  }

  /** A `0` read while no clause is open gives the solver an empty clause and
      counts it; read inside a clause it gives the solver that clause. */
  lemma ZeroClosesClause(s: seq<char>, st: ClauseState, next: char, after: Cursor)
    requires next != 'c' && next != 'p'
    requires ScanNumber(s, st.at) == Ok(Scanned(0, after))
    ensures var r := ClauseStep(s, st, next);
            && r.outcome.Pass?
            && r.state.added == st.added + [AddClause(if st.inClause then st.clause else [])]
            && r.state.clausesRead == st.clausesRead + (if st.inClause then 0 else 1)
            && !r.state.inClause
            && r.state == st.(at := after, clause := if st.inClause then st.clause else [],
                              added := r.state.added, inClause := false, clausesRead := r.state.clausesRead)
  {
  }

  /** A non-zero literal extends the open clause, or opens one, exactly when
      it stands for a declared variable; nothing is given to the solver. */
  lemma LiteralExtendsClause(s: seq<char>, st: ClauseState, next: char, literal: int, after: Cursor)
    requires next != 'c' && next != 'p'
    requires literal != 0 && ScanNumber(s, st.at) == Ok(Scanned(literal, after))
    ensures var r := ClauseStep(s, st, next);
            && (r.outcome.Pass? <==> CheckLiteral(st.header.numberOfVariables, literal).Ok?)
            && (r.outcome.Pass? ==> r.state.clause == (if st.inClause then st.clause else []) + [literal]
                                    && r.state.inClause && r.state.added == st.added)
            && (r.outcome.Pass? ==> r.state == st.(at := after, clause := r.state.clause, inClause := true,
                                                   clausesRead := st.clausesRead + (if st.inClause then 0 else 1)))
  {
  }

  /** A `p` line sets both header fields from the next two integers, records
      the variable count and widens the range of declared variables to it. */
  lemma HeaderLineSetsCounts(s: seq<char>, st: ClauseState, variables: int, constraints: int, a: Cursor, b: Cursor)
    requires ScanNumber(s, st.at) == Ok(Scanned(variables, a))
    requires ScanNumber(s, a) == Ok(Scanned(constraints, b))
    ensures var r := ClauseStep(s, st, 'p');
            r == Run(st.(at := PastLine(s, b), header := Header(variables, constraints), widest := Widen(st.widest, variables),
                         declared := st.declared + [variables]), Pass)
  {
  }

  /** A line whose first non-blank character is `c` is skipped: the main
      loop goes on from the next line with nothing else changed. */
  lemma CommentLineIsSkipped(s: seq<char>, st: ClauseState)
    requires Peek(s, st.at).found && Peek(s, st.at).ch == 'c'
    ensures ClauseLoop(s, st) == ClauseLoop(s, st.(at := PastLine(s, Peek(s, st.at).after)))
  {
  }

  /** With no `p` character left in the input, not even in a comment, the
      main loop keeps the header, the range of declared variables and the
      counts recorded. */
  lemma {:induction false} NoHeaderKeepsRange(s: seq<char>, st: ClauseState)
    requires forall i :: st.at.pos <= i < |s| ==> s[i] != 'p'
    ensures var r := ClauseLoop(s, st);
            r.state.header == st.header && r.state.widest == st.widest && r.state.declared == st.declared
    decreases Rank(s, st.at)
  {
    var look := Peek(s, st.at);
    if look.found {
      assert look.ch != 'p';
      var step := ClauseStep(s, st.(at := look.after), look.ch);
      if step.outcome.Pass? {
        NoHeaderKeepsRange(s, step.state);
      }
    }
  }

  /** When the parse reads a single `p` line, wherever it stands, every
      literal given to the solver stands for one of the variables that line
      declares, which is the header the parse ends with. */
  lemma OneHeaderDeclaresEveryLiteral(s: seq<char>, c: Cursor)
    ensures var r := ParseClauses(s, c, Header(0, 0));
            |r.state.declared| == 1 ==>
              && r.state.header.numberOfVariables == r.state.declared[0]
              && forall i :: 0 <= i < |r.state.added| ==>
                   r.state.added[i].AddClause? && DeclaredLiterals(r.state.declared[0], r.state.added[i].literals)
  {
    var r := ParseClauses(s, c, Header(0, 0));
    if |r.state.declared| == 1 {
      assert r.state.declared == [r.state.declared[0]];
      forall i | 0 <= i < |r.state.added|
        ensures DeclaredLiterals(r.state.declared[0], r.state.added[i].literals)
      {
        SingleDeclaration(r.state.declared[0], r.state.added[i].literals);
      }
    }
  }

  /** A header for two variables and one clause, then the clause `1 -2`:
      the solver receives exactly that clause and the parse succeeds. */
  lemma OneClauseExample()
    ensures var r := ParseClauses("p cnf 2 1\n1 -2 0\n", Cursor(0, false), Header(0, 0));
            r.outcome == Pass && r.state.added == [AddClause([1, -2])]
  {
    var s := "p cnf 2 1\n1 -2 0\n";
    var st0 := Started(Cursor(0, false), Header(0, 0));
    var st1 := st0.(at := Cursor(10, false), header := Header(2, 1), widest := 2, declared := [2]);
    ExampleHeader(s, st0, st1);
    var st2 := st1.(at := Cursor(11, false), clause := [1], inClause := true, clausesRead := 1);
    ExampleFirstLiteral(s, st1);
    var st3 := st2.(at := Cursor(14, false), clause := [1, -2]);
    assert st2.clause + [-2] == [1, -2];
    ExampleSecondLiteral(s, st2);
    var st4 := st3.(at := Cursor(16, false), added := [AddClause([1, -2])], inClause := false);
    assert st3.added + [AddClause(st3.clause)] == [AddClause([1, -2])];
    ExampleZero(s, st3);
    assert s[16] == '\n';
    assert FirstNonBlank(s, 16) == 17;
    PeekFindsFirstNonBlank(s, 16);
    var end := st4.(at := Cursor(17, true));
    assert ClauseLoop(s, st4) == Run(end, Pass);
    assert ClauseLoop(s, st0) == Run(end, Pass);
    assert Conclusion(end) == Run(end, Pass);
  }

  /** The example's header line. */
  lemma ExampleHeader(s: seq<char>, st0: ClauseState, st1: ClauseState)
    requires s == "p cnf 2 1\n1 -2 0\n"
    requires st0 == Started(Cursor(0, false), Header(0, 0))
    requires st1 == st0.(at := Cursor(10, false), header := Header(2, 1), widest := 2, declared := [2])
    ensures ClauseLoop(s, st0) == ClauseLoop(s, st1)
  {
    ExampleHeaderNumbers(s);
    HeaderLineSetsCounts(s, st0, 2, 1, Cursor(7, false), Cursor(9, false));
    assert ClauseStep(s, st0, 'p') == Run(st1, Pass);
  }

  /** What the reader sees of the example's header line. */
  lemma ExampleHeaderNumbers(s: seq<char>)
    requires s == "p cnf 2 1\n1 -2 0\n"
    ensures Peek(s, Cursor(0, false)) == Lookahead(true, 'p', Cursor(0, false))
    ensures ScanNumber(s, Cursor(0, false)) == Ok(Scanned(2, Cursor(7, false)))
    ensures ScanNumber(s, Cursor(7, false)) == Ok(Scanned(1, Cursor(9, false)))
    ensures PastLine(s, Cursor(9, false)) == Cursor(10, false)
  {
    assert FirstNonBlank(s, 0) == 0;
    PeekFindsFirstNonBlank(s, 0);
    ExampleVariables(s);
    ExampleConstraints(s);
    assert NextNewline(s, 9) == 9;
    PastLineSkipsToNewline(s, 9);
  }

  /** The example declares two variables. */
  lemma ExampleVariables(s: seq<char>)
    requires s == "p cnf 2 1\n1 -2 0\n"
    ensures ScanNumber(s, Cursor(0, false)) == Ok(Scanned(2, Cursor(7, false)))
  {
    assert forall i :: 0 <= i < 6 ==> !IsNumberStart(s[i]);
    ScansOneDigit(s, 0, 6, 1);
  }

  /** The example declares one clause. */
  lemma ExampleConstraints(s: seq<char>)
    requires s == "p cnf 2 1\n1 -2 0\n"
    ensures ScanNumber(s, Cursor(7, false)) == Ok(Scanned(1, Cursor(9, false)))
  {
    ScansOneDigit(s, 7, 8, 1);
  }

  /** The example's first literal opens the clause. */
  lemma ExampleFirstLiteral(s: seq<char>, st: ClauseState)
    requires s == "p cnf 2 1\n1 -2 0\n"
    requires st.at == Cursor(10, false) && st.header == Header(2, 1) && !st.inClause && st.clausesRead == 0
    ensures ClauseLoop(s, st) == ClauseLoop(s, st.(at := Cursor(11, false), clause := [1], inClause := true, clausesRead := 1))
  {
    assert FirstNonBlank(s, 10) == 10;
    ScansOneDigit(s, 10, 10, 1);
    assert ScanNumber(s, Cursor(10, false)) == Ok(Scanned(1, Cursor(11, false)));
    assert s[10] != 'c' && s[10] != 'p';
    assert CheckLiteral(st.header.numberOfVariables, 1).Ok?;
    LoopReadsInteger(s, st, 1, Cursor(11, false));
    assert [] + [1] == [1];
  }

  /** The example's second literal extends it. */
  lemma ExampleSecondLiteral(s: seq<char>, st: ClauseState)
    requires s == "p cnf 2 1\n1 -2 0\n"
    requires st.at == Cursor(11, false) && st.header == Header(2, 1) && st.inClause
    ensures ClauseLoop(s, st) == ClauseLoop(s, st.(at := Cursor(14, false), clause := st.clause + [-2]))
  {
    assert s[11] == ' ' && s[12] == '-';
    assert FirstNonBlank(s, 11) == 12;
    ScansOneDigit(s, 12, 13, -1);
    assert ScanNumber(s, Cursor(12, false)) == Ok(Scanned(-2, Cursor(14, false)));
    assert CheckLiteral(st.header.numberOfVariables, -2).Ok?;
    LoopReadsInteger(s, st, -2, Cursor(14, false));
  }

  /** The example's `0` gives the clause to the solver. */
  lemma ExampleZero(s: seq<char>, st: ClauseState)
    requires s == "p cnf 2 1\n1 -2 0\n"
    requires st.at == Cursor(14, false) && st.inClause
    ensures ClauseLoop(s, st) == ClauseLoop(s, st.(at := Cursor(16, false), added := st.added + [AddClause(st.clause)], inClause := false))
  {
    assert s[14] == ' ' && s[15] == '0';
    assert FirstNonBlank(s, 14) == 15;
    ScansOneDigit(s, 15, 15, 1);
    assert ScanNumber(s, Cursor(15, false)) == Ok(Scanned(0, Cursor(16, false)));
    LoopReadsInteger(s, st, 0, Cursor(16, false));
  }

  /** When the next non-blank character starts an integer, the main loop
      reads it: a `0` closes the clause, a declared literal joins it. */
  lemma LoopReadsInteger(s: seq<char>, st: ClauseState, value: int, after: Cursor)
    requires !st.at.eof && st.at.pos <= |s|
    requires var k := FirstNonBlank(s, st.at.pos);
             && k < |s| && s[k] != 'c' && s[k] != 'p'
             && ScanNumber(s, Cursor(k, false)) == Ok(Scanned(value, after))
    requires value != 0 ==> CheckLiteral(st.header.numberOfVariables, value).Ok?
    ensures var counted := st.clausesRead + (if st.inClause then 0 else 1);
            var clause := if st.inClause then st.clause else [];
            ClauseLoop(s, st) == ClauseLoop(s,
              if value == 0 then st.(at := after, clause := clause, added := st.added + [AddClause(clause)],
                                     inClause := false, clausesRead := counted)
              else st.(at := after, clause := clause + [value], inClause := true, clausesRead := counted))
  {
    var k := FirstNonBlank(s, st.at.pos);
    PeekFindsFirstNonBlank(s, st.at.pos);
    assert Peek(s, st.at) == Lookahead(true, s[k], Cursor(k, false));
    var r := ClauseStep(s, st.(at := Cursor(k, false)), s[k]);
    var counted := st.clausesRead + (if st.inClause then 0 else 1);
    var clause := if st.inClause then st.clause else [];
    if value == 0 {
      ZeroClosesClause(s, st.(at := Cursor(k, false)), s[k], after);
      assert r.state == st.(at := after, clause := clause, added := st.added + [AddClause(clause)],
                            inClause := false, clausesRead := counted);
    } else {
      LiteralExtendsClause(s, st.(at := Cursor(k, false)), s[k], value, after);
      assert r.state == st.(at := after, clause := clause + [value], inClause := true, clausesRead := counted);
    }
    LoopTakesStep(s, st);
  }

  /** A step that succeeds hands the main loop on to the state it leaves. */
  lemma LoopTakesStep(s: seq<char>, st: ClauseState)
    requires Peek(s, st.at).found
    ensures var look := Peek(s, st.at);
            var r := ClauseStep(s, st.(at := look.after), look.ch);
            r.outcome.Pass? ==> ClauseLoop(s, st) == ClauseLoop(s, r.state)
  {
  }

  /** The number reader on a single digit at `d`, signed when `sign` is -1,
      before which only characters that start no number are skipped. */
  lemma ScansOneDigit(s: seq<char>, p: nat, d: nat, sign: int)
    requires sign == 1 || sign == -1
    requires p <= d && d + 1 < |s|
    requires IsDigit(s[d]) && !IsDigit(s[d + 1])
    requires var k := if sign == 1 then d else d - 1;
             p <= k && (forall i :: p <= i < k ==> !IsNumberStart(s[i])) && (sign == -1 ==> s[k] == '-')
    ensures ScanNumber(s, Cursor(p, false)) == Ok(Scanned(sign * DigitValue(s[d]), Cursor(d + 1, false)))
  {
    var k := if sign == 1 then d else d - 1;
    assert NumberStart(s, p) == k;
    assert DigitRunEnd(s, d) == d + 1;
    assert s[d..d + 1][..0] == [];
    ScanNumberMeaning(s, p);
  }

  /** A SAT parser over a scanner and a solver. */
  class CnfParser {
    const scanner: Scanner
    const solver: Solver
    var numberOfVariables: int
    var numberOfConstraints: int

    /** A parser starts with both counts at zero. */
    constructor (scanner: Scanner, solver: Solver)
      ensures this.scanner == scanner && this.solver == solver
      ensures numberOfVariables == 0 && numberOfConstraints == 0
    {
      this.scanner := scanner;
      this.solver := solver;
      numberOfVariables := 0;
      numberOfConstraints := 0;
    }

    /** `getConcreteSolver`: the solver the parser was built with. */
    function ConcreteSolver(): (s: Solver)
      ensures s == solver
    {
      solver
    }

    /** `st` describes the parser: its cursor is the scanner's, its header the
        parser's fields, and its clause state the local variables of `parse`. */
    ghost predicate Tracks(st: ClauseState, clause: seq<int>, inClause: bool, clausesRead: int)
      reads this, scanner
    {
      && st.at == scanner.At()
      && st.header == Header(numberOfVariables, numberOfConstraints)
      && st.clause == clause && st.inClause == inClause && st.clausesRead == clausesRead
    }

    /** `parse`: the solver receives the calls `ParseClauses` describes, the
        outcome is the same, and on success the header fields hold the
        header read. */
    method Parse() returns (outcome: Outcome)
      modifies this, scanner, solver
      ensures var r := ParseClauses(scanner.input, old(scanner.At()), Header(old(numberOfVariables), old(numberOfConstraints)));
              && outcome == r.outcome
              && solver.calls == old(solver.calls) + r.state.added
              && (outcome.Pass? ==> Header(numberOfVariables, numberOfConstraints) == r.state.header)
    {
      var clause, inClause, nbClausesRead;
      ghost var st;
      outcome, clause, inClause, nbClausesRead, st := Loop();
      if outcome.Pass? {
        outcome := Conclude(clause, inClause, nbClausesRead, st, old(solver.calls));
      }
    }

    /** The main loop of `parse`: iterate while `look` finds a character. */
    method Loop() returns (outcome: Outcome, clause: seq<int>, inClause: bool, clausesRead: int, ghost st: ClauseState)
      modifies this, scanner, solver
      ensures st == ClauseLoop(scanner.input, Started(old(scanner.At()), Header(old(numberOfVariables), old(numberOfConstraints)))).state
      ensures outcome == ClauseLoop(scanner.input, Started(old(scanner.At()), Header(old(numberOfVariables), old(numberOfConstraints)))).outcome
      ensures solver.calls == old(solver.calls) + st.added
      ensures outcome.Pass? ==> Tracks(st, clause, inClause, clausesRead)
    {
      clause, inClause, clausesRead := [], false, 0;
      ghost var s := scanner.input;
      st := Started(scanner.At(), Header(numberOfVariables, numberOfConstraints));
      ghost var final := ClauseLoop(s, st);
      while true
        invariant Tracks(st, clause, inClause, clausesRead)
        invariant ClauseLoop(s, st) == final
        invariant solver.calls == old(solver.calls) + st.added
        decreases Rank(s, st.at)
      {
        var found, next := scanner.Look();
        st := st.(at := scanner.At());
        if !found {
          return Pass, clause, inClause, clausesRead, st;
        }
        ghost var step := ClauseStep(s, st, next);
        assert final == if step.outcome.Raise? then step else ClauseLoop(s, step.state);
        outcome, clause, inClause, clausesRead := Step(next, clause, inClause, clausesRead, st, old(solver.calls));
        st := step.state;
        if outcome.Raise? {
          return;
        }
      }
    }

    /** The end of `parse`, after the main loop. */
    method Conclude(clause: seq<int>, inClause: bool, clausesRead: int, ghost st: ClauseState, ghost prior: seq<Call>)
      returns (outcome: Outcome)
      requires Tracks(st, clause, inClause, clausesRead)
      requires solver.calls == prior + st.added
      modifies solver
      ensures var r := Conclusion(st);
              outcome == r.outcome && solver.calls == prior + r.state.added
    {
      if inClause {
        ConcreteSolver().Add(AddClause(clause));
      }
      if clausesRead != numberOfConstraints {
        return Raise(ParseException(UnexpectedClauseCount));
      }
      return Pass;
    }

    /** The body of the main loop, once `look` has found `next`. */
    method Step(next: char, clause: seq<int>, inClause: bool, clausesRead: int, ghost st: ClauseState, ghost prior: seq<Call>)
      returns (outcome: Outcome, clause': seq<int>, inClause': bool, clausesRead': int)
      requires Tracks(st, clause, inClause, clausesRead)
      requires solver.calls == prior + st.added
      modifies this, scanner, solver
      ensures var r := ClauseStep(scanner.input, st, next);
              && outcome == r.outcome
              && solver.calls == prior + r.state.added
              && (outcome.Pass? ==> Tracks(r.state, clause', inClause', clausesRead'))
    {
      clause', inClause', clausesRead' := clause, inClause, clausesRead;
      outcome := Pass;
      if next == 'c' {
        scanner.SkipLine();
      } else if next == 'p' {
        outcome := ReadHeader(st);
      } else {
        outcome, clause', inClause', clausesRead' := ReadInteger(clause, inClause, clausesRead, st, prior);
      }
    }

    /** The `p` branch of the loop body. */
    method ReadHeader(ghost st: ClauseState) returns (outcome: Outcome)
      requires Tracks(st, st.clause, st.inClause, st.clausesRead)
      modifies this, scanner
      ensures var r := HeaderStep(scanner.input, st);
              && outcome == r.outcome
              && (outcome.Pass? ==> Tracks(r.state, st.clause, st.inClause, st.clausesRead))
    {
      var variables := scanner.ReadNumber();
      if variables.Fail? {
        return Raise(variables.error);
      }
      numberOfVariables := variables.value;
      var constraints := scanner.ReadNumber();
      if constraints.Fail? {
        return Raise(constraints.error);
      }
      numberOfConstraints := constraints.value;
      scanner.SkipLine();
      outcome := Pass;
    }

    /** The integer branch of the loop body. */
    method ReadInteger(clause: seq<int>, inClause: bool, clausesRead: int, ghost st: ClauseState, ghost prior: seq<Call>)
      returns (outcome: Outcome, clause': seq<int>, inClause': bool, clausesRead': int)
      requires Tracks(st, clause, inClause, clausesRead)
      requires solver.calls == prior + st.added
      modifies scanner, solver
      ensures var r := IntegerStep(scanner.input, st);
              && outcome == r.outcome
              && solver.calls == prior + r.state.added
              && (outcome.Pass? ==> Tracks(r.state, clause', inClause', clausesRead'))
    {
      clause', inClause', clausesRead' := clause, inClause, clausesRead;
      var literal := scanner.ReadNumber();
      if literal.Fail? {
        return Raise(literal.error), clause', inClause', clausesRead';
      }
      if !inClause {
        clause' := [];
        inClause' := true;
        clausesRead' := clausesRead + 1;
      }
      outcome := Pass;
      if literal.value == 0 {
        ConcreteSolver().Add(AddClause(clause'));
        inClause' := false;
      } else {
        var checked := CheckLiteral(numberOfVariables, literal.value);
        if checked.Fail? {
          return Raise(checked.error), clause', inClause', clausesRead';
        }
        clause' := clause' + [checked.value];
      }
    }
  }
}

=== FILE: dispatcher.dfy ===
/** The format dispatcher of the solver-based front end (`Autis::parse`): it
    looks at the first non-blank character of the input, asks the factory for
    the matching solver, and runs the matching grammar over the same scanner,
    from that very character. */
module Dispatching {
  import opened Outcomes
  import opened Scanning
  import opened AbstractParsing
  import opened Backend
  import CnfParsing
  import OpbParsing

  const InputIsEmpty := "Input is empty"
  const UnknownInputType := "Could not determine input type"

  /** The input formats the dispatcher recognises. */
  datatype Format = Dimacs | Opb | Xcsp3

  /** The format announced by the first non-blank character: `c` or `p` for
      DIMACS CNF, `*` for OPB, `<` for XCSP3, none for anything else. */
  function FormatOf(c: char): (r: Option<Format>)
    ensures r == Some(Dimacs) <==> c == 'c' || c == 'p'
    ensures r == Some(Opb) <==> c == '*'
    ensures r == Some(Xcsp3) <==> c == '<'
  {
    if c == 'c' || c == 'p' then Some(Dimacs)
    else if c == '*' then Some(Opb)
    else if c == '<' then Some(Xcsp3)
    else None
  }

  /** The solver each format asks the factory for. */
  function KindOf(f: Format): SolverKind {
    match f
    case Dimacs => SatSolver
    case Opb => PseudoBooleanSolver
    case Xcsp3 => CspSolver
  }

  /** The XCSP3 parser is a foreign library: it is seen through the calls its
      callbacks make on the solver when it reads the input from a cursor,
      and through how it ends. */
  type XcspParser = (seq<char>, Cursor) -> Run<seq<Call>>

  /** The grammar chosen, and the cursor it starts from. */
  datatype Selection = Selection(format: Format, start: Cursor)

  /** The format selection of `parse(istream&, factory)`: `look` finds the
      first non-blank character, which announces the format and is left for
      the grammar to read. */
  function Select(s: seq<char>): (r: Result<Selection>)
    ensures r.Ok? ==> var c := r.value.start;
                      !c.eof && c.pos < |s| && FormatOf(s[c.pos]) == Some(r.value.format)
    ensures r.Fail? ==> r.error.ParseException?
  {
    var look := Peek(s, Cursor(0, false));
    if !look.found then Fail(ParseException(InputIsEmpty))
    else
      match FormatOf(look.ch)
      case None => Fail(ParseException(UnknownInputType))
      case Some(f) => Ok(Selection(f, look.after))
  }

  /** The grammar of format `f`, run from the cursor `c` on a fresh solver
      with both header counts at zero: the calls it makes on the solver, and
      how it ends. */
  function Grammar(s: seq<char>, f: Format, c: Cursor, xcsp: XcspParser): (r: Run<seq<Call>>)
    ensures f == Dimacs ==> forall i :: 0 <= i < |r.state| ==> r.state[i].AddClause? && 0 !in r.state[i].literals
    ensures f == Opb ==> forall i :: 0 <= i < |r.state| ==> r.state[i].AddExactly? || r.state[i].AddAtLeast?
  {
    match f
    case Dimacs =>
      var r := CnfParsing.ParseClauses(s, c, Header(0, 0));
      Run(r.state.added, r.outcome)
    case Opb =>
      var r := OpbParsing.ParseOpb(s, c, Header(0, 0));
      Run(r.state.added, r.outcome)
    case Xcsp3 => xcsp(s, c)
  }

  /** Input made only of blanks, or empty, is rejected as empty; any other
      input is not. */
  lemma EmptyInputIsRejected(s: seq<char>)
    ensures (forall i :: 0 <= i < |s| ==> IsSpace(s[i])) <==> Select(s) == Fail(ParseException(InputIsEmpty))
  {
    PeekFailsOnlyOnBlanks(s, 0);
  }

  /** The selection is made on the first non-blank character, which is left
      unread: a grammar is chosen exactly when that character announces a
      format, and the grammar starts on it; otherwise the input type is
      unknown. */
  lemma SelectionIsFirstNonBlank(s: seq<char>)
    ensures var k := FirstNonBlank(s, 0);
            && (Select(s).Ok? <==> k < |s| && FormatOf(s[k]).Some?)
            && (Select(s).Ok? ==> Select(s).value == Selection(FormatOf(s[k]).value, Cursor(k, false)))
            && (k < |s| && FormatOf(s[k]).None? ==> Select(s) == Fail(ParseException(UnknownInputType)))
  {
    PeekFindsFirstNonBlank(s, 0);
  }

  /** The grammar reads the dispatch character first. */
  lemma GrammarReadsDispatchCharacter(s: seq<char>)
    requires Select(s).Ok?
    ensures var c := Select(s).value.start;
            FormatOf(Get(s, c).value) == Some(Select(s).value.format)
  {
  }

  /** The callbacks the XCSP3 parser drives, each making its call on the
      solver, in order. */
  method Forward(solver: Solver, calls: seq<Call>)
    modifies solver
    ensures solver.calls == old(solver.calls) + calls
  {
    var i := 0;
    while i < |calls|
      invariant 0 <= i <= |calls|
      invariant solver.calls == old(solver.calls) + calls[..i]
    {
      solver.Add(calls[i]);
      i := i + 1;
    }
  }

  /** `parse(istream&, factory)`: when no format is selected the call
      throws before the factory is used; otherwise the factory is asked for
      exactly one solver, of the matching kind, which receives the calls of
      the grammar and is returned exactly when the grammar finishes without
      throwing. */
  method Parse(input: seq<char>, factory: SolverFactory, xcsp: XcspParser) returns (outcome: Outcome, solver: Solver?)
    modifies factory
    ensures Select(input).Fail? ==>
              outcome == Raise(Select(input).error) && solver == null && factory.created == old(factory.created)
    ensures Select(input).Ok? ==>
              var sel := Select(input).value;
              var r := Grammar(input, sel.format, sel.start, xcsp);
              && outcome == r.outcome
              && factory.created == old(factory.created) + [KindOf(sel.format)]
              && (outcome.Pass? <==> solver != null)
              && (solver != null ==> fresh(solver) && solver.kind == KindOf(sel.format) && solver.calls == r.state)
  {
    var scanner := new Scanner(input);
    var found, c := scanner.Look();
    if !found {
      return Raise(ParseException(InputIsEmpty)), null;
    }
    var format := FormatOf(c);
    if format.None? {
      return Raise(ParseException(UnknownInputType)), null;
    }
    var created := factory.Create(KindOf(format.value));
    match format.value {
      case Dimacs =>
        var parser := new CnfParsing.CnfParser(scanner, created);
        outcome := parser.Parse();
      case Opb =>
        var parser := new OpbParsing.OpbParser(scanner, created);
        outcome := parser.Parse();
      case Xcsp3 =>
        var run := xcsp(input, scanner.At());
        Forward(created, run.state);
        outcome := run.outcome;
    }
    solver := if outcome.Pass? then created else null;
  }
}

=== FILE: intension.dfy ===
/** The intension constraints built by an intension-constraint factory. Each
    constructor stands for one factory call, with the arguments passed to it:
    the constraint the factory returns is identified with the call that made
    it, so a constraint built from sub-constraints records which calls built
    them and in which order they were passed. */
module IntensionFactory {

  /** Factory calls that take one constraint. */
  datatype UnaryCall = Abs | Neg | Sqr | Negation

  /** Factory calls that take two constraints, in this order. */
  datatype BinaryCall = Dist | Div | Mod | Pow | Sub | Impl | Lt | Le | Neq | Ge | Gt

  /** Factory calls that take a vector of constraints. */
  datatype NaryCall = Add | Max | Min | Mult | Equiv | Conjunction | Disjunction | Parity | Eq

  datatype Intension =
    | Constant(value: int)
    | Variable(name: string)
    | Unary(unary: UnaryCall, child: Intension)
    | Binary(binary: BinaryCall, left: Intension, right: Intension)
    | Nary(nary: NaryCall, children: seq<Intension>)
}

=== FILE: opb_grammar.dfy ===
/** The pieces of the OPB grammar that both pseudo-Boolean parsers share: the
    header line, comment lines, the `min:` keyword, identifiers `x<n>`, terms
    made of a coefficient and identifiers, the relational operator and the
    closing semicolon. The functions say what each piece does to a cursor;
    the methods perform it on a scanner and are proved to agree. */
module OpbGrammar {
  import opened Outcomes
  import opened Scanning
  import opened AbstractParsing

  const MetadataExpected := "Metadata line expected"
  const KeywordMinExpected := "Keyword `min:' expected"
  const NumberExpected := "Number expected"
  const LiteralIdentifierExpected := "Literal identifier expected"
  const SymbolXExpected := "Symbol `x' expected"
  const UnrecognizedOperator := "Unrecognized relational operator"
  const SemicolonExpected := "Semi-colon expected at end of constraint"
  const UnexpectedConstraintCount := "Unexpected number of constraints"

  /** The errors the grammar pieces that read a constraint can raise. */
  predicate GrammarError(e: Error) {
    e.ParseException? &&
    e.message in {NonDigitMessage, InvalidLiteralMessage, SymbolXExpected, LiteralIdentifierExpected,
                  NumberExpected, UnrecognizedOperator, SemicolonExpected}
  }

  /** The header line: a `*` read raw, the numbers of variables and of
      constraints, then the rest of the line is skipped. */
  function ScanMetaData(s: seq<char>, c: Cursor): (r: Result<Scanned<Header>>)
    ensures r.Ok? ==> Consistent(s, r.value.after) && Rank(s, r.value.after) < Rank(s, c)
    ensures r.Fail? ==> r.error == ParseException(MetadataExpected) || r.error == ParseException(NonDigitMessage)
  {
    var star := Get(s, c);
    if star.value != '*' then Fail(ParseException(MetadataExpected))
    else
      match ScanNumber(s, star.after)
      case Fail(e) => Fail(e)
      case Ok(v) =>
        match ScanNumber(s, v.after)
        case Fail(e) => Fail(e)
        case Ok(n) => Ok(Scanned(Header(v.value, n.value), PastLine(s, n.after)))
  }

  /** `skipComments`: skip every line whose first non-blank character is `*`. */
  function PastComments(s: seq<char>, c: Cursor): (r: Cursor)
    ensures Consistent(s, r) && Rank(s, r) <= Rank(s, c)
    ensures var look := Peek(s, r); !look.found || look.ch != '*'
    decreases Rank(s, c)
  {
    var look := Peek(s, c);
    if look.found && look.ch == '*' then PastComments(s, PastLine(s, look.after))
    else
      PeekAgain(s, c);
      look.after
  }

  /** Looking again finds the same character and does not move. */
  lemma PeekAgain(s: seq<char>, c: Cursor)
    ensures var look := Peek(s, c);
            Peek(s, look.after) == Lookahead(look.found, look.ch, look.after)
  {
    var look := Peek(s, c);
    if !look.found {
      PeekAtEndFails(s, look.after);
    }
  }

  /** The keyword test of `readObjective`: up to four raw reads, stopping at
      the first that differs from `m`, `i`, `n`, `:`. */
  function ReadsMin(s: seq<char>, c: Cursor): (r: Scanned<bool>)
    ensures Consistent(s, r.after) && Rank(s, r.after) <= Rank(s, c)
    ensures r.value && !c.eof ==> Rank(s, r.after) < Rank(s, c)
  {
    var m := Get(s, c);
    if m.value != 'm' then Scanned(false, m.after)
    else
      var i := Get(s, m.after);
      if i.value != 'i' then Scanned(false, i.after)
      else
        var n := Get(s, i.after);
        if n.value != 'n' then Scanned(false, n.after)
        else
          var colon := Get(s, n.after);
          Scanned(colon.value == ':', colon.after)
  }

  /** `readIdentifier`'s result: whether an identifier was read, its literal,
      and the cursor afterwards. */
  datatype Identified = Identified(found: bool, literal: int, after: Cursor)

  /** `readIdentifier`: after the blanks, `x` followed by an integer is a
      literal, range-checked; a `~` is consumed and then always rejected,
      since the test that follows it, `look(c) || c != 'x'`, holds whatever
      `look` finds; anything else is left unread. */
  function ScanIdentifier(s: seq<char>, c: Cursor, numberOfVariables: int): (r: Result<Identified>)
    ensures r.Ok? ==> Consistent(s, r.value.after) && Rank(s, r.value.after) <= Rank(s, c)
    ensures r.Ok? && r.value.found ==> Rank(s, r.value.after) < Rank(s, c)
    ensures r.Ok? && r.value.found ==> CheckLiteral(numberOfVariables, r.value.literal).Ok?
    ensures r.Fail? ==> GrammarError(r.error)
  {
    var look := Peek(s, c);
    if !look.found then Ok(Identified(false, 0, look.after))
    else if look.ch == '~' then
      var next := Peek(s, Get(s, look.after).after);
      assert next.found || next.ch != 'x';
      Fail(ParseException(SymbolXExpected))
    else if look.ch == 'x' then
      match ScanNumber(s, look.after)
      case Fail(e) => Fail(e)
      case Ok(n) =>
        match CheckLiteral(numberOfVariables, n.value)
        case Fail(e) => Fail(e)
        case Ok(literal) => Ok(Identified(true, literal, n.after))
    else
      Ok(Identified(false, 0, look.after))
  }

  /** `while (readIdentifier(literals));`: the identifiers read, appended to
      `literals` in order. */
  function ScanIdentifiers(s: seq<char>, c: Cursor, numberOfVariables: int, literals: seq<int>): (r: Result<Scanned<seq<int>>>)
    ensures r.Ok? ==> Consistent(s, r.value.after) && Rank(s, r.value.after) <= Rank(s, c)
    ensures r.Ok? ==> literals <= r.value.value
    ensures r.Ok? ==> forall i :: |literals| <= i < |r.value.value| ==> CheckLiteral(numberOfVariables, r.value.value[i]).Ok?
    ensures r.Fail? ==> GrammarError(r.error)
    decreases Rank(s, c)
  {
    match ScanIdentifier(s, c, numberOfVariables)
    case Fail(e) => Fail(e)
    case Ok(id) =>
      if !id.found then Ok(Scanned(literals, id.after))
      else ScanIdentifiers(s, id.after, numberOfVariables, literals + [id.literal])
  }

  /** A term: its coefficient and its literals. */
  datatype Term = Term(coefficient: int, literals: seq<int>, after: Cursor)

  /** `readTerm`: a coefficient, then the identifiers, at least one. */
  function ScanTerm(s: seq<char>, c: Cursor, numberOfVariables: int): (r: Result<Term>)
    ensures r.Ok? ==> Consistent(s, r.value.after) && Rank(s, r.value.after) < Rank(s, c)
    ensures r.Ok? ==> |r.value.literals| >= 1
    ensures r.Ok? ==> forall i :: 0 <= i < |r.value.literals| ==> CheckLiteral(numberOfVariables, r.value.literals[i]).Ok?
    ensures r.Fail? ==> GrammarError(r.error)
  {
    match ScanNumber(s, c)
    case Fail(e) => Fail(e)
    case Ok(coefficient) =>
      match ScanIdentifiers(s, coefficient.after, numberOfVariables, [])
      case Fail(e) => Fail(e)
      case Ok(ids) =>
        if ids.value == [] then Fail(ParseException(LiteralIdentifierExpected))
        else Ok(Term(coefficient.value, ids.value, ids.after))
  }

  /** `readRelationalOperator`: raw reads; `=` is `"="`, `>` then `=` is
      `">="`, `<` then `=` is `"<="`, and nothing else is an operator. */
  function ScanRelationalOperator(s: seq<char>, c: Cursor): (r: Result<Scanned<string>>)
    ensures r.Ok? ==> Consistent(s, r.value.after) && Rank(s, r.value.after) <= Rank(s, c)
    ensures r.Ok? ==> r.value.value in {"=", ">=", "<="}
    ensures r.Fail? ==> r.error == ParseException(UnrecognizedOperator)
  {
    var c1 := Get(s, c);
    if c1.value == '=' then Ok(Scanned("=", c1.after))
    else
      var c2 := Get(s, c1.after);
      if c1.value == '>' && c2.value == '=' then Ok(Scanned(">=", c2.after))
      else if c1.value == '<' && c2.value == '=' then Ok(Scanned("<=", c2.after))
      else Fail(ParseException(UnrecognizedOperator))
  }

  /** The end of a constraint: `look` must find `;`, which is then read. */
  function ScanSemicolon(s: seq<char>, c: Cursor): (r: Result<Cursor>)
    ensures r.Ok? ==> Consistent(s, r.value) && Rank(s, r.value) < Rank(s, c)
    ensures r.Fail? ==> r.error == ParseException(SemicolonExpected)
  {
    var look := Peek(s, c);
    if !look.found || look.ch != ';' then Fail(ParseException(SemicolonExpected))
    else Ok(Get(s, look.after).after)
  }

  /** Where the term loop of a constraint may stop: on `>` or `=`. */
  predicate EndsTerms(ch: char) {
    ch == '>' || ch == '='
  }

  // ---------------------------------------------------------------------

  /** The keyword test succeeds exactly when the next four characters are
      `min:`. */
  lemma ReadsMinMeaning(s: seq<char>, p: nat)
    requires p <= |s|
    ensures ReadsMin(s, Cursor(p, false)).value <==> p + 4 <= |s| && s[p..p + 4] == "min:"
  {
    if p + 4 <= |s| && s[p..p + 4] == "min:" {
      assert s[p] == 'm' && s[p + 1] == 'i' && s[p + 2] == 'n' && s[p + 3] == ':';
    }
  }

  /** A negated identifier is always rejected, even `~x1`. */
  lemma NegationIsAlwaysRejected(s: seq<char>, c: Cursor, numberOfVariables: int)
    requires Peek(s, c).found && Peek(s, c).ch == '~'
    ensures ScanIdentifier(s, c, numberOfVariables) == Fail(ParseException(SymbolXExpected))
  {
  }

  /** Anything but `x` or `~` after the blanks is no identifier, and is left
      to be read again. */
  lemma OtherCharacterIsLeft(s: seq<char>, c: Cursor, numberOfVariables: int)
    requires Peek(s, c).found && Peek(s, c).ch != '~' && Peek(s, c).ch != 'x'
    ensures var r := ScanIdentifier(s, c, numberOfVariables);
            && r == Ok(Identified(false, 0, Peek(s, c).after))
            && Get(s, r.value.after).value == Peek(s, c).ch
  {
  }

  /** `x` followed by a number reads that number as a literal, provided it
      stands for a declared variable. */
  lemma IdentifierReadsLiteral(s: seq<char>, c: Cursor, numberOfVariables: int)
    requires Peek(s, c).found && Peek(s, c).ch == 'x'
    ensures var r := ScanIdentifier(s, c, numberOfVariables);
            var n := ScanNumber(s, Peek(s, c).after);
            && (r.Ok? <==> n.Ok? && CheckLiteral(numberOfVariables, n.value.value).Ok?)
            && (r.Ok? ==> r.value == Identified(true, n.value.value, n.value.after))
  {
  }

  /** A coefficient not followed by an identifier is no term. */
  lemma TermNeedsIdentifier(s: seq<char>, c: Cursor, numberOfVariables: int)
    requires ScanNumber(s, c).Ok?
    requires var look := Peek(s, ScanNumber(s, c).value.after); look.ch != 'x' && look.ch != '~'
    ensures ScanTerm(s, c, numberOfVariables) == Fail(ParseException(LiteralIdentifierExpected))
  {
  }

  /** The operator is `"="` exactly when the first character read is `=`,
      and `">="` exactly when the two characters read are `>` and `=`. */
  lemma OperatorMeaning(s: seq<char>, p: nat)
    requires p <= |s|
    ensures var r := ScanRelationalOperator(s, Cursor(p, false));
            && (r.Ok? && r.value.value == "=" <==> p < |s| && s[p] == '=')
            && (r.Ok? && r.value.value == ">=" <==> p + 1 < |s| && s[p] == '>' && s[p + 1] == '=')
            && (r.Ok? && r.value.value == "<=" <==> p + 1 < |s| && s[p] == '<' && s[p + 1] == '=')
  {
  }

  /** Where the term loop stops, the operator read can only be `"="` or
      `">="`: the loop stops on `>` or `=`, or at the end of the stream,
      where no operator can be read. */
  lemma OperatorAfterTerms(s: seq<char>, c: Cursor)
    requires Consistent(s, c)
    requires c.eof || (c.pos < |s| && EndsTerms(s[c.pos]))
    ensures var r := ScanRelationalOperator(s, c);
            r.Ok? ==> r.value.value == "=" || r.value.value == ">="
  {
  }

  // ---------------------------------------------------------------------

  /** `skipComments`. */
  method SkipComments(scanner: Scanner)
    modifies scanner
    ensures scanner.At() == PastComments(scanner.input, old(scanner.At()))
  {
    ghost var s := scanner.input;
    while true
      invariant PastComments(s, scanner.At()) == PastComments(s, old(scanner.At()))
      decreases Rank(s, scanner.At())
    {
      ghost var before := scanner.At();
      var found, c := scanner.Look();
      if !(found && c == '*') {
        PeekAgain(s, before);
        return;
      }
      scanner.SkipLine();
    }
  }

  /** `readIdentifier`. */
  method ReadIdentifier(scanner: Scanner, numberOfVariables: int) returns (r: Result<Identified>)
    modifies scanner
    ensures r == ScanIdentifier(scanner.input, old(scanner.At()), numberOfVariables)
    ensures r.Ok? ==> scanner.At() == r.value.after
  {
    var found, c := scanner.Look();
    if !found {
      return Ok(Identified(false, 0, scanner.At()));
    }
    if c == '~' {
      var _ := scanner.Read();
      found, c := scanner.Look();
      // `look(c) || c != 'x'` holds here whatever `look` found.
      assert found || c != 'x';
      return Fail(ParseException(SymbolXExpected));
    }
    if c == 'x' {
      var literal := scanner.ReadNumber();
      if literal.Fail? {
        return Fail(literal.error);
      }
      var checked := CheckLiteral(numberOfVariables, literal.value);
      if checked.Fail? {
        return Fail(checked.error);
      }
      return Ok(Identified(true, checked.value, scanner.At()));
    }
    return Ok(Identified(false, 0, scanner.At()));
  }

  /** `readTerm`: the coefficient, then `while (readIdentifier(literals));`. */
  method ReadTerm(scanner: Scanner, numberOfVariables: int) returns (r: Result<Term>)
    modifies scanner
    ensures r == ScanTerm(scanner.input, old(scanner.At()), numberOfVariables)
    ensures r.Ok? ==> scanner.At() == r.value.after
  {
    ghost var s := scanner.input;
    var coefficient := scanner.ReadNumber();
    if coefficient.Fail? {
      return Fail(coefficient.error);
    }
    ghost var start := scanner.At();
    var literals := [];
    while true
      invariant ScanIdentifiers(s, scanner.At(), numberOfVariables, literals) == ScanIdentifiers(s, start, numberOfVariables, [])
      decreases Rank(s, scanner.At())
    {
      var id := ReadIdentifier(scanner, numberOfVariables);
      if id.Fail? {
        return Fail(id.error);
      }
      if !id.value.found {
        break;
      }
      literals := literals + [id.value.literal];
    }
    if literals == [] {
      return Fail(ParseException(LiteralIdentifierExpected));
    }
    return Ok(Term(coefficient.value, literals, scanner.At()));
  }

  /** `readRelationalOperator`. */
  method ReadRelationalOperator(scanner: Scanner) returns (r: Result<string>)
    modifies scanner
    ensures var spec := ScanRelationalOperator(scanner.input, old(scanner.At()));
            && (r.Ok? <==> spec.Ok?)
            && (r.Ok? ==> r.value == spec.value.value && scanner.At() == spec.value.after)
            && (r.Fail? ==> r.error == spec.error)
  {
    var c1 := scanner.Read();
    if c1 == '=' {
      return Ok("=");
    }
    var c2 := scanner.Read();
    if c1 == '>' && c2 == '=' {
      return Ok(">=");
    } else if c1 == '<' && c2 == '=' {
      return Ok("<=");
    }
    return Fail(ParseException(UnrecognizedOperator));
  }

  /** The semicolon check that ends a constraint, and the read that consumes
      the semicolon. */
  method ReadSemicolon(scanner: Scanner) returns (r: Outcome)
    modifies scanner
    ensures var spec := ScanSemicolon(scanner.input, old(scanner.At()));
            && (r.Pass? <==> spec.Ok?)
            && (r.Pass? ==> scanner.At() == spec.value)
            && (r.Raise? ==> r.error == spec.error)
  {
    var found, c := scanner.Look();
    if !found || c != ';' {
      return Raise(ParseException(SemicolonExpected));
    }
    var _ := scanner.Read();
    return Pass;
  }
}

=== FILE: opb_parser.dfy ===
/** The OPB grammar driving a pseudo-Boolean solver. A header comment gives
    the numbers of variables and of constraints; an objective function is
    recognised and rejected; every constraint is a sum of terms `c x<n>`, a
    relational operator, a degree and a `;`, and is given to the solver as
    one `addExactly` or `addAtLeast` call as soon as it is read. */
module OpbParsing {
  import opened Outcomes
  import opened Scanning
  import opened AbstractParsing
  import opened Backend
  import opened OpbGrammar

  const ObjectiveNotSupported := "Objective function not supported"
  const NonLinearConstraints := "Non linear constraints are not supported"

  /** The linear terms read so far, as two parallel lists. */
  datatype Terms = Terms(literals: seq<int>, coefficients: seq<int>, after: Cursor)

  /** The term loop of `readConstraint`: stop on `>`, `=` or the end of the
      stream; anything else must start a number, and its term must have
      exactly one identifier, whose literal and coefficient are appended. */
  function ScanTerms(s: seq<char>, c: Cursor, numberOfVariables: int, literals: seq<int>, coefficients: seq<int>)
    : (r: Result<Terms>)
    ensures r.Ok? ==> Consistent(s, r.value.after) && Rank(s, r.value.after) <= Rank(s, c)
    ensures r.Ok? ==> r.value.after.eof || (r.value.after.pos < |s| && EndsTerms(s[r.value.after.pos]))
    ensures r.Ok? ==> literals <= r.value.literals && coefficients <= r.value.coefficients
    ensures r.Ok? ==> |r.value.literals| - |literals| == |r.value.coefficients| - |coefficients|
    ensures r.Ok? ==> forall i :: |literals| <= i < |r.value.literals| ==> CheckLiteral(numberOfVariables, r.value.literals[i]).Ok?
    ensures r.Fail? ==> ConstraintError(r.error)
    decreases Rank(s, c)
  {
    var look := Peek(s, c);
    if !look.found || EndsTerms(look.ch) then Ok(Terms(literals, coefficients, look.after))
    else if !IsNumberStart(look.ch) then Fail(ParseException(NumberExpected))
    else
      match ScanTerm(s, look.after, numberOfVariables)
      case Fail(e) => Fail(e)
      case Ok(t) =>
        if |t.literals| == 1 then ScanTerms(s, t.after, numberOfVariables, literals + t.literals, coefficients + [t.coefficient])
        else Fail(UnsupportedOperation(NonLinearConstraints))
  }

  /** The errors reading a constraint can raise. */
  predicate ConstraintError(e: Error) {
    GrammarError(e) || e == UnsupportedOperation(NonLinearConstraints)
  }

  /** The call made for a constraint with operator `op`. */
  function Dispatch(op: string, literals: seq<int>, coefficients: seq<int>, degree: int): (call: Call)
    ensures call.AddExactly? || call.AddAtLeast? || call.AddAtMost?
    ensures call.literals == literals && call.coefficients == coefficients && call.degree == degree
    ensures call.AddExactly? <==> op == "="
    ensures call.AddAtLeast? <==> op == ">="
    ensures call.AddAtMost? <==> op != "=" && op != ">="
  {
    if op == "=" then AddExactly(literals, coefficients, degree)
    else if op == ">=" then AddAtLeast(literals, coefficients, degree)
    else AddAtMost(literals, coefficients, degree)
  }

  /** A call the parser can make on its solver: an equality or an
      at-least constraint over parallel lists, each literal standing for a
      declared variable. */
  predicate WellFormed(call: Call, numberOfVariables: int) {
    && (call.AddExactly? || call.AddAtLeast?)
    && |call.literals| == |call.coefficients|
    && forall i :: 0 <= i < |call.literals| ==> CheckLiteral(numberOfVariables, call.literals[i]).Ok?
  }

  /** `readConstraint`: the terms, the operator, the degree and the `;`,
      then the call. Since the term loop stops only on `>`, `=` or the end
      of the stream, the operator read is never `"<="` and `addAtMost` is
      never called. */
  function ScanConstraint(s: seq<char>, c: Cursor, numberOfVariables: int): (r: Result<Scanned<Call>>)
    ensures r.Ok? ==> Consistent(s, r.value.after) && Rank(s, r.value.after) < Rank(s, c)
    ensures r.Ok? ==> WellFormed(r.value.value, numberOfVariables)
    ensures r.Fail? ==> ConstraintError(r.error)
  {
    match ScanTerms(s, c, numberOfVariables, [], [])
    case Fail(e) => Fail(e)
    case Ok(t) =>
      match ScanRelationalOperator(s, t.after)
      case Fail(e) => Fail(e)
      case Ok(op) =>
        OperatorAfterTerms(s, t.after);
        match ScanNumber(s, op.after)
        case Fail(e) => Fail(e)
        case Ok(degree) =>
          match ScanSemicolon(s, degree.after)
          case Fail(e) => Fail(e)
          case Ok(end) => Ok(Scanned(Dispatch(op.value, t.literals, t.coefficients, degree.value), end))
  }

  /** `readObjective`: with no `m` next, nothing is read but blanks;
      otherwise the keyword is checked, and the objective is rejected
      either way. */
  function ScanObjective(s: seq<char>, c: Cursor): (r: Run<Cursor>)
    ensures Consistent(s, r.state) && Rank(s, r.state) <= Rank(s, c)
    ensures var look := Peek(s, c);
            && (r.outcome.Pass? <==> !look.found || look.ch != 'm')
            && (r.outcome.Pass? ==> r.state == look.after)
    ensures r.outcome.Raise? ==>
              r.outcome.error == UnsupportedOperation(ObjectiveNotSupported) || r.outcome.error == ParseException(KeywordMinExpected)
  {
    var look := Peek(s, c);
    if !look.found || look.ch != 'm' then Run(look.after, Pass)
    else
      var keyword := ReadsMin(s, look.after);
      if keyword.value then Run(keyword.after, Raise(UnsupportedOperation(ObjectiveNotSupported)))
      else Run(keyword.after, Raise(ParseException(KeywordMinExpected)))
  }

  /** The state of the constraint loop: the stream, the header, the number
      of constraints read and the calls made on the solver. */
  datatype OpbState = OpbState(at: Cursor, header: Header, constraintsRead: int, added: seq<Call>)

  /** One call per constraint read, each well formed. */
  ghost predicate Counted(st: OpbState) {
    && |st.added| == st.constraintsRead
    && forall i :: 0 <= i < |st.added| ==> WellFormed(st.added[i], st.header.numberOfVariables)
  }

  /** One iteration of the constraint loop, once `look` has found `next`:
      comment lines are skipped if `next` is `*`, then a constraint is read,
      given to the solver and counted. */
  function ConstraintStep(s: seq<char>, st: OpbState, next: char): (r: Run<OpbState>)
    ensures Counted(st) ==> Counted(r.state)
    ensures r.state.header == st.header
    ensures st.added <= r.state.added && |r.state.added| <= |st.added| + 1
    ensures r.outcome.Pass? ==> Consistent(s, r.state.at) && Rank(s, r.state.at) < Rank(s, st.at)
    ensures r.outcome.Raise? ==> ConstraintError(r.outcome.error)
  {
    var from := if next == '*' then PastComments(s, st.at) else st.at;
    match ScanConstraint(s, from, st.header.numberOfVariables)
    case Fail(e) => Run(st.(at := from), Raise(e))
    case Ok(k) =>
      Run(st.(at := k.after, constraintsRead := st.constraintsRead + 1, added := st.added + [k.value]), Pass)
  }

  /** The constraint loop: iterate while `look` finds a character. */
  function ConstraintLoop(s: seq<char>, st: OpbState): (r: Run<OpbState>)
    ensures Counted(st) ==> Counted(r.state)
    ensures r.state.header == st.header
    ensures st.added <= r.state.added
    ensures r.outcome.Pass? ==> r.state.at == Cursor(|s|, true)
    ensures r.outcome.Raise? ==> ConstraintError(r.outcome.error)
    decreases Rank(s, st.at)
  {
    var look := Peek(s, st.at);
    if !look.found then
      PeekAtEndFails(s, look.after);
      Run(st.(at := look.after), Pass)
    else
      var r := ConstraintStep(s, st.(at := look.after), look.ch);
      if r.outcome.Raise? then r else ConstraintLoop(s, r.state)
  }

  /** What follows the constraint loop: the number of constraints read must
      be the declared one. */
  function CountCheck(loop: Run<OpbState>): (r: Run<OpbState>)
    ensures r.state == loop.state
    ensures loop.outcome.Raise? ==> r == loop
    ensures r.outcome.Pass? <==> loop.outcome.Pass? && loop.state.constraintsRead == loop.state.header.numberOfConstraints
    ensures r.outcome.Raise? && loop.outcome.Pass? ==> r.outcome.error == ParseException(UnexpectedConstraintCount)
  {
    if loop.outcome.Raise? then loop
    else if loop.state.constraintsRead != loop.state.header.numberOfConstraints then
      Run(loop.state, Raise(ParseException(UnexpectedConstraintCount)))
    else loop
  }

  /** `parse` once the header is read: the objective, then the constraints,
      then the count. */
  function AfterHeader(s: seq<char>, c: Cursor, header: Header): (r: Run<OpbState>)
    ensures Counted(r.state) && r.state.header == header
    ensures r.outcome.Pass? ==> r.state.at == Cursor(|s|, true) && |r.state.added| == header.numberOfConstraints
    ensures r.outcome == Raise(ParseException(UnexpectedConstraintCount)) ==> r.state.constraintsRead != header.numberOfConstraints
  {
    var objective := ScanObjective(s, c);
    var start := OpbState(objective.state, header, 0, []);
    if objective.outcome.Raise? then Run(start, objective.outcome)
    else CountCheck(ConstraintLoop(s, start))
  }

  /** `parse`, from the cursor `c` with the header fields `header`: the
      header line, the comments, then the rest. On success the solver got
      exactly the declared number of constraints, each an equality or an
      at-least constraint over declared variables. */
  function ParseOpb(s: seq<char>, c: Cursor, header: Header): (r: Run<OpbState>)
    ensures Counted(r.state)
    ensures r.outcome.Pass? ==> r.state.at == Cursor(|s|, true) && |r.state.added| == r.state.header.numberOfConstraints
    ensures r.outcome == Raise(ParseException(UnexpectedConstraintCount)) ==>
              |r.state.added| == r.state.constraintsRead != r.state.header.numberOfConstraints
  {
    match ScanMetaData(s, c)
    case Fail(e) => Run(OpbState(c, header, 0, []), Raise(e))
    case Ok(m) => AfterHeader(s, PastComments(s, m.after), m.value)
  }

  // ---------------------------------------------------------------------

  /** The input must start with `*`. */
  lemma HeaderNeedsStar(s: seq<char>, c: Cursor, header: Header)
    requires Get(s, c).value != '*'
    ensures ParseOpb(s, c, header) == Run(OpbState(c, header, 0, []), Raise(ParseException(MetadataExpected)))
  {
  }

  /** An objective is never accepted: `min:` is rejected as unsupported and
      anything else starting with `m` as a malformed keyword, before any
      constraint reaches the solver. */
  lemma ObjectiveIsRejected(s: seq<char>, c: Cursor, header: Header, p: nat)
    requires ScanMetaData(s, c).Ok?
    requires Peek(s, PastComments(s, ScanMetaData(s, c).value.after)) == Lookahead(true, 'm', Cursor(p, false))
    ensures var r := ParseOpb(s, c, header);
            && r.state.added == []
            && r.outcome == Raise(if p + 4 <= |s| && s[p..p + 4] == "min:" then UnsupportedOperation(ObjectiveNotSupported)
                                  else ParseException(KeywordMinExpected))
  {
    var after := PastComments(s, ScanMetaData(s, c).value.after);
    ObjectiveIsRead(s, after, p);
    ObjectiveEndsParse(s, c, header);
  }

  /** With `m` next, the objective is rejected one way or the other. */
  lemma ObjectiveIsRead(s: seq<char>, c: Cursor, p: nat)
    requires Peek(s, c) == Lookahead(true, 'm', Cursor(p, false))
    ensures ScanObjective(s, c).outcome
              == Raise(if p + 4 <= |s| && s[p..p + 4] == "min:" then UnsupportedOperation(ObjectiveNotSupported)
                       else ParseException(KeywordMinExpected))
  {
    ReadsMinMeaning(s, p);
  }

  /** A rejected objective ends the parse before any constraint is read. */
  lemma ObjectiveEndsParse(s: seq<char>, c: Cursor, header: Header)
    requires ScanMetaData(s, c).Ok?
    requires ScanObjective(s, PastComments(s, ScanMetaData(s, c).value.after)).outcome.Raise?
    ensures var r := ParseOpb(s, c, header);
            r.state.added == [] && r.outcome == ScanObjective(s, PastComments(s, ScanMetaData(s, c).value.after)).outcome
  {
  }

  /** `<` where a term or the operator may start is rejected as a missing
      number: an at-most constraint written `<=` cannot be read. */
  lemma LessThanIsNumberExpected(s: seq<char>, c: Cursor, numberOfVariables: int, literals: seq<int>, coefficients: seq<int>)
    requires Peek(s, c).found && Peek(s, c).ch == '<'
    ensures ScanTerms(s, c, numberOfVariables, literals, coefficients) == Fail(ParseException(NumberExpected))
  {
  }

  /** A term written without its coefficient, its identifier first as in
      `x1 +2 x2 >= 1;`, is rejected as a missing number. */
  lemma BareIdentifierIsNumberExpected(s: seq<char>, c: Cursor, numberOfVariables: int, literals: seq<int>, coefficients: seq<int>)
    requires Peek(s, c).found && Peek(s, c).ch == 'x'
    ensures ScanTerms(s, c, numberOfVariables, literals, coefficients) == Fail(ParseException(NumberExpected))
  {
  }

  /** So no constraint ever becomes `addAtMost`. */
  lemma NeverAtMost(s: seq<char>, c: Cursor, header: Header)
    ensures var r := ParseOpb(s, c, header);
            forall i :: 0 <= i < |r.state.added| ==> !r.state.added[i].AddAtMost?
  {
  }

  /** A term of one identifier appends its literal and its coefficient to
      the two lists, in step. */
  lemma LinearTermIsAppended(s: seq<char>, c: Cursor, numberOfVariables: int, literals: seq<int>, coefficients: seq<int>)
    requires Peek(s, c).found && !EndsTerms(Peek(s, c).ch) && IsNumberStart(Peek(s, c).ch)
    requires ScanTerm(s, Peek(s, c).after, numberOfVariables).Ok?
    requires |ScanTerm(s, Peek(s, c).after, numberOfVariables).value.literals| == 1
    ensures var t := ScanTerm(s, Peek(s, c).after, numberOfVariables).value;
            ScanTerms(s, c, numberOfVariables, literals, coefficients)
              == ScanTerms(s, t.after, numberOfVariables, literals + [t.literals[0]], coefficients + [t.coefficient])
  {
    var t := ScanTerm(s, Peek(s, c).after, numberOfVariables).value;
    assert t.literals == [t.literals[0]];
  }

  /** A term with two or more identifiers is a product, and is rejected. */
  lemma ProductIsRejected(s: seq<char>, c: Cursor, numberOfVariables: int, literals: seq<int>, coefficients: seq<int>)
    requires Peek(s, c).found && !EndsTerms(Peek(s, c).ch) && IsNumberStart(Peek(s, c).ch)
    requires ScanTerm(s, Peek(s, c).after, numberOfVariables).Ok?
    requires |ScanTerm(s, Peek(s, c).after, numberOfVariables).value.literals| >= 2
    ensures ScanTerms(s, c, numberOfVariables, literals, coefficients) == Fail(UnsupportedOperation(NonLinearConstraints))
  {
  }

  /** The operator read picks the call: `=` gives `addExactly`, `>=` gives
      `addAtLeast`, over the literals and coefficients in the order read. */
  lemma ConstraintBecomesOneCall(s: seq<char>, c: Cursor, numberOfVariables: int)
    requires ScanConstraint(s, c, numberOfVariables).Ok?
    ensures var t := ScanTerms(s, c, numberOfVariables, [], []);
            var op := ScanRelationalOperator(s, t.value.after);
            var call := ScanConstraint(s, c, numberOfVariables).value.value;
            && t.Ok? && op.Ok?
            && call.literals == t.value.literals && call.coefficients == t.value.coefficients
            && (call.AddExactly? <==> op.value.value == "=")
            && (call.AddAtLeast? <==> op.value.value == ">=")
  {
  }

  /** A comment after the last constraint is followed by an attempt to read
      one more constraint at the end of the stream, which fails on the
      operator. */
  lemma TrailingCommentIsRejected(s: seq<char>, st: OpbState)
    requires Peek(s, st.at).found && Peek(s, st.at).ch == '*'
    requires PastComments(s, Peek(s, st.at).after).eof
    ensures var r := ConstraintLoop(s, st);
            r.outcome == Raise(ParseException(UnrecognizedOperator)) && r.state.added == st.added
  {
    var end := PastComments(s, Peek(s, st.at).after);
    PeekAtEndFails(s, end);
  }

  // ---------------------------------------------------------------------

  /** A pseudo-Boolean parser over a scanner and a solver. */
  class OpbParser {
    const scanner: Scanner
    const solver: Solver
    var numberOfVariables: int
    var numberOfConstraints: int
    var optimization: bool

    /** Both counts start at zero; `optimization` is left as it is found. */
    constructor (scanner: Scanner, solver: Solver)
      ensures this.scanner == scanner && this.solver == solver
      ensures numberOfVariables == 0 && numberOfConstraints == 0
    {
      this.scanner := scanner;
      this.solver := solver;
      numberOfVariables := 0;
      numberOfConstraints := 0;
    }

    /** `getConcreteSolver`. */
    function ConcreteSolver(): (s: Solver)
      ensures s == solver
    {
      solver
    }

    /** `isOptimization`. */
    function IsOptimization(): (b: bool)
      reads this
      ensures b == optimization
    {
      optimization
    }

    ghost predicate Tracks(st: OpbState, constraintsRead: int)
      reads this, scanner
    {
      && st.at == scanner.At()
      && st.header == Header(numberOfVariables, numberOfConstraints)
      && st.constraintsRead == constraintsRead
    }

    /** `parse`: the solver receives the calls `ParseOpb` describes, the
        outcome is the same, on success the header fields hold the header
        read, and `optimization` is set exactly when an objective `min:`
        was found. */
    method Parse() returns (outcome: Outcome)
      modifies this, scanner, solver
      ensures var r := ParseOpb(scanner.input, old(scanner.At()), Header(old(numberOfVariables), old(numberOfConstraints)));
              && outcome == r.outcome
              && solver.calls == old(solver.calls) + r.state.added
              && (outcome.Pass? ==> Header(numberOfVariables, numberOfConstraints) == r.state.header)
              && optimization == (old(optimization) || outcome == Raise(UnsupportedOperation(ObjectiveNotSupported)))
    {
      ghost var s := scanner.input;
      ghost var meta := ScanMetaData(s, scanner.At());
      outcome := ReadMetaData();
      if outcome.Raise? {
        return;
      }
      SkipComments(scanner);
      ghost var header := meta.value.value;
      ghost var objective := ScanObjective(s, scanner.At());
      outcome := ReadObjective();
      if outcome.Raise? {
        return;
      }
      var nbConstraintsRead;
      ghost var st;
      outcome, nbConstraintsRead, st := Loop();
      if outcome.Raise? {
        return;
      }
      if nbConstraintsRead != numberOfConstraints {
        outcome := Raise(ParseException(UnexpectedConstraintCount));
      }
    }

    /** `readMetaData`. */
    method ReadMetaData() returns (outcome: Outcome)
      modifies this, scanner
      ensures var r := ScanMetaData(scanner.input, old(scanner.At()));
              && (outcome.Pass? <==> r.Ok?)
              && (outcome.Raise? ==> outcome.error == r.error)
              && (r.Ok? ==> scanner.At() == r.value.after && Header(numberOfVariables, numberOfConstraints) == r.value.value)
      ensures optimization == old(optimization)
    {
      var c := scanner.Read();
      if c != '*' {
        return Raise(ParseException(MetadataExpected));
      }
      var variables := scanner.ReadNumber();
      if variables.Fail? {
        return Raise(variables.error);
      }
      numberOfVariables := variables.value;
      var constraints := scanner.ReadNumber();
      if constraints.Fail? {
        return Raise(constraints.error);
      }
      numberOfConstraints := constraints.value;
      scanner.SkipLine();
      outcome := Pass;
    }

    /** `readObjective`. */
    method ReadObjective() returns (outcome: Outcome)
      modifies this, scanner
      ensures var r := ScanObjective(scanner.input, old(scanner.At()));
              && outcome == r.outcome
              && (outcome.Pass? ==> scanner.At() == r.state)
      ensures numberOfVariables == old(numberOfVariables) && numberOfConstraints == old(numberOfConstraints)
      ensures optimization == (old(optimization) || outcome == Raise(UnsupportedOperation(ObjectiveNotSupported)))
    {
      var found, c := scanner.Look();
      if !found || c != 'm' {
        return Pass;
      }
      var m := scanner.Read();
      if m == 'm' {
        var i := scanner.Read();
        if i == 'i' {
          var n := scanner.Read();
          if n == 'n' {
            var colon := scanner.Read();
            if colon == ':' {
              optimization := true;
              return Raise(UnsupportedOperation(ObjectiveNotSupported));
            }
          }
        }
      }
      return Raise(ParseException(KeywordMinExpected));
    }

    /** The constraint loop of `parse`. */
    method Loop() returns (outcome: Outcome, constraintsRead: int, ghost st: OpbState)
      modifies scanner, solver
      ensures var start := OpbState(old(scanner.At()), Header(numberOfVariables, numberOfConstraints), 0, []);
              var r := ConstraintLoop(scanner.input, start);
              && st == r.state && outcome == r.outcome
              && solver.calls == old(solver.calls) + st.added
              && (outcome.Pass? ==> Tracks(st, constraintsRead))
    {
      constraintsRead := 0;
      ghost var s := scanner.input;
      st := OpbState(scanner.At(), Header(numberOfVariables, numberOfConstraints), 0, []);
      ghost var final := ConstraintLoop(s, st);
      while true
        invariant Tracks(st, constraintsRead)
        invariant ConstraintLoop(s, st) == final
        invariant solver.calls == old(solver.calls) + st.added
        decreases Rank(s, st.at)
      {
        var found, next := scanner.Look();
        st := st.(at := scanner.At());
        if !found {
          PeekAtEndFails(s, st.at);
          return Pass, constraintsRead, st;
        }
        ghost var step := ConstraintStep(s, st, next);
        assert final == if step.outcome.Raise? then step else ConstraintLoop(s, step.state);
        outcome, constraintsRead := Step(next, constraintsRead, st, old(solver.calls));
        st := step.state;
        if outcome.Raise? {
          return;
        }
      }
    }

    /** The body of the constraint loop, once `look` has found `next`. */
    method Step(next: char, constraintsRead: int, ghost st: OpbState, ghost prior: seq<Call>)
      returns (outcome: Outcome, constraintsRead': int)
      requires Tracks(st, constraintsRead)
      requires solver.calls == prior + st.added
      modifies scanner, solver
      ensures var r := ConstraintStep(scanner.input, st, next);
              && outcome == r.outcome
              && solver.calls == prior + r.state.added
              && (outcome.Pass? ==> Tracks(r.state, constraintsRead'))
    {
      if next == '*' {
        SkipComments(scanner);
      }
      outcome := ReadConstraint(prior + st.added);
      constraintsRead' := constraintsRead + 1;
    }

    /** `readConstraint`. */
    method ReadConstraint(ghost prior: seq<Call>) returns (outcome: Outcome)
      requires solver.calls == prior
      modifies scanner, solver
      ensures var r := ScanConstraint(scanner.input, old(scanner.At()), numberOfVariables);
              && (outcome.Pass? <==> r.Ok?)
              && (outcome.Raise? ==> outcome.error == r.error && solver.calls == prior)
              && (r.Ok? ==> scanner.At() == r.value.after && solver.calls == prior + [r.value.value])
    {
      var terms := ReadTerms();
      if terms.Fail? {
        return Raise(terms.error);
      }
      var t := terms.value;
      var op := ReadRelationalOperator(scanner);
      if op.Fail? {
        return Raise(op.error);
      }
      var degree := scanner.ReadNumber();
      if degree.Fail? {
        return Raise(degree.error);
      }
      outcome := ReadSemicolon(scanner);
      if outcome.Raise? {
        return;
      }
      ConcreteSolver().Add(Dispatch(op.value, t.literals, t.coefficients, degree.value));
    }

    /** The term loop of `readConstraint`. */
    method ReadTerms() returns (r: Result<Terms>)
      modifies scanner
      ensures r == ScanTerms(scanner.input, old(scanner.At()), numberOfVariables, [], [])
      ensures r.Ok? ==> scanner.At() == r.value.after
    {
      ghost var s := scanner.input;
      ghost var start := scanner.At();
      var literals, coefficients := [], [];
      while true
        invariant ScanTerms(s, scanner.At(), numberOfVariables, literals, coefficients)
                  == ScanTerms(s, start, numberOfVariables, [], [])
        decreases Rank(s, scanner.At())
      {
        var found, c := scanner.Look();
        if !found || EndsTerms(c) {
          return Ok(Terms(literals, coefficients, scanner.At()));
        }
        if !IsNumberStart(c) {
          return Fail(ParseException(NumberExpected));
        }
        var term := ReadTerm(scanner, numberOfVariables);
        if term.Fail? {
          return Fail(term.error);
        }
        if |term.value.literals| != 1 {
          return Fail(UnsupportedOperation(NonLinearConstraints));
        }
        literals := literals + term.value.literals;
        coefficients := coefficients + [term.value.coefficient];
      }
    }
  }
}

=== FILE: otis_cnf_parser.dfy ===
/** The DIMACS CNF grammar of the listener-based front end. It reads the same
    input as the solver-based grammar, but tells a listener what it reads:
    the start and end of the parse, the header, and for each clause its
    beginning, one term of coefficient 1 per literal, the operator `>=`, the
    degree 1 and its end. The listener may answer any event by throwing,
    which ends the parse. */
module OtisCnfParsing {
  import opened Outcomes
  import opened Scanning
  import opened AbstractParsing
  import opened ParseEvents
  import CnfParsing

  /** The state of the main loop: the stream, the header read so far, the
      largest variable count declared so far, the variable counts of the `p`
      lines read, whether a clause is open, how many clauses were started,
      and every event the listener received. `widest` and `declared` are no
      fields of the parser: they record the range every term sent so far was
      checked against, and where that range comes from. */
  datatype EventState = EventState(
    at: Cursor, header: Header, widest: int, declared: seq<int>,
    inClause: bool, clausesRead: int, sent: seq<Event>)

  /** `r` follows `st`: the variable counts of the `p` lines read in
      between are appended to `declared`, `widest` grows to the largest of
      them, and the header is the last one read, or is unchanged when none
      was. */
  ghost predicate Follows(st: EventState, r: EventState) {
    && st.declared <= r.declared
    && r.widest == Largest(st.widest, r.declared[|st.declared|..])
    && (if |r.declared| == |st.declared| then r.header == st.header
        else r.header.numberOfVariables == r.declared[|r.declared| - 1])
  }

  /** Two stretches of the loop in a row make one. */
  lemma FollowsJoin(a: EventState, b: EventState, c: EventState)
    requires Follows(a, b) && Follows(b, c)
    ensures Follows(a, c)
  {
    LargestJoin(a.widest, b.declared[|a.declared|..], c.declared[|b.declared|..]);
    assert c.declared[|a.declared|..] == b.declared[|a.declared|..] + c.declared[|b.declared|..];
  }

  /** The three events that close a clause. */
  const ClosingEvents := [ConstraintRelationalOperator(">="), ConstraintDegree(1), EndConstraint]

  /** The events the main loop sends: the header, and the events of a clause,
      whose terms have coefficient 1 and a non-zero literal. */
  predicate ClauseEvent(e: Event) {
    || e.MetaData?
    || e == BeginConstraint
    || (e.ConstraintTerm? && e.coefficient == 1 && e.literal != 0)
    || e == ConstraintRelationalOperator(">=")
    || e == ConstraintDegree(1)
    || e == EndConstraint
  }

  /** Every event of `es` is one the main loop may send. */
  predicate AllClauseEvents(es: seq<Event>) {
    forall i :: 0 <= i < |es| ==> ClauseEvent(es[i])
  }

  /** Every term sent from index `from` on stands for a variable within
      `bound`. */
  predicate TermsDeclared(sent: seq<Event>, from: int, bound: int) {
    forall i :: 0 <= from <= i < |sent| && sent[i].ConstraintTerm? ==> CheckLiteral(bound, sent[i].literal).Ok?
  }

  /** The header read is within `widest`, and so is every term sent from
      index `from` on. */
  predicate DeclaredFrom(st: EventState, from: int) {
    st.header.numberOfVariables <= st.widest && TermsDeclared(st.sent, from, st.widest)
  }

  /** Terms checked against `bound` up to the end of `a`, and against a
      larger `wider` after it, are all within `wider`. */
  lemma TermsDeclaredJoin(a: seq<Event>, b: seq<Event>, from: int, bound: int, wider: int)
    requires a <= b && bound <= wider
    requires TermsDeclared(a, from, bound) && TermsDeclared(b, |a|, wider)
    ensures TermsDeclared(b, from, wider)
  {
    forall i | 0 <= from <= i < |b| && b[i].ConstraintTerm?
      ensures CheckLiteral(wider, b[i].literal).Ok?
    {
      if i < |a| {
        assert b[i] == a[i];
        CheckIsMonotone(bound, wider, a[i].literal);
      }
    }
  }

  /** Sending events whose terms are within `bound` sends only terms within
      `bound`. */
  lemma SendDeclared(respond: Event -> Outcome, st: EventState, es: seq<Event>, bound: int)
    requires TermsDeclared(es, 0, bound)
    ensures TermsDeclared(Send(respond, st, es).state.sent, |st.sent|, bound)
  {
    var r := Send(respond, st, es);
    forall i | 0 <= |st.sent| <= i < |r.state.sent| && r.state.sent[i].ConstraintTerm?
      ensures CheckLiteral(bound, r.state.sent[i].literal).Ok?
    {
      assert r.state.sent[i] == es[i - |st.sent|];
    }
  }

  /** What leaves the header and the declared counts alone keeps `Follows`. */
  lemma FollowsKept(st: EventState, a: EventState, b: EventState)
    requires Follows(st, a)
    requires b.header == a.header && b.widest == a.widest && b.declared == a.declared
    ensures Follows(st, b)
  {
  }

  /** A state that follows one with no header read yet has the largest
      count declared as its range and the last header read as its header. */
  lemma FromStart(st: EventState, r: EventState)
    requires st.declared == [] && Follows(st, r)
    ensures r.widest == Largest(st.widest, r.declared)
    ensures if |r.declared| == 0 then r.header == st.header else r.header.numberOfVariables == r.declared[|r.declared| - 1]
  {
    assert r.declared[0..] == r.declared;
  }

  /** Send `es` to the listener, which answers with `respond`. */
  function Send(respond: Event -> Outcome, st: EventState, es: seq<Event>): (r: Run<EventState>)
    ensures r.state == st.(sent := r.state.sent)
    ensures st.sent <= r.state.sent && |r.state.sent| <= |st.sent| + |es|
    ensures forall i :: |st.sent| <= i < |r.state.sent| ==> r.state.sent[i] == es[i - |st.sent|]
    ensures AllClauseEvents(es) ==> forall i :: |st.sent| <= i < |r.state.sent| ==> ClauseEvent(r.state.sent[i])
    ensures r.outcome.Pass? <==> Accepts(respond, es)
    ensures r.outcome.Pass? ==> r.state.sent == st.sent + es
  {
    var e := Emit(respond, st.sent, es);
    Run(st.(sent := e.state), e.outcome)
  }

  /** One iteration of the main loop, once `look` has found `next` and left
      the cursor on it: a comment line is skipped, a `p` line is the header,
      and anything else is an integer of a clause. */
  function OtisStep(s: seq<char>, respond: Event -> Outcome, st: EventState, next: char): (r: Run<EventState>)
    ensures st.sent <= r.state.sent
    ensures st.header.numberOfVariables <= st.widest ==> DeclaredFrom(r.state, |st.sent|)
    ensures st.widest <= r.state.widest
    ensures next != 'p' ==> r.state.header == st.header && r.state.widest == st.widest && r.state.declared == st.declared
    ensures Follows(st, r.state)
    ensures forall i :: |st.sent| <= i < |r.state.sent| ==> ClauseEvent(r.state.sent[i])
    ensures r.outcome.Pass? ==> Consistent(s, r.state.at)
    ensures r.outcome.Pass? && !st.at.eof ==> Rank(s, r.state.at) < Rank(s, st.at)
  {
    if next == 'c' then
      Run(st.(at := PastLine(s, st.at)), Pass)
    else if next == 'p' then
      HeaderStep(s, respond, st)
    else
      IntegerStep(s, respond, st)
  }

  /** The header line: two integers, the `metaData` event, then the rest of
      the line is skipped. */
  function HeaderStep(s: seq<char>, respond: Event -> Outcome, st: EventState): (r: Run<EventState>)
    ensures st.sent <= r.state.sent
    ensures st.header.numberOfVariables <= st.widest ==> DeclaredFrom(r.state, |st.sent|)
    ensures st.widest <= r.state.widest
    ensures r.outcome.Pass? ==> r.state.widest == Widen(st.widest, r.state.header.numberOfVariables)
    ensures r.state.inClause == st.inClause && r.state.clausesRead == st.clausesRead
    ensures Follows(st, r.state)
    ensures forall i :: |st.sent| <= i < |r.state.sent| ==> ClauseEvent(r.state.sent[i])
    ensures r.outcome.Pass? ==> Consistent(s, r.state.at) && Rank(s, r.state.at) < Rank(s, st.at)
  {
    match ScanNumber(s, st.at)
    case Fail(e) => Run(st, Raise(e))
    case Ok(v) =>
      var widest := Widen(st.widest, v.value);
      var declared := st.declared + [v.value];
      assert declared[|st.declared|..] == [v.value];
      match ScanNumber(s, v.after)
      case Fail(e) => Run(st.(header := st.header.(numberOfVariables := v.value), widest := widest, declared := declared), Raise(e))
      case Ok(n) => SendHeader(s, respond, st.(at := n.after, header := Header(v.value, n.value), widest := widest, declared := declared))
  }

  /** The `metaData` event for the header `read`; the rest of the line is
      then skipped. */
  function SendHeader(s: seq<char>, respond: Event -> Outcome, read: EventState): (r: Run<EventState>)
    ensures r.state == read.(at := r.state.at, sent := r.state.sent) && read.sent <= r.state.sent
    ensures TermsDeclared(r.state.sent, |read.sent|, read.widest)
    ensures forall i :: |read.sent| <= i < |r.state.sent| ==> ClauseEvent(r.state.sent[i])
    ensures r.outcome.Pass? ==> r.state.at == PastLine(s, read.at)
  {
    var es := [MetaData(read.header.numberOfVariables, read.header.numberOfConstraints)];
    var told := Send(respond, read, es);
    SendDeclared(respond, read, es, read.widest);
    if told.outcome.Raise? then told else Run(told.state.(at := PastLine(s, read.at)), Pass)
  }

  /** An integer of a clause: it opens a clause if none is open, then a `0`
      closes the clause and any other integer is a term of it. */
  function IntegerStep(s: seq<char>, respond: Event -> Outcome, st: EventState): (r: Run<EventState>)
    ensures st.sent <= r.state.sent
    ensures st.header.numberOfVariables <= st.widest ==> DeclaredFrom(r.state, |st.sent|)
    ensures r.state.header == st.header && r.state.widest == st.widest && r.state.declared == st.declared
    ensures forall i :: |st.sent| <= i < |r.state.sent| ==> ClauseEvent(r.state.sent[i])
    ensures r.outcome.Pass? ==> Consistent(s, r.state.at) && Rank(s, r.state.at) < Rank(s, st.at)
  {
    match ScanNumber(s, st.at)
    case Fail(e) => Run(st, Raise(e))
    case Ok(l) =>
      var begun := OpenClause(respond, st.(at := l.after));
      if begun.outcome.Raise? then begun else IntegerInClause(respond, begun.state, l.value)
  }

  /** With no clause open, `beginConstraint` is sent and a clause counted. */
  function OpenClause(respond: Event -> Outcome, st: EventState): (r: Run<EventState>)
    ensures st.sent <= r.state.sent && r.state.at == st.at && r.state.header == st.header && r.state.widest == st.widest
    ensures r.state.declared == st.declared
    ensures TermsDeclared(r.state.sent, |st.sent|, st.widest)
    ensures forall i :: |st.sent| <= i < |r.state.sent| ==> ClauseEvent(r.state.sent[i])
    ensures r.outcome.Pass? ==> r.state.inClause
  {
    if st.inClause then Run(st, Pass)
    else
      var told := Send(respond, st, [BeginConstraint]);
      SendDeclared(respond, st, [BeginConstraint], st.widest);
      if told.outcome.Raise? then told else Run(told.state.(inClause := true, clausesRead := st.clausesRead + 1), Pass)
  }

  /** A `0` closes the open clause; any other integer, once checked, is a
      term of coefficient 1. */
  function IntegerInClause(respond: Event -> Outcome, open: EventState, value: int): (r: Run<EventState>)
    ensures open.sent <= r.state.sent && r.state.at == open.at
    ensures r.state.header == open.header && r.state.widest == open.widest && r.state.declared == open.declared
    ensures open.header.numberOfVariables <= open.widest ==> TermsDeclared(r.state.sent, |open.sent|, open.widest)
    ensures forall i :: |open.sent| <= i < |r.state.sent| ==> ClauseEvent(r.state.sent[i])
  {
    if value == 0 then CloseClause(respond, open)
    else
      match CheckLiteral(open.header.numberOfVariables, value)
      case Fail(e) => Run(open, Raise(e))
      case Ok(literal) => SendTerm(respond, open, literal)
  }

  /** A `0` sends the events that close the open clause. */
  function CloseClause(respond: Event -> Outcome, open: EventState): (r: Run<EventState>)
    ensures open.sent <= r.state.sent && r.state == open.(sent := r.state.sent, inClause := r.state.inClause)
    ensures TermsDeclared(r.state.sent, |open.sent|, open.widest)
    ensures forall i :: |open.sent| <= i < |r.state.sent| ==> ClauseEvent(r.state.sent[i])
  {
    var closed := Send(respond, open, ClosingEvents);
    SendDeclared(respond, open, ClosingEvents, open.widest);
    if closed.outcome.Raise? then closed else Run(closed.state.(inClause := false), Pass)
  }

  /** A literal that passed the check is sent as a term of coefficient 1. */
  function SendTerm(respond: Event -> Outcome, open: EventState, literal: int): (r: Run<EventState>)
    requires CheckLiteral(open.header.numberOfVariables, literal).Ok?
    ensures open.sent <= r.state.sent && r.state == open.(sent := r.state.sent)
    ensures open.header.numberOfVariables <= open.widest ==> TermsDeclared(r.state.sent, |open.sent|, open.widest)
    ensures forall i :: |open.sent| <= i < |r.state.sent| ==> ClauseEvent(r.state.sent[i])
  {
    assert AllClauseEvents([ConstraintTerm(1, literal)]);
    if open.header.numberOfVariables <= open.widest then
      SendDeclared(respond, open, [ConstraintTerm(1, literal)], open.widest);
      Send(respond, open, [ConstraintTerm(1, literal)])
    else Send(respond, open, [ConstraintTerm(1, literal)])
  }

  /** The main loop: iterate while `look` finds a character. */
  function OtisLoop(s: seq<char>, respond: Event -> Outcome, st: EventState): (r: Run<EventState>)
    ensures st.sent <= r.state.sent
    ensures st.header.numberOfVariables <= st.widest ==> DeclaredFrom(r.state, |st.sent|)
    ensures st.widest <= r.state.widest
    ensures Follows(st, r.state)
    ensures forall i :: |st.sent| <= i < |r.state.sent| ==> ClauseEvent(r.state.sent[i])
    ensures r.outcome.Pass? ==> r.state.at == Cursor(|s|, true)
    decreases Rank(s, st.at)
  {
    var look := Peek(s, st.at);
    if !look.found then
      Run(st.(at := look.after), Pass)
    else
      var r := OtisStep(s, respond, st.(at := look.after), look.ch);
      if r.outcome.Raise? then r
      else
        var rest := OtisLoop(s, respond, r.state);
        FollowsJoin(st, r.state, rest.state);
        if st.header.numberOfVariables <= st.widest then
          TermsDeclaredJoin(r.state.sent, rest.state.sent, |st.sent|, r.state.widest, rest.state.widest);
          rest
        else rest
  }

  /** The listener accepts every event of `es`. */
  predicate Accepts(respond: Event -> Outcome, es: seq<Event>) {
    forall i :: 0 <= i < |es| ==> respond(es[i]).Pass?
  }

  /** A clause still open after the main loop is closed. */
  function CloseLast(respond: Event -> Outcome, st: EventState): (r: Run<EventState>)
    ensures r.state == st.(sent := r.state.sent) && st.sent <= r.state.sent
    ensures forall i :: |st.sent| <= i < |r.state.sent| ==> ClauseEvent(r.state.sent[i])
    ensures TermsDeclared(r.state.sent, |st.sent|, st.widest)
    ensures r.outcome.Pass? <==> !st.inClause || Accepts(respond, ClosingEvents)
    ensures r.outcome.Pass? ==> r.state.sent == st.sent + (if st.inClause then ClosingEvents else [])
  {
    if st.inClause then
      SendDeclared(respond, st, ClosingEvents, st.widest);
      Send(respond, st, ClosingEvents)
    else Run(st, Pass)
  }

  /** What follows the main loop: a clause still open is closed, the number
      of clauses read is compared with the declared one, and only then is
      the end of the parse announced. */
  function OtisConclusion(respond: Event -> Outcome, st: EventState): (r: Run<EventState>)
    ensures st.sent <= r.state.sent
    ensures r.state.header == st.header && r.state.widest == st.widest && r.state.declared == st.declared
    ensures r.state.clausesRead == st.clausesRead
    ensures TermsDeclared(r.state.sent, |st.sent|, st.widest)
    ensures forall i :: |st.sent| <= i < |r.state.sent| ==>
              || ClauseEvent(r.state.sent[i])
              || (i == |r.state.sent| - 1 && r.state.sent[i] == EndParse && st.clausesRead == st.header.numberOfConstraints)
    ensures r.outcome.Pass? <==>
              && (!st.inClause || Accepts(respond, ClosingEvents))
              && st.clausesRead == st.header.numberOfConstraints
              && respond(EndParse).Pass?
    ensures r.outcome.Pass? ==> r.state.sent == st.sent + (if st.inClause then ClosingEvents else []) + [EndParse]
  {
    var closed := CloseLast(respond, st);
    if closed.outcome.Raise? then closed
    else if st.clausesRead != st.header.numberOfConstraints then
      Run(closed.state, Raise(ParseException(CnfParsing.UnexpectedClauseCount)))
    else
      var ended := Send(respond, closed.state, [EndParse]);
      SendDeclared(respond, closed.state, [EndParse], st.widest);
      TermsDeclaredJoin(closed.state.sent, ended.state.sent, |st.sent|, st.widest, st.widest);
      ended
  }

  /** `parse`, from the cursor `c` with the header fields `header`, after the
      listener received the events `sent`. */
  function OtisParseClauses(s: seq<char>, respond: Event -> Outcome, c: Cursor, header: Header, sent: seq<Event>)
    : (r: Run<EventState>)
    ensures sent <= r.state.sent && |sent| < |r.state.sent| && r.state.sent[|sent|] == StartParse
    ensures forall i :: |sent| < i < |r.state.sent| && r.state.sent[i] != EndParse ==> ClauseEvent(r.state.sent[i])
    ensures forall i :: |sent| < i < |r.state.sent| && r.state.sent[i] == EndParse ==>
              i == |r.state.sent| - 1 && r.state.clausesRead == r.state.header.numberOfConstraints
    ensures r.state.widest == Largest(header.numberOfVariables, r.state.declared)
    ensures if |r.state.declared| == 0 then r.state.header == header
            else r.state.header.numberOfVariables == r.state.declared[|r.state.declared| - 1]
    ensures r.outcome.Pass? ==> r.state.sent[|r.state.sent| - 1] == EndParse
  {
    var started := Send(respond, EventState(c, header, header.numberOfVariables, [], false, 0, sent), [StartParse]);
    if started.outcome.Raise? then started
    else
      var body := ParseBody(s, respond, started.state);
      FromStart(started.state, body.state);
      body
  }

  /** `parse` once `startParse` is sent: the main loop, then the conclusion. */
  function ParseBody(s: seq<char>, respond: Event -> Outcome, st: EventState): (r: Run<EventState>)
    ensures st.sent <= r.state.sent
    ensures Follows(st, r.state)
    ensures forall i :: |st.sent| <= i < |r.state.sent| && r.state.sent[i] != EndParse ==> ClauseEvent(r.state.sent[i])
    ensures forall i :: |st.sent| <= i < |r.state.sent| && r.state.sent[i] == EndParse ==>
              i == |r.state.sent| - 1 && r.state.clausesRead == r.state.header.numberOfConstraints
    ensures r.outcome.Pass? ==> |st.sent| < |r.state.sent| && r.state.sent[|r.state.sent| - 1] == EndParse
  {
    var loop := OtisLoop(s, respond, st);
    if loop.outcome.Raise? then loop
    else
      var r := OtisConclusion(respond, loop.state);
      FollowsKept(st, loop.state, r.state);
      r
  }

  /** Every term the listener receives during the parse stands for a
      variable within the largest count declared, which is no smaller than
      the count the parse started with nor the count of the last header. */
  lemma ParseSendsDeclaredTerms(s: seq<char>, respond: Event -> Outcome, c: Cursor, header: Header, sent: seq<Event>)
    ensures var r := OtisParseClauses(s, respond, c, header, sent);
            header.numberOfVariables <= r.state.widest && DeclaredFrom(r.state, |sent|)
  {
    var start := EventState(c, header, header.numberOfVariables, [], false, 0, sent);
    var started := Send(respond, start, [StartParse]);
    SendDeclared(respond, start, [StartParse], header.numberOfVariables);
    if started.outcome.Pass? {
      assert OtisParseClauses(s, respond, c, header, sent) == ParseBody(s, respond, started.state);
      var loop := OtisLoop(s, respond, started.state);
      TermsDeclaredJoin(started.state.sent, loop.state.sent, |sent|, header.numberOfVariables, loop.state.widest);
      if loop.outcome.Pass? {
        var r := OtisConclusion(respond, loop.state);
        TermsDeclaredJoin(loop.state.sent, r.state.sent, |sent|, loop.state.widest, r.state.widest);
      }
    }
  }

  /** A comment line leaves the main loop where it was, save for the cursor,
      which moves past the line. */
  lemma CommentLineIsSkipped(s: seq<char>, respond: Event -> Outcome, st: EventState)
    requires Peek(s, st.at).found && Peek(s, st.at).ch == 'c'
    ensures OtisLoop(s, respond, st) == OtisLoop(s, respond, st.(at := PastLine(s, Peek(s, st.at).after)))
  {
  }

  /** With no `p` character left in the input, not even in a comment, the
      main loop keeps the header, the range of declared variables and the
      counts recorded. */
  lemma {:induction false} NoHeaderKeepsRange(s: seq<char>, respond: Event -> Outcome, st: EventState)
    requires forall i :: st.at.pos <= i < |s| ==> s[i] != 'p'
    ensures var r := OtisLoop(s, respond, st);
            r.state.header == st.header && r.state.widest == st.widest && r.state.declared == st.declared
    decreases Rank(s, st.at)
  {
    var look := Peek(s, st.at);
    if look.found {
      assert look.ch != 'p';
      var step := OtisStep(s, respond, st.(at := look.after), look.ch);
      if step.outcome.Pass? {
        NoHeaderKeepsRange(s, respond, step.state);
      }
    }
  }

  /** Terms within the largest of a single variable count are within that
      count: a count below 1 admits no term at all. */
  lemma SingleDeclarationBound(sent: seq<Event>, from: int, count: int)
    ensures TermsDeclared(sent, from, Largest(0, [count])) ==> TermsDeclared(sent, from, count)
  {
    if count <= 0 {
      forall i | 0 <= from <= i < |sent| && sent[i].ConstraintTerm?
        ensures !CheckLiteral(0, sent[i].literal).Ok?
      {
      }
    }
  }

  /** When the parse reads a single `p` line, wherever it stands, every term
      the listener receives stands for one of the variables that line
      declares, which is the header the parse ends with. */
  lemma OneHeaderDeclaresEveryTerm(s: seq<char>, respond: Event -> Outcome, c: Cursor, sent: seq<Event>)
    ensures var r := OtisParseClauses(s, respond, c, Header(0, 0), sent);
            |r.state.declared| == 1 ==>
              && r.state.header.numberOfVariables == r.state.declared[0]
              && TermsDeclared(r.state.sent, |sent|, r.state.declared[0])
  {
    var r := OtisParseClauses(s, respond, c, Header(0, 0), sent);
    ParseSendsDeclaredTerms(s, respond, c, Header(0, 0), sent);
    if |r.state.declared| == 1 {
      assert r.state.declared == [r.state.declared[0]];
      SingleDeclarationBound(r.state.sent, |sent|, r.state.declared[0]);
    }
  }

  /** A `p` line sends exactly one `metaData` event, with the two integers
      read, before the rest of the line is skipped. */
  lemma HeaderLineSendsMetaData(s: seq<char>, respond: Event -> Outcome, st: EventState, variables: int, constraints: int, a: Cursor, b: Cursor)
    requires ScanNumber(s, st.at) == Ok(Scanned(variables, a))
    requires ScanNumber(s, a) == Ok(Scanned(constraints, b))
    requires respond(MetaData(variables, constraints)).Pass?
    ensures OtisStep(s, respond, st, 'p')
            == Run(st.(at := PastLine(s, b), header := Header(variables, constraints), widest := Widen(st.widest, variables),
                       declared := st.declared + [variables],
                       sent := st.sent + [MetaData(variables, constraints)]), Pass)
  {
  }

  /** The first integer read while no clause is open sends `beginConstraint`
      and counts a clause; a `0` then sends the closing events, so a lone `0`
      is an empty clause. */
  lemma ZeroSendsClosing(s: seq<char>, respond: Event -> Outcome, st: EventState, next: char, after: Cursor)
    requires next != 'c' && next != 'p'
    requires ScanNumber(s, st.at) == Ok(Scanned(0, after))
    requires respond(BeginConstraint).Pass?
    requires Accepts(respond, ClosingEvents)
    ensures var r := OtisStep(s, respond, st, next);
            && r.outcome.Pass?
            && r.state.sent == st.sent + (if st.inClause then [] else [BeginConstraint]) + ClosingEvents
            && r.state.clausesRead == st.clausesRead + (if st.inClause then 0 else 1)
            && !r.state.inClause
  {
  }

  /** A non-zero literal is sent as one term of coefficient 1 exactly when
      it stands for a declared variable; when no clause is open,
      `beginConstraint` is sent before it and a clause is counted. */
  lemma LiteralSendsTerm(s: seq<char>, respond: Event -> Outcome, st: EventState, next: char, literal: int, after: Cursor)
    requires next != 'c' && next != 'p'
    requires literal != 0 && ScanNumber(s, st.at) == Ok(Scanned(literal, after))
    requires respond(BeginConstraint).Pass?
    requires respond(ConstraintTerm(1, literal)).Pass?
    ensures var r := OtisStep(s, respond, st, next);
            && (r.outcome.Pass? <==> CheckLiteral(st.header.numberOfVariables, literal).Ok?)
            && (r.outcome.Pass? ==>
                  && r.state.sent == st.sent + (if st.inClause then [] else [BeginConstraint]) + [ConstraintTerm(1, literal)]
                  && r.state.clausesRead == st.clausesRead + (if st.inClause then 0 else 1)
                  && r.state.inClause)
  {
  }

  /** A listener-based CNF parser over a scanner. */
  class OtisCnfParser {
    const scanner: Scanner
    const listener: Listener
    var numberOfVariables: int
    var numberOfConstraints: int

    /** A parser starts with both counts at zero. */
    constructor (scanner: Scanner, listener: Listener)
      ensures this.scanner == scanner && this.listener == listener
      ensures numberOfVariables == 0 && numberOfConstraints == 0
    {
      this.scanner := scanner;
      this.listener := listener;
      numberOfVariables := 0;
      numberOfConstraints := 0;
    }

    /** `st` describes the parser: its cursor is the scanner's, its header
        the parser's fields, its clause state the local variables of `parse`
        and its events those the listener received. */
    ghost predicate Tracks(st: EventState, inClause: bool, clausesRead: int)
      reads this, scanner, listener
    {
      && st.at == scanner.At()
      && st.header == Header(numberOfVariables, numberOfConstraints)
      && st.inClause == inClause && st.clausesRead == clausesRead
      && st.sent == listener.received
    }

    /** `parse`: the listener receives the events `OtisParseClauses`
        describes, the outcome is the same, and on success the header fields
        hold the header read. */
    method Parse() returns (outcome: Outcome)
      modifies this, scanner, listener
      ensures var r := OtisParseClauses(scanner.input, listener.respond, old(scanner.At()),
                                        Header(old(numberOfVariables), old(numberOfConstraints)), old(listener.received));
              && outcome == r.outcome
              && listener.received == r.state.sent
              && (outcome.Pass? ==> Header(numberOfVariables, numberOfConstraints) == r.state.header)
    {
      ghost var start := EventState(scanner.At(), Header(numberOfVariables, numberOfConstraints), numberOfVariables, [], false, 0, listener.received);
      EmitOne(listener.respond, listener.received, StartParse);
      outcome := listener.Notify(StartParse);
      if outcome.Raise? {
        return;
      }
      var inClause, clausesRead;
      ghost var st;
      outcome, inClause, clausesRead, st := Loop(start.(sent := listener.received));
      if outcome.Pass? {
        outcome := Conclude(inClause, clausesRead, st);
      }
    }

    /** The main loop of `parse`: iterate while `look` finds a character. */
    method Loop(ghost start: EventState) returns (outcome: Outcome, inClause: bool, clausesRead: int, ghost st: EventState)
      requires Tracks(start, false, 0)
      modifies this, scanner, listener
      ensures var r := OtisLoop(scanner.input, listener.respond, start);
              && st == r.state && outcome == r.outcome
              && listener.received == st.sent
              && (outcome.Pass? ==> Tracks(st, inClause, clausesRead))
    {
      inClause, clausesRead := false, 0;
      ghost var s := scanner.input;
      st := start;
      ghost var final := OtisLoop(s, listener.respond, st);
      while true
        invariant Tracks(st, inClause, clausesRead)
        invariant OtisLoop(s, listener.respond, st) == final
        decreases Rank(s, st.at)
      {
        var found, next := scanner.Look();
        st := st.(at := scanner.At());
        if !found {
          return Pass, inClause, clausesRead, st;
        }
        ghost var step := OtisStep(s, listener.respond, st, next);
        assert final == if step.outcome.Raise? then step else OtisLoop(s, listener.respond, step.state);
        outcome, inClause, clausesRead := Step(next, inClause, clausesRead, st);
        st := step.state;
        if outcome.Raise? {
          return;
        }
      }
    }

    /** The end of `parse`, after the main loop. */
    method Conclude(inClause: bool, clausesRead: int, ghost st: EventState) returns (outcome: Outcome)
      requires Tracks(st, inClause, clausesRead)
      modifies listener
      ensures var r := OtisConclusion(listener.respond, st);
              outcome == r.outcome && listener.received == r.state.sent
    {
      if inClause {
        outcome := listener.NotifyAll(ClosingEvents);
        if outcome.Raise? {
          return;
        }
      }
      if clausesRead != numberOfConstraints {
        return Raise(ParseException(CnfParsing.UnexpectedClauseCount));
      }
      EmitOne(listener.respond, listener.received, EndParse);
      outcome := listener.Notify(EndParse);
    }

    /** The body of the main loop, once `look` has found `next`. */
    method Step(next: char, inClause: bool, clausesRead: int, ghost st: EventState)
      returns (outcome: Outcome, inClause': bool, clausesRead': int)
      requires Tracks(st, inClause, clausesRead)
      modifies this, scanner, listener
      ensures var r := OtisStep(scanner.input, listener.respond, st, next);
              && outcome == r.outcome
              && listener.received == r.state.sent
              && (outcome.Pass? ==> Tracks(r.state, inClause', clausesRead'))
    {
      inClause', clausesRead' := inClause, clausesRead;
      outcome := Pass;
      if next == 'c' {
        scanner.SkipLine();
      } else if next == 'p' {
        outcome := ReadHeader(st);
      } else {
        outcome, inClause', clausesRead' := ReadInteger(inClause, clausesRead, st);
      }
    }

    /** The `p` branch of the loop body. */
    method ReadHeader(ghost st: EventState) returns (outcome: Outcome)
      requires Tracks(st, st.inClause, st.clausesRead)
      modifies this, scanner, listener
      ensures var r := HeaderStep(scanner.input, listener.respond, st);
              && outcome == r.outcome
              && listener.received == r.state.sent
              && (outcome.Pass? ==> Tracks(r.state, st.inClause, st.clausesRead))
    {
      var variables := scanner.ReadNumber();
      if variables.Fail? {
        return Raise(variables.error);
      }
      numberOfVariables := variables.value;
      var constraints := scanner.ReadNumber();
      if constraints.Fail? {
        return Raise(constraints.error);
      }
      numberOfConstraints := constraints.value;
      EmitOne(listener.respond, listener.received, MetaData(numberOfVariables, numberOfConstraints));
      outcome := listener.Notify(MetaData(numberOfVariables, numberOfConstraints));
      if outcome.Raise? {
        return;
      }
      scanner.SkipLine();
    }

    /** The integer branch of the loop body. */
    method ReadInteger(inClause: bool, clausesRead: int, ghost st: EventState)
      returns (outcome: Outcome, inClause': bool, clausesRead': int)
      requires Tracks(st, inClause, clausesRead)
      modifies scanner, listener
      ensures var r := IntegerStep(scanner.input, listener.respond, st);
              && outcome == r.outcome
              && listener.received == r.state.sent
              && (outcome.Pass? ==> Tracks(r.state, inClause', clausesRead'))
    {
      inClause', clausesRead' := inClause, clausesRead;
      var literal := scanner.ReadNumber();
      if literal.Fail? {
        return Raise(literal.error), inClause', clausesRead';
      }
      ghost var begun := OpenClause(listener.respond, st.(at := scanner.At()));
      assert IntegerStep(scanner.input, listener.respond, st)
             == if begun.outcome.Raise? then begun else IntegerInClause(listener.respond, begun.state, literal.value);
      if !inClause {
        EmitOne(listener.respond, listener.received, BeginConstraint);
        outcome := listener.Notify(BeginConstraint);
        if outcome.Raise? {
          return;
        }
        inClause' := true;
        clausesRead' := clausesRead + 1;
      }
      ghost var open := EventState(scanner.At(), st.header, st.widest, st.declared, true, clausesRead', listener.received);
      assert begun.state == open;
      outcome, inClause' := EndOrTerm(literal.value, clausesRead', open);
    }

    /** A `0` closes the open clause, any other integer is checked and sent
        as a term. */
    method EndOrTerm(value: int, clausesRead: int, ghost open: EventState) returns (outcome: Outcome, inClause': bool)
      requires Tracks(open, true, clausesRead)
      modifies listener
      ensures var r := IntegerInClause(listener.respond, open, value);
              && outcome == r.outcome
              && listener.received == r.state.sent
              && (outcome.Pass? ==> Tracks(r.state, inClause', clausesRead))
    {
      inClause' := true;
      if value == 0 {
        outcome := listener.NotifyAll(ClosingEvents);
        if outcome.Raise? {
          return;
        }
        inClause' := false;
      } else {
        var checked := CheckLiteral(numberOfVariables, value);
        if checked.Fail? {
          return Raise(checked.error), inClause';
        }
        EmitOne(listener.respond, listener.received, ConstraintTerm(1, checked.value));
        outcome := listener.Notify(ConstraintTerm(1, checked.value));
      }
    }
  }
}

=== FILE: otis_dispatcher.dfy ===
/** The format dispatcher of the listener-based front end (`Otis::parse`):
    only DIMACS CNF and OPB are recognised; the problem writer matching the
    format is handed to the listener, then the grammar runs over the same
    scanner, from the first non-blank character. */
module OtisDispatching {
  import opened Outcomes
  import opened Scanning
  import opened AbstractParsing
  import opened ParseEvents
  import Dispatching
  import OtisCnfParsing
  import OtisOpbParsing

  /** The writer announced by the first non-blank character: `c` or `p` for
      DIMACS CNF, `*` for OPB, none for anything else, XCSP3 included. */
  function WriterOf(c: char): (r: Option<Writer>)
    ensures r == Some(DimacsProblemWriter) <==> c == 'c' || c == 'p'
    ensures r == Some(OpbProblemWriter) <==> c == '*'
  {
    if c == 'c' || c == 'p' then Some(DimacsProblemWriter)
    else if c == '*' then Some(OpbProblemWriter)
    else None
  }

  /** The writer chosen, and the cursor the grammar starts from. */
  datatype Selection = Selection(writer: Writer, start: Cursor)

  /** The format selection of `parse(istream&, listener)`. */
  function Select(s: seq<char>): (r: Result<Selection>)
    ensures r.Ok? ==> var c := r.value.start;
                      !c.eof && c.pos < |s| && WriterOf(s[c.pos]) == Some(r.value.writer)
    ensures r.Fail? ==> r.error.ParseException?
  {
    var look := Peek(s, Cursor(0, false));
    if !look.found then Fail(ParseException(Dispatching.InputIsEmpty))
    else
      match WriterOf(look.ch)
      case None => Fail(ParseException(Dispatching.UnknownInputType))
      case Some(w) => Ok(Selection(w, look.after))
  }

  /** A grammar's run after the listener received `sent`: `startParse`
      comes first, and a successful run ends with `endParse`. */
  predicate Framed(sent: seq<Event>, r: Run<seq<Event>>) {
    && sent <= r.state && |sent| < |r.state| && r.state[|sent|] == StartParse
    && (r.outcome.Pass? ==> r.state[|r.state| - 1] == EndParse)
  }

  /** The grammar matching `writer`, run from the cursor `c` with both
      header counts at zero, after the listener received `sent`: the events
      it receives, and how the grammar ends. */
  function Grammar(s: seq<char>, respond: Event -> Outcome, writer: Writer, c: Cursor, sent: seq<Event>): (r: Run<seq<Event>>)
    ensures Framed(sent, r)
  {
    match writer
    case DimacsProblemWriter => CnfEvents(s, respond, c, sent)
    case OpbProblemWriter => OpbEvents(s, respond, c, sent)
  }

  /** The DIMACS CNF grammar's events, and how it ends. */
  function CnfEvents(s: seq<char>, respond: Event -> Outcome, c: Cursor, sent: seq<Event>): (r: Run<seq<Event>>)
    ensures Framed(sent, r)
  {
    var r := OtisCnfParsing.OtisParseClauses(s, respond, c, Header(0, 0), sent);
    Run(r.state.sent, r.outcome)
  }

  /** The OPB grammar's events, and how it ends. */
  function OpbEvents(s: seq<char>, respond: Event -> Outcome, c: Cursor, sent: seq<Event>): (r: Run<seq<Event>>)
    ensures Framed(sent, r)
  {
    var r := OtisOpbParsing.ParseOpbEvents(s, respond, c, Header(0, 0), sent);
    OtisOpbParsing.PassEndsWithEndParse(s, respond, c, Header(0, 0), sent);
    Run(r.state.sent, r.outcome)
  }

  /** `parse(istream&, listener)` once the format is selected: `setWriter`,
      then the grammar, unless the listener throws on `setWriter`. */
  function Dispatch(s: seq<char>, respond: Event -> Outcome, sel: Selection, sent: seq<Event>): (r: Run<seq<Event>>)
    ensures sent + [SetWriter(sel.writer)] <= r.state
    ensures |r.state| > |sent| + 1 ==> r.state[|sent| + 1] == StartParse
  {
    var told := respond(SetWriter(sel.writer));
    if told.Raise? then Run(sent + [SetWriter(sel.writer)], told)
    else Grammar(s, respond, sel.writer, sel.start, sent + [SetWriter(sel.writer)])
  }

  /** Input made only of blanks, or empty, is rejected as empty; any other
      input is not. */
  lemma EmptyInputIsRejected(s: seq<char>)
    ensures (forall i :: 0 <= i < |s| ==> IsSpace(s[i])) <==> Select(s) == Fail(ParseException(Dispatching.InputIsEmpty))
  {
    PeekFailsOnlyOnBlanks(s, 0);
  }

  /** A grammar is chosen exactly when the first non-blank character is `c`,
      `p` or `*`, and it starts on that character; `<`, which announces
      XCSP3 to the solver-based dispatcher, is an unknown input type here. */
  lemma SelectionIsFirstNonBlank(s: seq<char>)
    ensures var k := FirstNonBlank(s, 0);
            && (Select(s).Ok? <==> k < |s| && WriterOf(s[k]).Some?)
            && (Select(s).Ok? ==> Select(s).value == Selection(WriterOf(s[k]).value, Cursor(k, false)))
            && (k < |s| && WriterOf(s[k]).None? ==> Select(s) == Fail(ParseException(Dispatching.UnknownInputType)))
  {
    PeekFindsFirstNonBlank(s, 0);
  }

  /** Every format the listener-based dispatcher knows, the solver-based one
      knows too, with the matching grammar. */
  lemma FormatsAgree(c: char)
    ensures WriterOf(c) == Some(DimacsProblemWriter) <==> Dispatching.FormatOf(c) == Some(Dispatching.Dimacs)
    ensures WriterOf(c) == Some(OpbProblemWriter) <==> Dispatching.FormatOf(c) == Some(Dispatching.Opb)
    ensures c == '<' ==> WriterOf(c).None? && Dispatching.FormatOf(c).Some?
  {
  }

  /** `parse(istream&, listener)`: when no format is selected the call throws
      before the listener hears anything; otherwise the listener receives
      `setWriter` with the matching writer first, then the grammar's
      events. */
  method Parse(input: seq<char>, listener: Listener) returns (outcome: Outcome)
    modifies listener
    ensures Select(input).Fail? ==> outcome == Raise(Select(input).error) && listener.received == old(listener.received)
    ensures Select(input).Ok? ==>
              Run(listener.received, outcome) == Dispatch(input, listener.respond, Select(input).value, old(listener.received))
  {
    var scanner := new Scanner(input);
    var found, c := scanner.Look();
    if !found {
      return Raise(ParseException(Dispatching.InputIsEmpty));
    }
    var writer := WriterOf(c);
    if writer.None? {
      return Raise(ParseException(Dispatching.UnknownInputType));
    }
    outcome := listener.Notify(SetWriter(writer.value));
    if outcome.Raise? {
      return;
    }
    match writer.value {
      case DimacsProblemWriter =>
        var parser := new OtisCnfParsing.OtisCnfParser(scanner, listener);
        outcome := parser.Parse();
      case OpbProblemWriter =>
        var parser := new OtisOpbParsing.OtisOpbParser(scanner, listener);
        outcome := parser.Parse();
    }
  }
}

=== FILE: otis_opb_parser.dfy ===
/** The OPB grammar of the listener-based front end. It reads the same input
    as the solver-based grammar, but tells a listener what it reads: the
    start and end of the parse, the header, an objective function term by
    term, and each constraint as its beginning, its terms, its operator, its
    degree and its end. Products of literals are passed on as such; it is for
    the listener to reject them. The listener may answer any event by
    throwing, which ends the parse. */
module OtisOpbParsing {
  import opened Outcomes
  import opened Scanning
  import opened AbstractParsing
  import opened ParseEvents
  import opened OpbGrammar

  /** The state of the parse: the stream, the header read so far, the number
      of constraints read, and every event the listener received. */
  datatype OpbTrace = OpbTrace(at: Cursor, header: Header, constraintsRead: int, sent: seq<Event>)

  /** Send one event to the listener, which answers with `respond`. */
  function Tell(respond: Event -> Outcome, st: OpbTrace, e: Event): (r: Run<OpbTrace>)
    ensures r.state == st.(sent := st.sent + [e])
    ensures r.outcome == respond(e)
  {
    Run(st.(sent := st.sent + [e]), respond(e))
  }

  /** The events of a term in a constraint. */
  predicate TermOfConstraint(e: Event) {
    e.ConstraintTerm? || e.ConstraintProduct?
  }

  /** The events of an objective function. */
  predicate ObjectiveEvent(e: Event) {
    e == BeginObjective || e.ObjectiveTerm? || e.ObjectiveProduct? || e == EndObjective
  }

  /** The events of a constraint. */
  predicate ConstraintEvent(e: Event) {
    || e == BeginConstraint || TermOfConstraint(e) || e.ConstraintRelationalOperator?
    || e.ConstraintDegree? || e == EndConstraint
  }

  /** The events sent between the start and the end of the parse. */
  predicate BodyEvent(e: Event) {
    e.MetaData? || ObjectiveEvent(e) || ConstraintEvent(e)
  }

  /** The events from index `from` on are terms of a constraint. */
  predicate TermsFrom(sent: seq<Event>, from: nat) {
    forall i :: from <= i < |sent| ==> TermOfConstraint(sent[i])
  }

  /** The events from index `from` on belong to an objective function. */
  predicate ObjectiveFrom(sent: seq<Event>, from: nat) {
    forall i :: from <= i < |sent| ==> ObjectiveEvent(sent[i])
  }

  /** The events from index `from` on belong to constraints. */
  predicate ConstraintsFrom(sent: seq<Event>, from: nat) {
    forall i :: from <= i < |sent| ==> ConstraintEvent(sent[i])
  }

  /** The events from index `from` on are sent between the header line and
      the end of the parse. */
  predicate BodyFrom(sent: seq<Event>, from: nat) {
    forall i :: from <= i < |sent| ==> BodyEvent(sent[i])
  }

  /** The events from index `from` on are sent between the header line and
      the end of the parse, and `endParse` is the last of them. */
  predicate EndsParse(sent: seq<Event>, from: nat) {
    0 <= from < |sent| && BodyFrom(sent[..|sent| - 1], from) && sent[|sent| - 1] == EndParse
  }

  /** The literals an event carries, if any, stand for variables within
      `bound`. */
  predicate Within(bound: int, e: Event) {
    && ((e.ConstraintTerm? || e.ObjectiveTerm?) ==> CheckLiteral(bound, e.literal).Ok?)
    && ((e.ConstraintProduct? || e.ObjectiveProduct?) ==> AllWithin(bound, e.literals))
  }

  /** Every literal of `literals` stands for a variable within `bound`. */
  predicate AllWithin(bound: int, literals: seq<int>) {
    forall i :: 0 <= i < |literals| ==> CheckLiteral(bound, literals[i]).Ok?
  }

  /** The events from index `from` on carry literals within `bound` only. */
  predicate WithinFrom(sent: seq<Event>, from: nat, bound: int) {
    forall i :: from <= i < |sent| ==> Within(bound, sent[i])
  }

  /** The number of constraints begun in `es`. */
  function Begins(es: seq<Event>): nat {
    if es == [] then 0 else (if es[0] == BeginConstraint then 1 else 0) + Begins(es[1..])
  }

  lemma {:induction false} BeginsAppend(a: seq<Event>, b: seq<Event>)
    ensures Begins(a + b) == Begins(a) + Begins(b)
  {
    if a == [] {
      assert a + b == b;
    } else {
      assert (a + b)[1..] == a[1..] + b;
      BeginsAppend(a[1..], b);
    }
  }

  /** The constraints begun after `from` in `c`, which extends `b`, are
      those begun after `from` in `b` and those begun after `b`. */
  lemma BeginsSplit(b: seq<Event>, c: seq<Event>, from: nat)
    requires b <= c && from <= |b|
    ensures Begins(c[from..]) == Begins(b[from..]) + Begins(c[|b|..])
  {
    assert c[from..] == b[from..] + c[|b|..];
    BeginsAppend(b[from..], c[|b|..]);
  }

  /** Events none of which is `beginConstraint` begin no constraint. */
  lemma {:induction false} NoBegins(es: seq<Event>)
    requires forall i :: 0 <= i < |es| ==> es[i] != BeginConstraint
    ensures Begins(es) == 0
  {
    if es != [] {
      assert forall i :: 0 <= i < |es| - 1 ==> es[1..][i] == es[i + 1];
      NoBegins(es[1..]);
    }
  }

  /** Events within `bound` before and after a point are within it
      throughout. */
  lemma WithinFromJoin(a: seq<Event>, b: seq<Event>, from: nat, bound: int)
    requires a <= b && from <= |a|
    requires WithinFrom(a, from, bound) && WithinFrom(b, |a|, bound)
    ensures WithinFrom(b, from, bound)
  {
    forall i | from <= i < |b|
      ensures Within(bound, b[i])
    {
      if i < |a| {
        assert b[i] == a[i];
      }
    }
  }

  /** The events of one constraint read in full: its beginning, its terms,
      its operator, its degree and its end. */
  predicate ConstraintShape(es: seq<Event>) {
    && |es| >= 4
    && es[0] == BeginConstraint
    && (forall i :: 1 <= i < |es| - 3 ==> TermOfConstraint(es[i]))
    && es[|es| - 3].ConstraintRelationalOperator?
    && es[|es| - 2].ConstraintDegree?
    && es[|es| - 1] == EndConstraint
  }

  /** The event for a term of a constraint: a term when it has one literal,
      a product otherwise. */
  function ConstraintTermEvent(t: Term): (e: Event)
    requires |t.literals| >= 1
    ensures TermOfConstraint(e) && e.coefficient == t.coefficient
    ensures e.ConstraintTerm? <==> |t.literals| == 1
    ensures e.ConstraintTerm? ==> e.literal == t.literals[0]
    ensures e.ConstraintProduct? ==> e.literals == t.literals
  {
    if |t.literals| == 1 then ConstraintTerm(t.coefficient, t.literals[0])
    else ConstraintProduct(t.coefficient, t.literals)
  }

  /** The event for a term of the objective function. */
  function ObjectiveTermEvent(t: Term): (e: Event)
    requires |t.literals| >= 1
    ensures (e.ObjectiveTerm? || e.ObjectiveProduct?) && e.coefficient == t.coefficient
    ensures e.ObjectiveTerm? <==> |t.literals| == 1
    ensures e.ObjectiveTerm? ==> e.literal == t.literals[0]
    ensures e.ObjectiveProduct? ==> e.literals == t.literals
  {
    if |t.literals| == 1 then ObjectiveTerm(t.coefficient, t.literals[0])
    else ObjectiveProduct(t.coefficient, t.literals)
  }

  /** One term of a loop, once `look` has found `next` and left the cursor
      on it: it must start a number, and the term read is sent, as part of
      the objective function or of a constraint. */
  function NextTerm(s: seq<char>, respond: Event -> Outcome, st: OpbTrace, next: char, objective: bool): (r: Run<OpbTrace>)
    ensures r.state == st.(at := r.state.at, sent := r.state.sent)
    ensures st.sent <= r.state.sent && |r.state.sent| <= |st.sent| + 1
    ensures |r.state.sent| > |st.sent| ==>
              if objective then ObjectiveEvent(r.state.sent[|st.sent|]) else TermOfConstraint(r.state.sent[|st.sent|])
    ensures |r.state.sent| > |st.sent| ==> Within(st.header.numberOfVariables, r.state.sent[|st.sent|])
    ensures r.outcome.Pass? ==> Consistent(s, r.state.at) && Rank(s, r.state.at) < Rank(s, st.at)
  {
    if !IsNumberStart(next) then Run(st, Raise(ParseException(NumberExpected)))
    else
      match ScanTerm(s, st.at, st.header.numberOfVariables)
      case Fail(e) => Run(st, Raise(e))
      case Ok(t) => Tell(respond, st.(at := t.after), if objective then ObjectiveTermEvent(t) else ConstraintTermEvent(t))
  }

  /** The term loop of `readObjective`: a `;` is read and ends the loop, as
      does the end of the stream; anything else is a term. */
  function ObjectiveLoop(s: seq<char>, respond: Event -> Outcome, st: OpbTrace): (r: Run<OpbTrace>)
    ensures r.state == st.(at := r.state.at, sent := r.state.sent)
    ensures st.sent <= r.state.sent
    ensures r.outcome.Pass? ==> Consistent(s, r.state.at) && Rank(s, r.state.at) <= Rank(s, st.at)
    decreases Rank(s, st.at)
  {
    var look := Peek(s, st.at);
    if !look.found then Run(st.(at := look.after), Pass)
    else if look.ch == ';' then Run(st.(at := Get(s, look.after).after), Pass)
    else
      var r := NextTerm(s, respond, st.(at := look.after), look.ch, true);
      if r.outcome.Raise? then r else ObjectiveLoop(s, respond, r.state)
  }

  /** `readObjective`: with no `m` next, nothing is sent; `min:` starts an
      objective function, sent as its beginning, its terms and its end; any
      other keyword is rejected. */
  function Objective(s: seq<char>, respond: Event -> Outcome, st: OpbTrace): (r: Run<OpbTrace>)
    ensures r.state == st.(at := r.state.at, sent := r.state.sent)
    ensures st.sent <= r.state.sent
    ensures r.outcome.Pass? ==> Consistent(s, r.state.at) && Rank(s, r.state.at) <= Rank(s, st.at)
    ensures var look := Peek(s, st.at); !look.found || look.ch != 'm' ==> r == Run(st.(at := look.after), Pass)
  {
    var look := Peek(s, st.at);
    if !look.found || look.ch != 'm' then Run(st.(at := look.after), Pass)
    else
      var keyword := ReadsMin(s, look.after);
      if !keyword.value then Run(st.(at := keyword.after), Raise(ParseException(KeywordMinExpected)))
      else MinObjective(s, respond, st.(at := keyword.after))
  }

  /** The objective function once `min:` is read: its beginning, its terms
      and its end are sent, each only once the previous one is accepted. */
  function MinObjective(s: seq<char>, respond: Event -> Outcome, st: OpbTrace): (r: Run<OpbTrace>)
    ensures r.state == st.(at := r.state.at, sent := r.state.sent)
    ensures st.sent + [BeginObjective] <= r.state.sent
    ensures respond(BeginObjective).Raise? ==> r == Run(st.(sent := st.sent + [BeginObjective]), respond(BeginObjective))
    ensures r.outcome.Pass? ==> Consistent(s, r.state.at) && Rank(s, r.state.at) <= Rank(s, st.at)
  {
    var begun := Tell(respond, st, BeginObjective);
    if begun.outcome.Raise? then begun
    else
      var terms := ObjectiveLoop(s, respond, begun.state);
      if terms.outcome.Raise? then terms else Tell(respond, terms.state, EndObjective)
  }

  /** The term loop of `readConstraint`: stop on `>`, `=` or the end of the
      stream; anything else is a term. */
  function TermLoop(s: seq<char>, respond: Event -> Outcome, st: OpbTrace): (r: Run<OpbTrace>)
    ensures r.state == st.(at := r.state.at, sent := r.state.sent)
    ensures st.sent <= r.state.sent
    ensures r.outcome.Pass? ==> Consistent(s, r.state.at) && Rank(s, r.state.at) <= Rank(s, st.at)
    ensures r.outcome.Pass? ==> r.state.at.eof || (r.state.at.pos < |s| && EndsTerms(s[r.state.at.pos]))
    decreases Rank(s, st.at)
  {
    var look := Peek(s, st.at);
    if !look.found || EndsTerms(look.ch) then Run(st.(at := look.after), Pass)
    else
      var r := NextTerm(s, respond, st.(at := look.after), look.ch, false);
      if r.outcome.Raise? then r else TermLoop(s, respond, r.state)
  }

  /** The end of `readConstraint`: the operator, sent; the degree, sent;
      then the `;`, which must be there and is read before `endConstraint`
      is sent. */
  function Closing(s: seq<char>, respond: Event -> Outcome, st: OpbTrace): (r: Run<OpbTrace>)
    ensures r.state == st.(at := r.state.at, sent := r.state.sent)
    ensures st.sent <= r.state.sent && |r.state.sent| <= |st.sent| + 3
    ensures r.outcome.Pass? ==> Consistent(s, r.state.at) && Rank(s, r.state.at) < Rank(s, st.at)
  {
    match ScanRelationalOperator(s, st.at)
    case Fail(e) => Run(st, Raise(e))
    case Ok(op) =>
      var told := Tell(respond, st.(at := op.after), ConstraintRelationalOperator(op.value));
      if told.outcome.Raise? then told
      else
        match ScanNumber(s, op.after)
        case Fail(e) => Run(told.state, Raise(e))
        case Ok(degree) =>
          var given := Tell(respond, told.state.(at := degree.after), ConstraintDegree(degree.value));
          if given.outcome.Raise? then given
          else
            match ScanSemicolon(s, degree.after)
            case Fail(e) => Run(given.state, Raise(e))
            case Ok(end) => Tell(respond, given.state.(at := end), EndConstraint)
  }

  /** `readConstraint`. */
  function Constraint(s: seq<char>, respond: Event -> Outcome, st: OpbTrace): (r: Run<OpbTrace>)
    ensures r.state == st.(at := r.state.at, sent := r.state.sent)
    ensures st.sent <= r.state.sent
    ensures r.outcome.Pass? ==> Consistent(s, r.state.at) && Rank(s, r.state.at) < Rank(s, st.at)
  {
    var begun := Tell(respond, st, BeginConstraint);
    if begun.outcome.Raise? then begun
    else
      var terms := TermLoop(s, respond, begun.state);
      if terms.outcome.Raise? then terms else Closing(s, respond, terms.state)
  }

  /** One iteration of the constraint loop, once `look` has found `next`:
      comment lines are skipped if `next` is `*`, then a constraint is read
      and counted. */
  function ConstraintStep(s: seq<char>, respond: Event -> Outcome, st: OpbTrace, next: char): (r: Run<OpbTrace>)
    ensures r.state.header == st.header && st.sent <= r.state.sent
    ensures r.outcome.Pass? ==> r.state.constraintsRead == st.constraintsRead + 1
    ensures r.outcome.Pass? ==> Consistent(s, r.state.at) && Rank(s, r.state.at) < Rank(s, st.at)
  {
    var from := if next == '*' then PastComments(s, st.at) else st.at;
    var r := Constraint(s, respond, st.(at := from));
    if r.outcome.Raise? then r else Run(r.state.(constraintsRead := st.constraintsRead + 1), Pass)
  }

  /** The constraint loop: iterate while `look` finds a character. */
  function ConstraintLoop(s: seq<char>, respond: Event -> Outcome, st: OpbTrace): (r: Run<OpbTrace>)
    ensures r.state.header == st.header && st.sent <= r.state.sent
    ensures r.outcome.Pass? ==> r.state.at == Cursor(|s|, true)
    decreases Rank(s, st.at)
  {
    var look := Peek(s, st.at);
    if !look.found then
      PeekAtEndFails(s, look.after);
      Run(st.(at := look.after), Pass)
    else
      var r := ConstraintStep(s, respond, st.(at := look.after), look.ch);
      if r.outcome.Raise? then r else ConstraintLoop(s, respond, r.state)
  }

  /** What follows the constraint loop: the number of constraints read is
      compared with the declared one, and only then is the end of the parse
      announced. */
  function Conclusion(respond: Event -> Outcome, st: OpbTrace): (r: Run<OpbTrace>)
    ensures r.state == st.(sent := r.state.sent)
    ensures r.state.sent == st.sent || (r.state.sent == st.sent + [EndParse] && st.constraintsRead == st.header.numberOfConstraints)
    ensures r.outcome.Pass? <==> st.constraintsRead == st.header.numberOfConstraints && respond(EndParse).Pass?
    ensures r.outcome.Pass? ==> r.state.sent == st.sent + [EndParse]
  {
    if st.constraintsRead != st.header.numberOfConstraints then
      Run(st, Raise(ParseException(UnexpectedConstraintCount)))
    else
      Tell(respond, st, EndParse)
  }

  /** `parse` once the header line is read and sent: the comments, the
      objective, the constraints, then the conclusion. */
  function AfterHeader(s: seq<char>, respond: Event -> Outcome, st: OpbTrace): (r: Run<OpbTrace>)
    ensures st.sent <= r.state.sent
    ensures r.outcome.Pass? ==> r.state.at == Cursor(|s|, true)
  {
    var objective := Objective(s, respond, st.(at := PastComments(s, st.at)));
    if objective.outcome.Raise? then objective
    else
      var loop := ConstraintLoop(s, respond, objective.state);
      if loop.outcome.Raise? then loop else Conclusion(respond, loop.state)
  }

  /** `readMetaData`: the header line is read and skipped, then `metaData`
      is sent with the two counts read. */
  function HeaderLine(s: seq<char>, respond: Event -> Outcome, st: OpbTrace): (r: Run<OpbTrace>)
    ensures r.state.constraintsRead == st.constraintsRead
    ensures r.state.sent == st.sent || r.state.sent == st.sent + [MetaData(r.state.header.numberOfVariables, r.state.header.numberOfConstraints)]
    ensures r.outcome.Pass? ==> r.state.sent == st.sent + [MetaData(r.state.header.numberOfVariables, r.state.header.numberOfConstraints)]
  {
    match ScanMetaData(s, st.at)
    case Fail(e) => Run(st, Raise(e))
    case Ok(m) =>
      Tell(respond, st.(at := m.after, header := m.value), MetaData(m.value.numberOfVariables, m.value.numberOfConstraints))
  }

  /** `parse` once `startParse` is sent: the header line, then the rest. */
  function AfterStart(s: seq<char>, respond: Event -> Outcome, st: OpbTrace): (r: Run<OpbTrace>)
    ensures st.sent <= r.state.sent
    ensures r.outcome.Pass? ==> r.state.at == Cursor(|s|, true)
  {
    var header := HeaderLine(s, respond, st);
    if header.outcome.Raise? then header else AfterHeader(s, respond, header.state)
  }

  /** `parse`, from the cursor `c` with the header fields `header`, after the
      listener received the events `sent`. */
  function ParseOpbEvents(s: seq<char>, respond: Event -> Outcome, c: Cursor, header: Header, sent: seq<Event>)
    : (r: Run<OpbTrace>)
    ensures sent <= r.state.sent && |sent| < |r.state.sent| && r.state.sent[|sent|] == StartParse
    ensures r.outcome.Pass? ==> r.state.at == Cursor(|s|, true)
  {
    var started := Tell(respond, OpbTrace(c, header, 0, sent), StartParse);
    if started.outcome.Raise? then started else AfterStart(s, respond, started.state)
  }

  // ---------------------------------------------------------------------

  /** Every event the objective loop sends is a term or a product, whose
      literals stand for declared variables. */
  lemma {:induction false} ObjectiveLoopSendsTerms(s: seq<char>, respond: Event -> Outcome, st: OpbTrace)
    ensures ObjectiveFrom(ObjectiveLoop(s, respond, st).state.sent, |st.sent|)
    ensures WithinFrom(ObjectiveLoop(s, respond, st).state.sent, |st.sent|, st.header.numberOfVariables)
    decreases Rank(s, st.at)
  {
    var look := Peek(s, st.at);
    if look.found && look.ch != ';' {
      var r := NextTerm(s, respond, st.(at := look.after), look.ch, true);
      if r.outcome.Pass? {
        ObjectiveLoopSendsTerms(s, respond, r.state);
        var final := ObjectiveLoop(s, respond, r.state).state.sent;
        forall i | |st.sent| <= i < |r.state.sent|
          ensures ObjectiveEvent(final[i]) && Within(st.header.numberOfVariables, final[i])
        {
          assert final[i] == r.state.sent[i];
        }
      }
    }
  }

  /** An objective `min:` is sent as `beginObjective`, then its terms, then
      `endObjective`; nothing else is sent for it, and its literals stand
      for declared variables. */
  lemma ObjectiveSendsInOrder(s: seq<char>, respond: Event -> Outcome, st: OpbTrace)
    ensures ObjectiveFrom(Objective(s, respond, st).state.sent, |st.sent|)
    ensures WithinFrom(Objective(s, respond, st).state.sent, |st.sent|, st.header.numberOfVariables)
    ensures var r := Objective(s, respond, st);
            && (r.state.sent != st.sent ==> r.state.sent[|st.sent|] == BeginObjective)
            && (r.outcome.Pass? && r.state.sent != st.sent ==> r.state.sent[|r.state.sent| - 1] == EndObjective)
  {
    var look := Peek(s, st.at);
    if look.found && look.ch == 'm' {
      var keyword := ReadsMin(s, look.after);
      if keyword.value {
        var begun := Tell(respond, st.(at := keyword.after), BeginObjective);
        assert Objective(s, respond, st) == MinObjective(s, respond, st.(at := keyword.after));
        if begun.outcome.Pass? {
          ObjectiveLoopSendsTerms(s, respond, begun.state);
          var terms := ObjectiveLoop(s, respond, begun.state);
          var final := Objective(s, respond, st).state.sent;
          if terms.outcome.Pass? {
            forall i | |st.sent| <= i < |final|
              ensures ObjectiveEvent(final[i]) && Within(st.header.numberOfVariables, final[i])
            {
              if i < |terms.state.sent| {
                assert final[i] == terms.state.sent[i];
              }
            }
          }
        }
      }
    }
  }

  /** Every event the term loop of a constraint sends is a term or a
      product, whose literals stand for declared variables. */
  lemma {:induction false} TermLoopSendsTerms(s: seq<char>, respond: Event -> Outcome, st: OpbTrace)
    ensures TermsFrom(TermLoop(s, respond, st).state.sent, |st.sent|)
    ensures WithinFrom(TermLoop(s, respond, st).state.sent, |st.sent|, st.header.numberOfVariables)
    decreases Rank(s, st.at)
  {
    var look := Peek(s, st.at);
    if look.found && !EndsTerms(look.ch) {
      var r := NextTerm(s, respond, st.(at := look.after), look.ch, false);
      if r.outcome.Pass? {
        TermLoopSendsTerms(s, respond, r.state);
        var final := TermLoop(s, respond, r.state).state.sent;
        forall i | |st.sent| <= i < |r.state.sent|
          ensures TermOfConstraint(final[i]) && Within(st.header.numberOfVariables, final[i])
        {
          assert final[i] == r.state.sent[i];
        }
      }
    }
  }

  /** The end of a constraint sends its operator, then its degree, then
      `endConstraint`, each only once the previous one is accepted, and
      `endConstraint` only once the `;` is read. */
  lemma ClosingSendsInOrder(s: seq<char>, respond: Event -> Outcome, st: OpbTrace)
    ensures var r := Closing(s, respond, st);
            && (|r.state.sent| > |st.sent| ==> r.state.sent[|st.sent|].ConstraintRelationalOperator?)
            && (|r.state.sent| > |st.sent| + 1 ==> r.state.sent[|st.sent| + 1].ConstraintDegree?)
            && (|r.state.sent| > |st.sent| + 2 ==> r.state.sent[|st.sent| + 2] == EndConstraint)
            && (r.outcome.Pass? <==> |r.state.sent| == |st.sent| + 3 && respond(EndConstraint).Pass?)
    ensures var r := Closing(s, respond, st);
            var op := ScanRelationalOperator(s, st.at);
            |r.state.sent| == |st.sent| + 3 ==>
              && op.Ok? && ScanNumber(s, op.value.after).Ok?
              && ScanSemicolon(s, ScanNumber(s, op.value.after).value.after).Ok?
  {
  }

  /** Events that belong to constraints before and after a point belong
      to constraints throughout. */
  lemma ConstraintsFromJoin(a: seq<Event>, b: seq<Event>, from: nat)
    requires a <= b && from <= |a|
    requires ConstraintsFrom(a, from) && ConstraintsFrom(b, |a|)
    ensures ConstraintsFrom(b, from)
  {
    forall i | from <= i < |b|
      ensures ConstraintEvent(b[i])
    {
      if i < |a| {
        assert b[i] == a[i];
      }
    }
  }

  /** The end of a constraint sends only events of that constraint, none of
      which begins one or carries a literal. */
  lemma ClosingSendsItsEvents(s: seq<char>, respond: Event -> Outcome, st: OpbTrace, bound: int)
    ensures ConstraintsFrom(Closing(s, respond, st).state.sent, |st.sent|)
    ensures WithinFrom(Closing(s, respond, st).state.sent, |st.sent|, bound)
    ensures Begins(Closing(s, respond, st).state.sent[|st.sent|..]) == 0
  {
    ClosingSendsInOrder(s, respond, st);
    var sent := Closing(s, respond, st).state.sent;
    assert forall i :: |st.sent| <= i < |sent| ==> EndsConstraint(sent[i]);
    EndingEvents(sent, |st.sent|, bound);
  }

  /** The events that end a constraint. */
  predicate EndsConstraint(e: Event) {
    e.ConstraintRelationalOperator? || e.ConstraintDegree? || e == EndConstraint
  }

  /** Events that end a constraint belong to it, carry no literal and begin
      no constraint. */
  lemma EndingEvents(sent: seq<Event>, from: nat, bound: int)
    requires from <= |sent| && forall i :: from <= i < |sent| ==> EndsConstraint(sent[i])
    ensures ConstraintsFrom(sent, from) && WithinFrom(sent, from, bound) && Begins(sent[from..]) == 0
  {
    var es := sent[from..];
    assert forall i :: 0 <= i < |es| ==> EndsConstraint(es[i]);
    NoBegins(es);
  }

  /** Every event sent while a constraint is read belongs to it, and its
      literals stand for declared variables. */
  lemma ConstraintSendsItsEvents(s: seq<char>, respond: Event -> Outcome, st: OpbTrace)
    ensures ConstraintsFrom(Constraint(s, respond, st).state.sent, |st.sent|)
    ensures WithinFrom(Constraint(s, respond, st).state.sent, |st.sent|, st.header.numberOfVariables)
  {
    var n := st.header.numberOfVariables;
    var begun := Tell(respond, st, BeginConstraint);
    assert ConstraintsFrom(begun.state.sent, |st.sent|) && WithinFrom(begun.state.sent, |st.sent|, n);
    if begun.outcome.Pass? {
      var terms := TermLoop(s, respond, begun.state);
      TermLoopSendsTerms(s, respond, begun.state);
      ConstraintsFromJoin(begun.state.sent, terms.state.sent, |st.sent|);
      WithinFromJoin(begun.state.sent, terms.state.sent, |st.sent|, n);
      if terms.outcome.Pass? {
        var closed := Closing(s, respond, terms.state);
        ClosingSendsItsEvents(s, respond, terms.state, n);
        ConstraintsFromJoin(terms.state.sent, closed.state.sent, |st.sent|);
        WithinFromJoin(terms.state.sent, closed.state.sent, |st.sent|, n);
      }
    }
  }

  /** Reading a constraint, in full or not, begins exactly one. */
  lemma ConstraintBeginsOnce(s: seq<char>, respond: Event -> Outcome, st: OpbTrace)
    ensures Begins(Constraint(s, respond, st).state.sent[|st.sent|..]) == 1
  {
    var begun := Tell(respond, st, BeginConstraint);
    var r := Constraint(s, respond, st);
    assert begun.state.sent[|st.sent|..] == [BeginConstraint];
    assert Begins(begun.state.sent[|st.sent|..]) == 1 by {
      assert [BeginConstraint][1..] == [];
    }
    if begun.outcome.Pass? {
      var terms := TermLoop(s, respond, begun.state);
      TermLoopSendsTerms(s, respond, begun.state);
      NoBegins(terms.state.sent[|begun.state.sent|..]);
      BeginsSplit(begun.state.sent, terms.state.sent, |st.sent|);
      if terms.outcome.Pass? {
        ClosingSendsItsEvents(s, respond, terms.state, 0);
        BeginsSplit(terms.state.sent, r.state.sent, |st.sent|);
      }
    }
  }

  /** A constraint read in full is sent as its beginning, its terms, its
      operator, its degree and its end, in that order. */
  lemma ConstraintSendsInOrder(s: seq<char>, respond: Event -> Outcome, st: OpbTrace)
    ensures var r := Constraint(s, respond, st);
            r.outcome.Pass? ==> ConstraintShape(r.state.sent[|st.sent|..])
  {
    var begun := Tell(respond, st, BeginConstraint);
    if begun.outcome.Pass? {
      var terms := TermLoop(s, respond, begun.state);
      TermLoopSendsTerms(s, respond, begun.state);
      if terms.outcome.Pass? {
        var r := Closing(s, respond, terms.state);
        ClosingSendsInOrder(s, respond, terms.state);
        if r.outcome.Pass? {
          ShapeFromParts(st.sent, terms.state.sent, r.state.sent);
        }
      }
    }
  }

  /** `beginConstraint` after `base`, then terms up to the end of `c`, then
      an operator, a degree and `endConstraint`: one constraint's events. */
  lemma ShapeFromParts(base: seq<Event>, c: seq<Event>, r: seq<Event>)
    requires base + [BeginConstraint] <= c && c <= r
    requires TermsFrom(c, |base| + 1)
    requires |r| == |c| + 3
    requires r[|c|].ConstraintRelationalOperator? && r[|c| + 1].ConstraintDegree? && r[|c| + 2] == EndConstraint
    ensures ConstraintShape(r[|base|..])
  {
    var es := r[|base|..];
    assert es[0] == c[|base|] == BeginConstraint;
    forall i | 1 <= i < |es| - 3
      ensures TermOfConstraint(es[i])
    {
      assert es[i] == c[|base| + i];
    }
  }

  /** Every event the constraint loop sends belongs to a constraint, and
      its literals stand for declared variables. The loop begins one
      constraint per constraint it counts, and one more when a constraint
      it began fails. */
  lemma {:induction false} ConstraintLoopSendsConstraints(s: seq<char>, respond: Event -> Outcome, st: OpbTrace)
    ensures var r := ConstraintLoop(s, respond, st);
            && ConstraintsFrom(r.state.sent, |st.sent|)
            && WithinFrom(r.state.sent, |st.sent|, st.header.numberOfVariables)
            && Begins(r.state.sent[|st.sent|..])
               == r.state.constraintsRead - st.constraintsRead + (if r.outcome.Pass? then 0 else 1)
    decreases Rank(s, st.at)
  {
    var look := Peek(s, st.at);
    if look.found {
      var from := if look.ch == '*' then PastComments(s, look.after) else look.after;
      ConstraintSendsItsEvents(s, respond, st.(at := from));
      ConstraintBeginsOnce(s, respond, st.(at := from));
      var r := ConstraintStep(s, respond, st.(at := look.after), look.ch);
      assert r.state.sent == Constraint(s, respond, st.(at := from)).state.sent;
      if r.outcome.Pass? {
        ConstraintLoopSendsConstraints(s, respond, r.state);
        var final := ConstraintLoop(s, respond, r.state).state.sent;
        ConstraintsFromJoin(r.state.sent, final, |st.sent|);
        WithinFromJoin(r.state.sent, final, |st.sent|, st.header.numberOfVariables);
        BeginsSplit(r.state.sent, final, |st.sent|);
      } else {
        assert r.state.constraintsRead == st.constraintsRead;
      }
    } else {
      assert st.sent[|st.sent|..] == [];
    }
  }

  /** Objective events followed by constraint events are all sent between
      the header line and the end of the parse. */
  lemma BodyFromJoin(a: seq<Event>, b: seq<Event>, from: nat)
    requires a <= b && from <= |a|
    requires ObjectiveFrom(a, from) && ConstraintsFrom(b, |a|)
    ensures BodyFrom(b, from)
  {
    forall i | from <= i < |b|
      ensures BodyEvent(b[i])
    {
      if i < |a| {
        assert b[i] == a[i];
      }
    }
  }

  /** The conclusion adds `endParse` at most, and only last, once the
      number of constraints read is the declared one. */
  lemma ConclusionEndsBody(respond: Event -> Outcome, st: OpbTrace, from: nat)
    requires from <= |st.sent| && BodyFrom(st.sent, from)
    ensures var r := Conclusion(respond, st);
            && r.state.header == st.header
            && (BodyFrom(r.state.sent, from)
                || (EndsParse(r.state.sent, from) && r.state.constraintsRead == st.header.numberOfConstraints))
            && (r.outcome.Pass? ==> EndsParse(r.state.sent, from))
  {
    var r := Conclusion(respond, st);
    if r.state.sent != st.sent {
      assert r.state.sent[..|r.state.sent| - 1] == st.sent;
    }
  }

  /** After the header, the listener receives objective and constraint
      events, and `endParse` only last, once the number of constraints read
      is the declared one; the header read stays as it was. */
  lemma AfterHeaderSendsBody(s: seq<char>, respond: Event -> Outcome, st: OpbTrace)
    ensures var r := AfterHeader(s, respond, st);
            && r.state.header == st.header
            && (BodyFrom(r.state.sent, |st.sent|)
                || (EndsParse(r.state.sent, |st.sent|) && r.state.constraintsRead == st.header.numberOfConstraints))
            && (r.outcome.Pass? ==> EndsParse(r.state.sent, |st.sent|))
  {
    var objective := Objective(s, respond, st.(at := PastComments(s, st.at)));
    ObjectiveSendsInOrder(s, respond, st.(at := PastComments(s, st.at)));
    if objective.outcome.Raise? {
      BodyFromJoin(objective.state.sent, objective.state.sent, |st.sent|);
    } else {
      var loop := ConstraintLoop(s, respond, objective.state);
      ConstraintLoopSendsConstraints(s, respond, objective.state);
      BodyFromJoin(objective.state.sent, loop.state.sent, |st.sent|);
      if loop.outcome.Pass? {
        ConclusionEndsBody(respond, loop.state, |st.sent|);
      }
    }
  }

  /** Objective events, then the events of a constraint loop, then
      `endParse`: only the loop begins constraints. */
  lemma BodyBegins(base: seq<Event>, objective: seq<Event>, loop: seq<Event>)
    requires base <= objective <= loop
    requires forall i :: |base| <= i < |objective| ==> ObjectiveEvent(objective[i])
    ensures Begins((loop + [EndParse])[|base|..]) == Begins(loop[|objective|..])
  {
    var final := loop + [EndParse];
    var es := objective[|base|..];
    assert forall i :: 0 <= i < |es| ==> ObjectiveEvent(es[i]);
    NoBegins(es);
    BeginsSplit(objective, loop, |base|);
    BeginsSplit(loop, final, |base|);
    assert final[|loop|..] == [EndParse];
    assert Begins([EndParse]) == 0 by {
      assert [EndParse][1..] == [];
    }
  }

  /** After the header, every literal the listener receives stands for a
      declared variable. */
  lemma AfterHeaderSendsDeclared(s: seq<char>, respond: Event -> Outcome, st: OpbTrace)
    ensures WithinFrom(AfterHeader(s, respond, st).state.sent, |st.sent|, st.header.numberOfVariables)
  {
    var objective := Objective(s, respond, st.(at := PastComments(s, st.at)));
    ObjectiveSendsInOrder(s, respond, st.(at := PastComments(s, st.at)));
    var loop := ConstraintLoop(s, respond, objective.state);
    ConstraintLoopSendsConstraints(s, respond, objective.state);
    var r := Conclusion(respond, loop.state);
    assert AfterHeader(s, respond, st) == if objective.outcome.Raise? then objective else if loop.outcome.Raise? then loop else r;
    WithinThrough(st.sent, objective.state.sent, loop.state.sent, r.state.sent, st.header.numberOfVariables);
  }

  /** Three stretches of events in a row, each within `bound`, with at most
      `endParse` in the last: each stretch, from `base` on, is within
      `bound`. */
  lemma WithinThrough(base: seq<Event>, objective: seq<Event>, loop: seq<Event>, final: seq<Event>, bound: int)
    requires base <= objective <= loop
    requires final == loop || final == loop + [EndParse]
    requires WithinFrom(objective, |base|, bound) && WithinFrom(loop, |objective|, bound)
    ensures WithinFrom(objective, |base|, bound) && WithinFrom(loop, |base|, bound) && WithinFrom(final, |base|, bound)
  {
    WithinFromJoin(objective, loop, |base|, bound);
    assert WithinFrom(final, |loop|, bound);
    WithinFromJoin(loop, final, |base|, bound);
  }

  /** After the header, a parse that succeeds begins exactly the
      constraints still to read. */
  lemma AfterHeaderBeginsDeclared(s: seq<char>, respond: Event -> Outcome, st: OpbTrace)
    ensures var r := AfterHeader(s, respond, st);
            r.outcome.Pass? ==> Begins(r.state.sent[|st.sent|..]) == st.header.numberOfConstraints - st.constraintsRead
  {
    var objective := Objective(s, respond, st.(at := PastComments(s, st.at)));
    if objective.outcome.Pass? {
      ObjectiveSendsInOrder(s, respond, st.(at := PastComments(s, st.at)));
      var loop := ConstraintLoop(s, respond, objective.state);
      if loop.outcome.Pass? {
        ConstraintLoopSendsConstraints(s, respond, objective.state);
        var r := Conclusion(respond, loop.state);
        assert AfterHeader(s, respond, st) == r;
        if r.outcome.Pass? {
          BodyBegins(st.sent, objective.state.sent, loop.state.sent);
        }
      }
    }
  }

  /** The theorem on what the listener is told of the problem: every term
      and product it receives has literals that stand for variables the
      header declares, and a parse that succeeds begins exactly as many
      constraints as the header declares. */
  lemma ParseSendsDeclaredConstraints(s: seq<char>, respond: Event -> Outcome, c: Cursor, header: Header, sent: seq<Event>)
    ensures var r := ParseOpbEvents(s, respond, c, header, sent);
            var h := r.state.header;
            && WithinFrom(r.state.sent, |sent|, h.numberOfVariables)
            && (r.outcome.Pass? ==> Begins(r.state.sent[|sent|..]) == h.numberOfConstraints)
  {
    var started := Tell(respond, OpbTrace(c, header, 0, sent), StartParse);
    assert ParseOpbEvents(s, respond, c, header, sent)
           == if started.outcome.Raise? then started else AfterStart(s, respond, started.state);
    if started.outcome.Raise? {
      HeaderOnly(sent, started.state.sent, started.state.header);
    } else {
      StartSendsDeclared(s, respond, started.state, sent);
    }
  }

  /** After `startParse`, the header line and the rest keep the literals
      within the count of the header read and, when they succeed, begin as
      many constraints as it declares. */
  lemma StartSendsDeclared(s: seq<char>, respond: Event -> Outcome, st: OpbTrace, sent: seq<Event>)
    requires st.constraintsRead == 0 && st.sent == sent + [StartParse]
    ensures var r := AfterStart(s, respond, st);
            var h := r.state.header;
            && WithinFrom(r.state.sent, |sent|, h.numberOfVariables)
            && (r.outcome.Pass? ==> Begins(r.state.sent[|sent|..]) == h.numberOfConstraints)
  {
    var line := HeaderLine(s, respond, st);
    assert AfterStart(s, respond, st) == if line.outcome.Raise? then line else AfterHeader(s, respond, line.state);
    if line.outcome.Raise? {
      HeaderOnly(sent, line.state.sent, line.state.header);
    } else {
      BodySendsDeclared(s, respond, line.state, sent);
    }
  }

  /** After `startParse` and `metaData`, the rest of the parse keeps the
      literals within the header's count and, when it succeeds, begins as
      many constraints as the header declares. */
  lemma BodySendsDeclared(s: seq<char>, respond: Event -> Outcome, line: OpbTrace, sent: seq<Event>)
    requires line.constraintsRead == 0
    requires line.sent == sent + [StartParse, MetaData(line.header.numberOfVariables, line.header.numberOfConstraints)]
    ensures var r := AfterHeader(s, respond, line);
            && r.state.header == line.header
            && WithinFrom(r.state.sent, |sent|, line.header.numberOfVariables)
            && (r.outcome.Pass? ==> Begins(r.state.sent[|sent|..]) == line.header.numberOfConstraints)
  {
    var r := AfterHeader(s, respond, line);
    AfterHeaderSendsBody(s, respond, line);
    AfterHeaderSendsDeclared(s, respond, line);
    AfterHeaderBeginsDeclared(s, respond, line);
    HeaderEvents(sent, line.sent, r.state.sent, line.header);
  }

  /** `startParse`, then `metaData` at most, carry no literal. */
  lemma HeaderOnly(sent: seq<Event>, line: seq<Event>, h: Header)
    requires line == sent + [StartParse] || line == sent + [StartParse, MetaData(h.numberOfVariables, h.numberOfConstraints)]
    ensures forall bound :: WithinFrom(line, |sent|, bound)
  {
  }

  /** `startParse` and `metaData`, then events that begin `k` constraints
      and carry literals within `h`: the whole begins `k` constraints and
      stays within `h`. */
  lemma HeaderEvents(sent: seq<Event>, line: seq<Event>, final: seq<Event>, h: Header)
    requires line == sent + [StartParse, MetaData(h.numberOfVariables, h.numberOfConstraints)] && line <= final
    ensures WithinFrom(final, |line|, h.numberOfVariables) ==> WithinFrom(final, |sent|, h.numberOfVariables)
    ensures Begins(final[|sent|..]) == Begins(final[|line|..])
  {
    if WithinFrom(final, |line|, h.numberOfVariables) {
      WithinFromJoin(line, final, |sent|, h.numberOfVariables);
    }
    BeginsSplit(line, final, |sent|);
    assert line[|sent|..] == [StartParse, MetaData(h.numberOfVariables, h.numberOfConstraints)];
    NoBegins(line[|sent|..]);
  }

  /** A parse that finishes sends `endParse` last. */
  lemma PassEndsWithEndParse(s: seq<char>, respond: Event -> Outcome, c: Cursor, header: Header, sent: seq<Event>)
    ensures var r := ParseOpbEvents(s, respond, c, header, sent);
            r.outcome.Pass? ==> r.state.sent[|r.state.sent| - 1] == EndParse
  {
    ParseSendsInOrder(s, respond, c, header, sent);
  }

  /** The theorem: `startParse` comes first, `metaData` with the counts read
      second, then objective and constraint events; `endParse` comes only
      last, once the number of constraints read is the declared one, and a
      parse that succeeds ends with it. */
  lemma ParseSendsInOrder(s: seq<char>, respond: Event -> Outcome, c: Cursor, header: Header, sent: seq<Event>)
    ensures var r := ParseOpbEvents(s, respond, c, header, sent);
            var h := r.state.header;
            && (|r.state.sent| > |sent| + 1 ==> r.state.sent[|sent| + 1] == MetaData(h.numberOfVariables, h.numberOfConstraints))
            && (BodyFrom(r.state.sent, |sent| + 2)
                || (EndsParse(r.state.sent, |sent| + 2) && r.state.constraintsRead == h.numberOfConstraints))
            && (r.outcome.Pass? ==> EndsParse(r.state.sent, |sent| + 2))
  {
    var started := Tell(respond, OpbTrace(c, header, 0, sent), StartParse);
    if started.outcome.Pass? {
      var line := HeaderLine(s, respond, started.state);
      if line.outcome.Pass? {
        AfterHeaderSendsBody(s, respond, line.state);
      }
    }
  }

  /** A term with one literal is sent as a term, one with more as a
      product; the parser itself rejects neither. */
  lemma TermIsSentAsIs(s: seq<char>, respond: Event -> Outcome, st: OpbTrace)
    requires Peek(s, st.at).found && !EndsTerms(Peek(s, st.at).ch) && IsNumberStart(Peek(s, st.at).ch)
    requires ScanTerm(s, Peek(s, st.at).after, st.header.numberOfVariables).Ok?
    ensures var t := ScanTerm(s, Peek(s, st.at).after, st.header.numberOfVariables).value;
            var r := TermLoop(s, respond, st);
            && |r.state.sent| > |st.sent|
            && r.state.sent[|st.sent|] == (if |t.literals| == 1 then ConstraintTerm(t.coefficient, t.literals[0])
                                            else ConstraintProduct(t.coefficient, t.literals))
  {
  }

  /** `<` where a term or the operator may start is rejected as a missing
      number, as in the solver-based grammar. */
  lemma LessThanIsNumberExpected(s: seq<char>, respond: Event -> Outcome, st: OpbTrace)
    requires Peek(s, st.at).found && Peek(s, st.at).ch == '<'
    ensures TermLoop(s, respond, st).outcome == Raise(ParseException(NumberExpected))
  {
  }

  /** A term written without its coefficient, its identifier first as in
      `x1 +2 x2 >= 1;`, is rejected as a missing number, in a constraint as
      in the objective, and nothing is sent for it. */
  lemma BareIdentifierIsNumberExpected(s: seq<char>, respond: Event -> Outcome, st: OpbTrace)
    requires Peek(s, st.at).found && Peek(s, st.at).ch == 'x'
    ensures var r := TermLoop(s, respond, st);
            r.outcome == Raise(ParseException(NumberExpected)) && r.state.sent == st.sent
    ensures var r := ObjectiveLoop(s, respond, st);
            r.outcome == Raise(ParseException(NumberExpected)) && r.state.sent == st.sent
  {
  }

  /** With a listener that keeps the default answer to `beginObjective`, an
      objective `min:` is rejected as soon as it begins. */
  lemma DefaultListenerRejectsObjective(s: seq<char>, respond: Event -> Outcome, st: OpbTrace, p: nat)
    requires respond(BeginObjective) == DefaultResponse(BeginObjective)
    requires Peek(s, st.at) == Lookahead(true, 'm', Cursor(p, false))
    requires p + 4 <= |s| && s[p..p + 4] == "min:"
    ensures var r := Objective(s, respond, st);
            r.outcome == Raise(UnsupportedOperation(OptimizationNotSupported)) && r.state.sent == st.sent + [BeginObjective]
  {
    MinStartsObjective(s, respond, st, p);
    DefaultListenerRejectsMin(s, respond, st.(at := ReadsMin(s, Cursor(p, false)).after));
  }

  /** With a listener that keeps the default answer to `beginObjective`, the
      objective function after `min:` stops at its beginning, as
      optimization. */
  lemma DefaultListenerRejectsMin(s: seq<char>, respond: Event -> Outcome, st: OpbTrace)
    requires respond(BeginObjective) == DefaultResponse(BeginObjective)
    ensures var r := MinObjective(s, respond, st);
            r.outcome == Raise(UnsupportedOperation(OptimizationNotSupported)) && r.state.sent == st.sent + [BeginObjective]
  {
    MinObjectiveRejected(s, respond, st);
  }

  /** `min:` where the objective may start leads to the objective function. */
  lemma MinStartsObjective(s: seq<char>, respond: Event -> Outcome, st: OpbTrace, p: nat)
    requires Peek(s, st.at) == Lookahead(true, 'm', Cursor(p, false))
    requires p + 4 <= |s| && s[p..p + 4] == "min:"
    ensures Objective(s, respond, st) == MinObjective(s, respond, st.(at := ReadsMin(s, Cursor(p, false)).after))
  {
    ReadsMinMeaning(s, p);
    KeywordStartsObjective(s, respond, st, p);
  }

  /** The keyword read in full where the objective may start leads to the
      objective function. */
  lemma KeywordStartsObjective(s: seq<char>, respond: Event -> Outcome, st: OpbTrace, p: nat)
    requires Peek(s, st.at) == Lookahead(true, 'm', Cursor(p, false))
    requires ReadsMin(s, Cursor(p, false)).value
    ensures Objective(s, respond, st) == MinObjective(s, respond, st.(at := ReadsMin(s, Cursor(p, false)).after))
  {
  }

  /** A listener that rejects `beginObjective` stops the objective function
      there. */
  lemma MinObjectiveRejected(s: seq<char>, respond: Event -> Outcome, st: OpbTrace)
    requires respond(BeginObjective).Raise?
    ensures MinObjective(s, respond, st) == Run(st.(sent := st.sent + [BeginObjective]), respond(BeginObjective))
  {
  }

  // ---------------------------------------------------------------------

  /** A listener-based pseudo-Boolean parser over a scanner. */
  class OtisOpbParser {
    const scanner: Scanner
    const listener: Listener
    var numberOfVariables: int
    var numberOfConstraints: int

    /** A parser starts with both counts at zero. */
    constructor (scanner: Scanner, listener: Listener)
      ensures this.scanner == scanner && this.listener == listener
      ensures numberOfVariables == 0 && numberOfConstraints == 0
    {
      this.scanner := scanner;
      this.listener := listener;
      numberOfVariables := 0;
      numberOfConstraints := 0;
    }

    /** `st` describes the parser: its cursor is the scanner's, its header
        the parser's fields, its count the local variable of `parse`, and its
        events those the listener received. */
    ghost predicate Tracks(st: OpbTrace, constraintsRead: int)
      reads this, scanner, listener
    {
      && st.at == scanner.At()
      && st.header == Header(numberOfVariables, numberOfConstraints)
      && st.constraintsRead == constraintsRead
      && st.sent == listener.received
    }

    /** `parse`: the listener receives the events `ParseOpbEvents`
        describes, the outcome is the same, and on success the header fields
        hold the header read. */
    method Parse() returns (outcome: Outcome)
      modifies this, scanner, listener
      ensures var r := ParseOpbEvents(scanner.input, listener.respond, old(scanner.At()),
                                      Header(old(numberOfVariables), old(numberOfConstraints)), old(listener.received));
              && outcome == r.outcome
              && listener.received == r.state.sent
              && (outcome.Pass? ==> Header(numberOfVariables, numberOfConstraints) == r.state.header)
    {
      outcome := listener.Notify(StartParse);
      if outcome.Raise? {
        return;
      }
      ghost var st := OpbTrace(scanner.At(), Header(numberOfVariables, numberOfConstraints), 0, listener.received);
      ghost var header := HeaderLine(scanner.input, listener.respond, st);
      outcome := ReadMetaData(st);
      if outcome.Raise? {
        return;
      }
      outcome := Rest(header.state);
    }

    /** `readMetaData`: the `metaData` event is sent once the line is
        skipped. */
    method ReadMetaData(ghost st: OpbTrace) returns (outcome: Outcome)
      requires Tracks(st, 0)
      modifies this, scanner, listener
      ensures var r := HeaderLine(scanner.input, listener.respond, st);
              && outcome == r.outcome
              && listener.received == r.state.sent
              && (outcome.Pass? ==> Tracks(r.state, 0))
    {
      var c := scanner.Read();
      if c != '*' {
        return Raise(ParseException(MetadataExpected));
      }
      var variables := scanner.ReadNumber();
      if variables.Fail? {
        return Raise(variables.error);
      }
      numberOfVariables := variables.value;
      var constraints := scanner.ReadNumber();
      if constraints.Fail? {
        return Raise(constraints.error);
      }
      numberOfConstraints := constraints.value;
      scanner.SkipLine();
      assert ScanMetaData(scanner.input, st.at) == Ok(Scanned(Header(numberOfVariables, numberOfConstraints), scanner.At()));
      outcome := listener.Notify(MetaData(numberOfVariables, numberOfConstraints));
    }

    /** What follows the header line in `parse`. */
    method Rest(ghost st: OpbTrace) returns (outcome: Outcome)
      requires Tracks(st, 0)
      modifies scanner, listener
      ensures var r := AfterHeader(scanner.input, listener.respond, st);
              && outcome == r.outcome
              && listener.received == r.state.sent
    {
      ghost var s := scanner.input;
      SkipComments(scanner);
      ghost var objective := Objective(s, listener.respond, st.(at := scanner.At()));
      outcome := ReadObjective(st.(at := scanner.At()));
      if outcome.Raise? {
        return;
      }
      var nbConstraintsRead;
      ghost var loop;
      outcome, nbConstraintsRead, loop := Loop(objective.state);
      if outcome.Raise? {
        return;
      }
      if nbConstraintsRead != numberOfConstraints {
        return Raise(ParseException(UnexpectedConstraintCount));
      }
      outcome := listener.Notify(EndParse);
    }

    /** `readObjective`. */
    method ReadObjective(ghost st: OpbTrace) returns (outcome: Outcome)
      requires Tracks(st, 0)
      modifies scanner, listener
      ensures var r := Objective(scanner.input, listener.respond, st);
              && outcome == r.outcome
              && listener.received == r.state.sent
              && (outcome.Pass? ==> Tracks(r.state, 0))
    {
      var found, c := scanner.Look();
      if !found || c != 'm' {
        return Pass;
      }
      ghost var keyword := ReadsMin(scanner.input, scanner.At());
      var m := scanner.Read();
      var min := false;
      if m == 'm' {
        var i := scanner.Read();
        if i == 'i' {
          var n := scanner.Read();
          if n == 'n' {
            var colon := scanner.Read();
            min := colon == ':';
          }
        }
      }
      if !min {
        return Raise(ParseException(KeywordMinExpected));
      }
      outcome := listener.Notify(BeginObjective);
      if outcome.Raise? {
        return;
      }
      outcome := ObjectiveTerms(st.(at := keyword.after, sent := st.sent + [BeginObjective]));
      if outcome.Raise? {
        return;
      }
      outcome := listener.Notify(EndObjective);
    }

    /** The term loop of `readObjective`. */
    method ObjectiveTerms(ghost st: OpbTrace) returns (outcome: Outcome)
      requires Tracks(st, 0)
      modifies scanner, listener
      ensures var r := ObjectiveLoop(scanner.input, listener.respond, st);
              && outcome == r.outcome
              && listener.received == r.state.sent
              && (outcome.Pass? ==> Tracks(r.state, 0))
    {
      ghost var s := scanner.input;
      ghost var cur := st;
      ghost var final := ObjectiveLoop(s, listener.respond, st);
      while true
        invariant Tracks(cur, 0) && cur.header == st.header
        invariant ObjectiveLoop(s, listener.respond, cur) == final
        decreases Rank(s, cur.at)
      {
        var found, c := scanner.Look();
        cur := cur.(at := scanner.At());
        if !found {
          return Pass;
        }
        if c == ';' {
          var _ := scanner.Read();
          return Pass;
        }
        if !IsNumberStart(c) {
          return Raise(ParseException(NumberExpected));
        }
        var term := ReadTerm(scanner, numberOfVariables);
        if term.Fail? {
          return Raise(term.error);
        }
        outcome := listener.Notify(ObjectiveTermEvent(term.value));
        if outcome.Raise? {
          return;
        }
        cur := cur.(at := scanner.At(), sent := listener.received);
      }
    }

    /** The constraint loop of `parse`. */
    method Loop(ghost start: OpbTrace) returns (outcome: Outcome, constraintsRead: int, ghost st: OpbTrace)
      requires Tracks(start, 0)
      modifies scanner, listener
      ensures var r := ConstraintLoop(scanner.input, listener.respond, start);
              && st == r.state && outcome == r.outcome
              && listener.received == st.sent
              && (outcome.Pass? ==> Tracks(st, constraintsRead))
    {
      constraintsRead := 0;
      ghost var s := scanner.input;
      st := start;
      ghost var final := ConstraintLoop(s, listener.respond, st);
      while true
        invariant Tracks(st, constraintsRead)
        invariant ConstraintLoop(s, listener.respond, st) == final
        decreases Rank(s, st.at)
      {
        var found, next := scanner.Look();
        st := st.(at := scanner.At());
        if !found {
          PeekAtEndFails(s, st.at);
          return Pass, constraintsRead, st;
        }
        ghost var step := ConstraintStep(s, listener.respond, st, next);
        assert final == if step.outcome.Raise? then step else ConstraintLoop(s, listener.respond, step.state);
        if next == '*' {
          SkipComments(scanner);
        }
        outcome := ReadConstraint(st.(at := scanner.At()));
        st := step.state;
        if outcome.Raise? {
          return;
        }
        constraintsRead := constraintsRead + 1;
      }
    }

    /** `readConstraint`. */
    method ReadConstraint(ghost st: OpbTrace) returns (outcome: Outcome)
      requires Tracks(st, st.constraintsRead)
      modifies scanner, listener
      ensures var r := Constraint(scanner.input, listener.respond, st);
              && outcome == r.outcome
              && listener.received == r.state.sent
              && (outcome.Pass? ==> Tracks(r.state, st.constraintsRead))
    {
      outcome := listener.Notify(BeginConstraint);
      if outcome.Raise? {
        return;
      }
      ghost var begun := st.(sent := st.sent + [BeginConstraint]);
      ghost var terms := TermLoop(scanner.input, listener.respond, begun);
      outcome := ReadTerms(begun);
      if outcome.Raise? {
        return;
      }
      outcome := ReadClosing(terms.state);
    }

    /** The term loop of `readConstraint`. */
    method ReadTerms(ghost st: OpbTrace) returns (outcome: Outcome)
      requires Tracks(st, st.constraintsRead)
      modifies scanner, listener
      ensures var r := TermLoop(scanner.input, listener.respond, st);
              && outcome == r.outcome
              && listener.received == r.state.sent
              && (outcome.Pass? ==> Tracks(r.state, st.constraintsRead))
    {
      ghost var s := scanner.input;
      ghost var cur := st;
      ghost var final := TermLoop(s, listener.respond, st);
      while true
        invariant Tracks(cur, st.constraintsRead) && cur.header == st.header && cur.constraintsRead == st.constraintsRead
        invariant TermLoop(s, listener.respond, cur) == final
        decreases Rank(s, cur.at)
      {
        var found, c := scanner.Look();
        cur := cur.(at := scanner.At());
        if !found || EndsTerms(c) {
          return Pass;
        }
        if !IsNumberStart(c) {
          return Raise(ParseException(NumberExpected));
        }
        var term := ReadTerm(scanner, numberOfVariables);
        if term.Fail? {
          return Raise(term.error);
        }
        outcome := listener.Notify(ConstraintTermEvent(term.value));
        if outcome.Raise? {
          return;
        }
        cur := cur.(at := scanner.At(), sent := listener.received);
      }
    }

    /** The operator, the degree and the `;` of `readConstraint`. */
    method ReadClosing(ghost st: OpbTrace) returns (outcome: Outcome)
      requires Tracks(st, st.constraintsRead)
      modifies scanner, listener
      ensures var r := Closing(scanner.input, listener.respond, st);
              && outcome == r.outcome
              && listener.received == r.state.sent
              && (outcome.Pass? ==> Tracks(r.state, st.constraintsRead))
    {
      var op := ReadRelationalOperator(scanner);
      if op.Fail? {
        return Raise(op.error);
      }
      outcome := listener.Notify(ConstraintRelationalOperator(op.value));
      if outcome.Raise? {
        return;
      }
      var degree := scanner.ReadNumber();
      if degree.Fail? {
        return Raise(degree.error);
      }
      outcome := listener.Notify(ConstraintDegree(degree.value));
      if outcome.Raise? {
        return;
      }
      outcome := ReadSemicolon(scanner);
      if outcome.Raise? {
        return;
      }
      outcome := listener.Notify(EndConstraint);
    }
  }
}

=== FILE: outcomes.dfy ===
/** The exceptions raised by the front end, and the two shapes in which an
    operation reports them: a value or an error, or just success or an error. */
module Outcomes {

  /** The three exception classes the parsers throw, each with its message. */
  datatype Error =
    | ParseException(message: string)
    | UnsupportedOperation(message: string)
    | IllegalArgument(message: string)

  /** The result of an operation that computes a value or throws. */
  datatype Result<+T> = Ok(value: T) | Fail(error: Error)

  /** The result of an operation that returns nothing or throws. */
  datatype Outcome = Pass | Raise(error: Error)

  datatype Option<+T> = None | Some(value: T)

  /** Where an operation over some state stopped, and whether it threw: on a
      throw, `state` is the state at the point of the throw. */
  datatype Run<+S> = Run(state: S, outcome: Outcome)

  function Abs(x: int): nat {
    if x < 0 then -x else x
  }
}

=== FILE: parse_listener.dfy ===
/** The events a parser sends to its listener, and what a listener does with
    them by default. A listener is seen through the events it received, in
    order, and its answer to each: it returns normally, or throws, in which
    case the parser stops and the exception propagates. */
module ParseEvents {
  import opened Outcomes

  /** The problem writers a dispatcher can hand to the listener. */
  datatype Writer = DimacsProblemWriter | OpbProblemWriter

  /** One listener call, with its arguments. */
  datatype Event =
    | StartParse
    | MetaData(numberOfVariables: int, numberOfConstraints: int)
    | BeginObjective
    | ObjectiveTerm(coefficient: int, literal: int)
    | ObjectiveProduct(coefficient: int, literals: seq<int>)
    | EndObjective
    | BeginConstraint
    | ConstraintTerm(coefficient: int, literal: int)
    | ConstraintProduct(coefficient: int, literals: seq<int>)
    | ConstraintRelationalOperator(relationalOperator: string)
    | ConstraintDegree(degree: int)
    | EndConstraint
    | EndParse
    | SetWriter(writer: Writer)

  const OptimizationNotSupported := "Optimization problems are not supported"
  const NonLinearNotSupported := "Non-linear constraints are not supported"

  /** The listener methods that have a default body; the others (`metaData`,
      `beginConstraint`, `constraintTerm`, `constraintRelationalOperator`,
      `constraintDegree`, `endConstraint`) must be given one by every listener. */
  predicate HasDefault(e: Event) {
    !(e.MetaData? || e.BeginConstraint? || e.ConstraintTerm? || e.ConstraintRelationalOperator?
      || e.ConstraintDegree? || e.EndConstraint?)
  }

  /** The default bodies: the start, the end and the writer are accepted and
      ignored, anything about an objective function is rejected as
      optimization, and products of literals are rejected as non-linear. The
      answer depends on the event alone: a default body keeps no state. */
  function DefaultResponse(e: Event): (o: Outcome)
    requires HasDefault(e)
    ensures o.Pass? <==> e.StartParse? || e.EndParse? || e.SetWriter?
    ensures o.Raise? ==> o.error.UnsupportedOperation?
    ensures o == Raise(UnsupportedOperation(NonLinearNotSupported)) <==> e.ObjectiveProduct? || e.ConstraintProduct?
    ensures o == Raise(UnsupportedOperation(OptimizationNotSupported)) <==> e.BeginObjective? || e.ObjectiveTerm? || e.EndObjective?
  {
    match e
    case BeginObjective => Raise(UnsupportedOperation(OptimizationNotSupported))
    case ObjectiveTerm(_, _) => Raise(UnsupportedOperation(OptimizationNotSupported))
    case EndObjective => Raise(UnsupportedOperation(OptimizationNotSupported))
    case ObjectiveProduct(_, _) => Raise(UnsupportedOperation(NonLinearNotSupported))
    case ConstraintProduct(_, _) => Raise(UnsupportedOperation(NonLinearNotSupported))
    case _ => Pass
  }

  /** Send the events `es`, in order, after the events `sent`: each is
      received, and the first one the listener rejects ends the sending. */
  function Emit(respond: Event -> Outcome, sent: seq<Event>, es: seq<Event>): (r: Run<seq<Event>>)
    ensures sent <= r.state && |r.state| <= |sent| + |es|
    ensures r.state == sent + es[..|r.state| - |sent|]
    ensures r.outcome.Pass? <==> forall i :: 0 <= i < |es| ==> respond(es[i]).Pass?
    ensures r.outcome.Pass? ==> r.state == sent + es
    ensures r.outcome.Raise? ==> |sent| < |r.state| && r.outcome == respond(r.state[|r.state| - 1])
    decreases |es|
  {
    if es == [] then
      Run(sent, Pass)
    else if respond(es[0]).Raise? then
      assert es[..1] == [es[0]];
      Run(sent + [es[0]], respond(es[0]))
    else
      var r := Emit(respond, sent + [es[0]], es[1..]);
      assert es[..|r.state| - |sent|] == [es[0]] + es[1..][..|r.state| - |sent| - 1];
      r
  }

  /** Sending one event. */
  lemma EmitOne(respond: Event -> Outcome, sent: seq<Event>, e: Event)
    ensures Emit(respond, sent, [e]) == Run(sent + [e], respond(e))
  {
    assert [e][1..] == [];
  }

  /** A listener, seen through the events it received and its answer to each. */
  class Listener {
    const respond: Event -> Outcome
    var received: seq<Event>

    constructor (respond: Event -> Outcome)
      ensures this.respond == respond && received == []
    {
      this.respond := respond;
      received := [];
    }

    /** One listener call. */
    method Notify(e: Event) returns (outcome: Outcome)
      modifies this
      ensures received == old(received) + [e] && outcome == respond(e)
    {
      received := received + [e];
      outcome := respond(e);
    }

    /** Listener calls in sequence, up to the first that throws. */
    method NotifyAll(es: seq<Event>) returns (outcome: Outcome)
      modifies this
      ensures Run(received, outcome) == Emit(respond, old(received), es)
    {
      var i := 0;
      outcome := Pass;
      while i < |es|
        invariant 0 <= i <= |es|
        invariant Emit(respond, old(received), es) == Emit(respond, received, es[i..])
        invariant received == old(received) + es[..i]
        invariant outcome == Pass
      {
        assert es[i..][1..] == es[i + 1..];
        outcome := Notify(es[i]);
        if outcome.Raise? {
          return;
        }
        i := i + 1;
      }
    }
  }
}

=== FILE: problem_builder.dfy ===
/** The listener that builds a problem from the events of a parser: it
    buffers the terms, operator and degree of the constraint being read, and
    when the constraint ends classifies it as a clause, a cardinality
    constraint or a general pseudo-Boolean constraint. */
module ProblemBuilding {
  import opened Outcomes
  import opened ParseEvents

  /** The three kinds of constraint a problem holds. */
  datatype Constraint =
    | Clause(literals: seq<int>)
    | CardinalityConstraint(literals: seq<int>, relationalOperator: string, degree: int)
    | PseudoBooleanConstraint(literals: seq<int>, coefficients: seq<int>, relationalOperator: string, degree: int)

  /** A problem: its variable count, its constraints in arrival order, and
      the writer it was given, if any. */
  datatype Problem = Problem(numberOfVariables: int, constraints: seq<Constraint>, writer: Option<Writer>)

  /** The fields of the builder. */
  datatype Builder = Builder(
    numberOfVariables: int,
    constraints: seq<Constraint>,
    literals: seq<int>,
    coefficients: seq<int>,
    relationalOperator: string,
    degree: int,
    allCoefficientsAre1: bool,
    writer: Option<Writer>)

  /** The builder as its constructor leaves it. */
  const Fresh := Builder(0, [], [], [], "", 0, true, None)

  /** The constraint `endConstraint` makes of the buffered one: all
      coefficients 1 with `>=` and degree 1 is a clause, other constraints
      whose coefficients are all 1 are cardinality constraints, and the rest
      keep their coefficients. */
  function Finished(b: Builder): Constraint {
    if b.allCoefficientsAre1 && b.relationalOperator == ">=" && b.degree == 1 then Clause(b.literals)
    else if b.allCoefficientsAre1 then CardinalityConstraint(b.literals, b.relationalOperator, b.degree)
    else PseudoBooleanConstraint(b.literals, b.coefficients, b.relationalOperator, b.degree)
  }

  /** What one event does to the builder. The events the builder leaves to
      the default bodies change nothing. */
  function Receive(b: Builder, e: Event): Builder {
    match e
    case MetaData(variables, _) => b.(numberOfVariables := variables)
    case BeginConstraint =>
      b.(literals := [], coefficients := [], relationalOperator := "", degree := 0, allCoefficientsAre1 := true)
    case ConstraintTerm(coefficient, literal) =>
      b.(coefficients := b.coefficients + [coefficient], literals := b.literals + [literal],
         allCoefficientsAre1 := b.allCoefficientsAre1 && coefficient == 1)
    case ConstraintRelationalOperator(relationalOperator) => b.(relationalOperator := relationalOperator)
    case ConstraintDegree(degree) => b.(degree := degree)
    case EndConstraint => b.(constraints := b.constraints + [Finished(b)])
    case SetWriter(writer) => b.(writer := Some(writer))
    case _ => b
  }

  /** The builder's answer to an event: its own methods return normally, the
      others are the default bodies. */
  function BuilderResponse(e: Event): (o: Outcome)
    ensures o.Raise? <==> e.BeginObjective? || e.ObjectiveTerm? || e.ObjectiveProduct? || e.EndObjective? || e.ConstraintProduct?
  {
    if HasDefault(e) then DefaultResponse(e) else Pass
  }

  /** The builder after the events `es`, in order. */
  function Replay(b: Builder, es: seq<Event>): Builder
    decreases |es|
  {
    if es == [] then b else Receive(Replay(b, es[..|es| - 1]), es[|es| - 1])
  }

  /** The fields describe a well-formed buffer: the literal and coefficient
      lists are parallel, and the flag says whether every coefficient is 1. */
  ghost predicate Coherent(b: Builder) {
    && |b.literals| == |b.coefficients|
    && (b.allCoefficientsAre1 <==> forall i :: 0 <= i < |b.coefficients| ==> b.coefficients[i] == 1)
  }

  /** The classification of a constraint, stated on its coefficients. */
  function Classify(literals: seq<int>, coefficients: seq<int>, relationalOperator: string, degree: int): (c: Constraint)
    ensures c.Clause? <==> (forall i :: 0 <= i < |coefficients| ==> coefficients[i] == 1) && relationalOperator == ">=" && degree == 1
    ensures c.PseudoBooleanConstraint? <==> exists i :: 0 <= i < |coefficients| && coefficients[i] != 1
    ensures c.literals == literals
  {
    if forall i :: 0 <= i < |coefficients| ==> coefficients[i] == 1 then
      if relationalOperator == ">=" && degree == 1 then Clause(literals)
      else CardinalityConstraint(literals, relationalOperator, degree)
    else
      PseudoBooleanConstraint(literals, coefficients, relationalOperator, degree)
  }

  // ---------------------------------------------------------------------

  lemma ReceiveKeepsCoherent(b: Builder, e: Event)
    requires Coherent(b)
    ensures Coherent(Receive(b, e))
  {
    if e.ConstraintTerm? {
      var r := Receive(b, e);
      assert forall i :: 0 <= i < |b.coefficients| ==> r.coefficients[i] == b.coefficients[i];
      assert r.coefficients[|b.coefficients|] == e.coefficient;
    }
  }

  /** Whatever the events, the flag keeps saying whether all coefficients
      of the buffered constraint are 1, and the two lists stay parallel. */
  lemma {:induction false} ReplayKeepsCoherent(b: Builder, es: seq<Event>)
    requires Coherent(b)
    ensures Coherent(Replay(b, es))
    decreases |es|
  {
    if es != [] {
      ReplayKeepsCoherent(b, es[..|es| - 1]);
      ReceiveKeepsCoherent(Replay(b, es[..|es| - 1]), es[|es| - 1]);
    }
  }

  /** `endConstraint` appends exactly one constraint, classified by its
      coefficients, operator and degree, and keeps the earlier ones. */
  lemma EndConstraintClassifies(b: Builder)
    requires Coherent(b)
    ensures Receive(b, EndConstraint).constraints
            == b.constraints + [Classify(b.literals, b.coefficients, b.relationalOperator, b.degree)]
  {
  }

  lemma {:induction false} ReplayAppend(b: Builder, es: seq<Event>, more: seq<Event>)
    ensures Replay(b, es + more) == Replay(Replay(b, es), more)
    decreases |more|
  {
    if more == [] {
      assert es + more == es;
    } else {
      assert (es + more)[..|es + more| - 1] == es + more[..|more| - 1];
      ReplayAppend(b, es, more[..|more| - 1]);
    }
  }

  /** The events of a constraint's terms, in order. */
  function TermEvents(coefficients: seq<int>, literals: seq<int>): (es: seq<Event>)
    requires |coefficients| == |literals|
    ensures |es| == |literals|
    ensures forall i :: 0 <= i < |es| ==> es[i] == ConstraintTerm(coefficients[i], literals[i])
  {
    if literals == [] then []
    else TermEvents(coefficients[..|literals| - 1], literals[..|literals| - 1])
         + [ConstraintTerm(coefficients[|literals| - 1], literals[|literals| - 1])]
  }

  /** The term events append their coefficients and literals to the buffer,
      clear the flag exactly when one coefficient differs from 1, and change
      nothing else. */
  lemma {:induction false} TermsAreBuffered(b: Builder, coefficients: seq<int>, literals: seq<int>)
    requires |coefficients| == |literals|
    ensures var r := Replay(b, TermEvents(coefficients, literals));
            && r.literals == b.literals + literals && r.coefficients == b.coefficients + coefficients
            && (r.allCoefficientsAre1 <==> b.allCoefficientsAre1 && forall i :: 0 <= i < |coefficients| ==> coefficients[i] == 1)
            && r == b.(literals := r.literals, coefficients := r.coefficients, allCoefficientsAre1 := r.allCoefficientsAre1)
    decreases |literals|
  {
    if literals != [] {
      var n := |literals| - 1;
      var es := TermEvents(coefficients, literals);
      var shorter := TermEvents(coefficients[..n], literals[..n]);
      assert es[..|es| - 1] == shorter;
      TermsAreBuffered(b, coefficients[..n], literals[..n]);
      var before := Replay(b, shorter);
      assert Replay(b, es) == Receive(before, ConstraintTerm(coefficients[n], literals[n]));
      assert literals == literals[..n] + [literals[n]];
      assert coefficients == coefficients[..n] + [coefficients[n]];
      assert b.literals + literals == (b.literals + literals[..n]) + [literals[n]];
      assert b.coefficients + coefficients == (b.coefficients + coefficients[..n]) + [coefficients[n]];
    }
  }

  /** The events of one whole constraint, as a parser sends them. */
  function ConstraintEvents(coefficients: seq<int>, literals: seq<int>, relationalOperator: string, degree: int): seq<Event>
    requires |coefficients| == |literals|
  {
    [BeginConstraint] + TermEvents(coefficients, literals)
      + [ConstraintRelationalOperator(relationalOperator), ConstraintDegree(degree), EndConstraint]
  }

  lemma ReplayOne(b: Builder, e: Event)
    ensures Replay(b, [e]) == Receive(b, e)
  {
    assert [e][..0] == [];
  }

  lemma ReplayClosing(b: Builder, relationalOperator: string, degree: int)
    ensures Replay(b, [ConstraintRelationalOperator(relationalOperator), ConstraintDegree(degree), EndConstraint])
            == Receive(Receive(Receive(b, ConstraintRelationalOperator(relationalOperator)), ConstraintDegree(degree)), EndConstraint)
  {
    var one := [ConstraintRelationalOperator(relationalOperator)];
    var two := one + [ConstraintDegree(degree)];
    var three := two + [EndConstraint];
    assert two[..1] == one && three[..2] == two;
    ReplayOne(b, one[0]);
    assert Replay(b, two) == Receive(Replay(b, one), ConstraintDegree(degree));
    assert Replay(b, three) == Receive(Replay(b, two), EndConstraint);
    assert three == [ConstraintRelationalOperator(relationalOperator), ConstraintDegree(degree), EndConstraint];
  }

  /** The events of one constraint add exactly that constraint, classified,
      after the constraints already built; the buffer is left coherent. */
  lemma ConstraintIsBuilt(b: Builder, coefficients: seq<int>, literals: seq<int>, relationalOperator: string, degree: int)
    requires |coefficients| == |literals|
    ensures var r := Replay(b, ConstraintEvents(coefficients, literals, relationalOperator, degree));
            && r.constraints == b.constraints + [Classify(literals, coefficients, relationalOperator, degree)]
            && r.numberOfVariables == b.numberOfVariables && r.writer == b.writer
            && Coherent(r)
  {
    var closed := Closing(b, coefficients, literals, relationalOperator, degree);
    EndConstraintClassifies(closed);
  }

  /** The buffer just before `endConstraint`: the terms, operator and degree
      of the constraint, the rest of the builder unchanged. */
  lemma Closing(b: Builder, coefficients: seq<int>, literals: seq<int>, relationalOperator: string, degree: int)
      returns (closed: Builder)
    requires |coefficients| == |literals|
    ensures Replay(b, ConstraintEvents(coefficients, literals, relationalOperator, degree)) == Receive(closed, EndConstraint)
    ensures Coherent(closed)
    ensures closed.literals == literals && closed.coefficients == coefficients
    ensures closed.relationalOperator == relationalOperator && closed.degree == degree
    ensures closed.constraints == b.constraints && closed.numberOfVariables == b.numberOfVariables && closed.writer == b.writer
  {
    var begun := Receive(b, BeginConstraint);
    var terms := TermEvents(coefficients, literals);
    var buffered := Buffered(b, coefficients, literals);
    var tail := [ConstraintRelationalOperator(relationalOperator), ConstraintDegree(degree), EndConstraint];
    closed := Receive(Receive(buffered, ConstraintRelationalOperator(relationalOperator)), ConstraintDegree(degree));
    assert ConstraintEvents(coefficients, literals, relationalOperator, degree) == [BeginConstraint] + terms + tail;
    ReplayAppend(b, [BeginConstraint] + terms, tail);
    ReplayClosing(buffered, relationalOperator, degree);
  }

  /** The buffer after `beginConstraint` and the terms. */
  lemma Buffered(b: Builder, coefficients: seq<int>, literals: seq<int>) returns (buffered: Builder)
    requires |coefficients| == |literals|
    ensures buffered == Replay(b, [BeginConstraint] + TermEvents(coefficients, literals))
    ensures Coherent(buffered)
    ensures buffered.literals == literals && buffered.coefficients == coefficients
    ensures buffered.constraints == b.constraints && buffered.numberOfVariables == b.numberOfVariables
    ensures buffered.writer == b.writer
  {
    var begun := Receive(b, BeginConstraint);
    ReplayOne(b, BeginConstraint);
    var terms := TermEvents(coefficients, literals);
    ReplayAppend(b, [BeginConstraint], terms);
    TermsAreBuffered(begun, coefficients, literals);
    buffered := Replay(begun, terms);
    assert [] + coefficients == coefficients && [] + literals == literals;
  }

  /** The builder as a listener object. */
  class ProblemBuilderParseListener {
    var numberOfVariables: int
    var constraints: seq<Constraint>
    var literals: seq<int>
    var coefficients: seq<int>
    var relationalOperator: string
    var degree: int
    var allCoefficientsAre1: bool
    var writer: Option<Writer>

    function Fields(): Builder
      reads this
    {
      Builder(numberOfVariables, constraints, literals, coefficients, relationalOperator, degree, allCoefficientsAre1, writer)
    }

    constructor ()
      ensures Fields() == Fresh
    {
      numberOfVariables := 0;
      constraints := [];
      literals := [];
      coefficients := [];
      relationalOperator := "";
      degree := 0;
      allCoefficientsAre1 := true;
      writer := None;
    }

    /** `metaData`: records the variable count. Reserving room for the
        constraints is not observable. */
    method MetaData(variables: int, declaredConstraints: int)
      modifies this
      ensures Fields() == Receive(old(Fields()), Event.MetaData(variables, declaredConstraints))
    {
      numberOfVariables := variables;
    }

    method BeginConstraint()
      modifies this
      ensures Fields() == Receive(old(Fields()), Event.BeginConstraint)
    {
      literals := [];
      coefficients := [];
      relationalOperator := "";
      degree := 0;
      allCoefficientsAre1 := true;
    }

    method ConstraintTerm(coefficient: int, literal: int)
      modifies this
      ensures Fields() == Receive(old(Fields()), Event.ConstraintTerm(coefficient, literal))
    {
      coefficients := coefficients + [coefficient];
      literals := literals + [literal];
      if coefficient != 1 {
        allCoefficientsAre1 := false;
      }
    }

    method ConstraintRelationalOperator(relOp: string)
      modifies this
      ensures Fields() == Receive(old(Fields()), Event.ConstraintRelationalOperator(relOp))
    {
      relationalOperator := relOp;
    }

    method ConstraintDegree(deg: int)
      modifies this
      ensures Fields() == Receive(old(Fields()), Event.ConstraintDegree(deg))
    {
      degree := deg;
    }

    method EndConstraint()
      modifies this
      ensures Fields() == Receive(old(Fields()), Event.EndConstraint)
    {
      if allCoefficientsAre1 && relationalOperator == ">=" && degree == 1 {
        constraints := constraints + [Clause(literals)];
        return;
      }
      if allCoefficientsAre1 {
        constraints := constraints + [CardinalityConstraint(literals, relationalOperator, degree)];
        return;
      }
      constraints := constraints + [PseudoBooleanConstraint(literals, coefficients, relationalOperator, degree)];
    }

    method SetWriter(w: Writer)
      modifies this
      ensures Fields() == Receive(old(Fields()), Event.SetWriter(w))
    {
      writer := Some(w);
    }

    /** `buildProblem`: the variable count recorded, the constraints in
        arrival order, and the writer. */
    method BuildProblem() returns (problem: Problem)
      ensures problem == Problem(Fields().numberOfVariables, Fields().constraints, Fields().writer)
    {
      problem := Problem(numberOfVariables, constraints, writer);
    }

    /** A call on the builder through the listener interface. */
    method Notify(e: Event) returns (outcome: Outcome)
      modifies this
      ensures Fields() == Receive(old(Fields()), e) && outcome == BuilderResponse(e)
    {
      outcome := BuilderResponse(e);
      match e
      case MetaData(variables, declared) => MetaData(variables, declared);
      case BeginConstraint => BeginConstraint();
      case ConstraintTerm(coefficient, literal) => ConstraintTerm(coefficient, literal);
      case ConstraintRelationalOperator(relOp) => ConstraintRelationalOperator(relOp);
      case ConstraintDegree(deg) => ConstraintDegree(deg);
      case EndConstraint => EndConstraint();
      case SetWriter(w) => SetWriter(w);
      case _ =>
    }
  }
}

=== FILE: scanner.dfy ===
/** The character scanner: a cursor over an input stream with one character of
    lookahead, a signed decimal number reader and a line skipper.

    The stream is the text `s` and a `Cursor`: how many characters have been
    taken, and whether the end-of-file flag is raised. As with an istream, the
    flag is raised by a read that finds no character left, not by taking the
    last one, and once raised it stays raised. The functions below say what
    each scanner operation does to a cursor; class `Scanner` performs the same
    operations in place and is proved to agree with them. */
module Scanning {
  import opened Outcomes

  /** `isspace` in the C locale. */
  predicate IsSpace(c: char) {
    c == ' ' || c == '\t' || c == '\n' || c == '\r' || c == 11 as char || c == 12 as char
  }

  /** `isdigit`. */
  predicate IsDigit(c: char) {
    '0' <= c <= '9'
  }

  function DigitValue(c: char): nat
    requires IsDigit(c)
  {
    c as int - '0' as int
  }

  /** What `(char) input.get()` yields once the stream is exhausted: `(char) EOF`. */
  const EndOfStream: char := 0xFF as char

  datatype Cursor = Cursor(pos: nat, eof: bool)

  /** A cursor lies within the text, and the end-of-file flag is raised only
      once every character has been taken. */
  predicate Consistent(s: seq<char>, c: Cursor) {
    c.pos <= |s| && (c.eof ==> c.pos == |s|)
  }

  /** The number of reads that can still change the cursor: one per character
      left, plus the read that raises the end-of-file flag. */
  function Rank(s: seq<char>, c: Cursor): nat {
    if c.eof then 0 else if c.pos < |s| then |s| - c.pos + 1 else 1
  }

  /** A value read from the stream and the cursor after reading it. */
  datatype Scanned<+T> = Scanned(value: T, after: Cursor)

  /** `read()`, that is `input.get()`: the next character, or `EndOfStream`
      with the end-of-file flag raised when none is left. */
  function Get(s: seq<char>, c: Cursor): (r: Scanned<char>)
    ensures Consistent(s, r.after)
    ensures Rank(s, r.after) <= Rank(s, c)
    ensures !c.eof ==> Rank(s, r.after) < Rank(s, c)
    ensures r.after.eof ==> r.value == EndOfStream && Rank(s, r.after) == 0
    ensures !r.after.eof ==> 0 < r.after.pos && r.value == s[r.after.pos - 1]
  {
    if !c.eof && c.pos < |s| then Scanned(s[c.pos], Cursor(c.pos + 1, false))
    else Scanned(EndOfStream, Cursor(|s|, true))
  }

  /** `input.putback(c)` of the character just read: the cursor steps back. */
  function Unget(c: Cursor): Cursor
    requires 0 < c.pos
  {
    Cursor(c.pos - 1, false)
  }

  /** The result of `look(c)`: whether a non-blank character was found, the
      last character read into `c`, and the cursor afterwards. */
  datatype Lookahead = Lookahead(found: bool, ch: char, after: Cursor)

  /** `look(c)`: read until a non-blank character or the end of the stream;
      a non-blank character is put back. */
  function Peek(s: seq<char>, c: Cursor): (r: Lookahead)
    ensures Consistent(s, r.after)
    ensures Rank(s, r.after) <= Rank(s, c)
    ensures r.found ==> !r.after.eof && r.after.pos < |s| && s[r.after.pos] == r.ch && !IsSpace(r.ch)
    ensures !r.found ==> r.after.eof && r.ch == EndOfStream
    decreases Rank(s, c)
  {
    var g := Get(s, c);
    if g.after.eof then Lookahead(false, g.value, g.after)
    else if IsSpace(g.value) then Peek(s, g.after)
    else Lookahead(true, g.value, Unget(g.after))
  }

  /** `skipLine()`, that is `input.ignore(max, '\n')`: discard characters up to
      and including the next newline, or up to the end of the stream. */
  function PastLine(s: seq<char>, c: Cursor): (r: Cursor)
    ensures Consistent(s, r)
    ensures Rank(s, r) <= Rank(s, c)
    ensures !c.eof ==> Rank(s, r) < Rank(s, c)
    decreases Rank(s, c)
  {
    var g := Get(s, c);
    if g.after.eof || g.value == '\n' then g.after else PastLine(s, g.after)
  }

  /** The first loop of the number reader: read until a digit, a sign or the
      end of the stream. */
  function SkipToNumber(s: seq<char>, c: Cursor): (r: Scanned<char>)
    ensures Consistent(s, r.after)
    ensures !c.eof ==> Rank(s, r.after) < Rank(s, c)
    ensures r.after.eof ==> r.value == EndOfStream
    ensures !r.after.eof ==> 0 < r.after.pos && (IsDigit(r.value) || r.value == '+' || r.value == '-')
    decreases Rank(s, c)
  {
    var g := Get(s, c);
    if !g.after.eof && !IsDigit(g.value) && g.value != '+' && g.value != '-' then SkipToNumber(s, g.after)
    else g
  }

  /** The accumulator loop of the number reader: while the last character read
      is a digit, fold it into `value` and read the next one. Returns the
      value and the character that stopped the loop. */
  function Accumulate(s: seq<char>, value: int, last: Scanned<char>): (r: (int, Scanned<char>))
    requires Consistent(s, last.after)
    requires !last.after.eof ==> 0 < last.after.pos
    ensures Consistent(s, r.1.after)
    ensures Rank(s, r.1.after) <= Rank(s, last.after)
    ensures !last.after.eof && IsDigit(last.value) ==> Rank(s, r.1.after) < Rank(s, last.after)
    ensures r.1.after.eof || !IsDigit(r.1.value)
    ensures !r.1.after.eof ==> 0 < r.1.after.pos
    decreases Rank(s, last.after)
  {
    if !last.after.eof && IsDigit(last.value) then
      Accumulate(s, 10 * value + DigitValue(last.value), Get(s, last.after))
    else
      (value, last)
  }

  const NonDigitMessage := "Non-digit character found while looking for a number"

  /** `read(BigInteger&)`: skip to a digit or sign, apply the sign, require a
      digit, accumulate the digits, and put back the character after them
      unless the end of the stream was hit. */
  function ScanNumber(s: seq<char>, c: Cursor): (r: Result<Scanned<int>>)
    ensures r.Ok? ==> Consistent(s, r.value.after) && Rank(s, r.value.after) < Rank(s, c)
    ensures r.Fail? ==> r.error == ParseException(NonDigitMessage)
  {
    var start := SkipToNumber(s, c);
    var sign := if start.value == '-' then -1 else 1;
    var first := if start.value == '-' || start.value == '+' then Get(s, start.after) else start;
    ScanDigits(s, sign, first)
  }

  /** The rest of the number reader, from the first character after the sign:
      require a digit, accumulate, apply the sign and put back the stopper. */
  function ScanDigits(s: seq<char>, sign: int, first: Scanned<char>): (r: Result<Scanned<int>>)
    requires Consistent(s, first.after)
    requires !first.after.eof ==> 0 < first.after.pos
    ensures r.Ok? ==> Consistent(s, r.value.after) && Rank(s, r.value.after) < Rank(s, first.after) + 1
    ensures r.Fail? ==> r.error == ParseException(NonDigitMessage)
  {
    if first.after.eof || !IsDigit(first.value) then
      Fail(ParseException(NonDigitMessage))
    else
      var (value, stop) := Accumulate(s, 0, first);
      Ok(Scanned(sign * value, if stop.after.eof then stop.after else Unget(stop.after)))
  }

  // ---------------------------------------------------------------------
  // Reference definitions: what the operations above compute, stated over
  // positions in the text.

  /** The index of the first non-blank character at or after `p`, or `|s|`. */
  function FirstNonBlank(s: seq<char>, p: nat): (k: nat)
    requires p <= |s|
    ensures p <= k <= |s|
    ensures forall i :: p <= i < k ==> IsSpace(s[i])
    ensures k < |s| ==> !IsSpace(s[k])
    decreases |s| - p
  {
    if p == |s| || !IsSpace(s[p]) then p else FirstNonBlank(s, p + 1)
  }

  /** The index of the first newline at or after `p`, or `|s|`. */
  function NextNewline(s: seq<char>, p: nat): (k: nat)
    requires p <= |s|
    ensures p <= k <= |s|
    ensures forall i :: p <= i < k ==> s[i] != '\n'
    ensures k < |s| ==> s[k] == '\n'
    decreases |s| - p
  {
    if p == |s| || s[p] == '\n' then p else NextNewline(s, p + 1)
  }

  predicate IsNumberStart(c: char) {
    IsDigit(c) || c == '+' || c == '-'
  }

  /** The index of the first digit or sign at or after `p`, or `|s|`. */
  function NumberStart(s: seq<char>, p: nat): (k: nat)
    requires p <= |s|
    ensures p <= k <= |s|
    ensures forall i :: p <= i < k ==> !IsNumberStart(s[i])
    ensures k < |s| ==> IsNumberStart(s[k])
    decreases |s| - p
  {
    if p == |s| || IsNumberStart(s[p]) then p else NumberStart(s, p + 1)
  }

  /** The end of the run of digits that starts at `p`. */
  function DigitRunEnd(s: seq<char>, p: nat): (e: nat)
    requires p <= |s|
    ensures p <= e <= |s|
    ensures forall i :: p <= i < e ==> IsDigit(s[i])
    ensures e < |s| ==> !IsDigit(s[e])
    decreases |s| - p
  {
    if p == |s| || !IsDigit(s[p]) then p else DigitRunEnd(s, p + 1)
  }

  predicate AllDigits(ds: seq<char>) {
    forall i :: 0 <= i < |ds| ==> IsDigit(ds[i])
  }

  /** The value of a string of decimal digits, most significant first. */
  function DecimalValue(ds: seq<char>): nat
    requires AllDigits(ds)
  {
    if ds == [] then 0 else 10 * DecimalValue(ds[..|ds| - 1]) + DigitValue(ds[|ds| - 1])
  }

  /** Where the reader stops after the digits ending at `e`: on the character
      at `e`, put back, or at the end of the stream with the flag raised. */
  function StopAt(s: seq<char>, e: nat): Cursor
    requires e <= |s|
  {
    if e < |s| then Cursor(e, false) else Cursor(|s|, true)
  }

  // ---------------------------------------------------------------------
  // The operations agree with the reference definitions.

  /** `look` consumes the blanks; it succeeds exactly when a non-blank
      character is left, returns that character and leaves the cursor on it,
      so that the next read returns it again. */
  lemma {:induction false} PeekFindsFirstNonBlank(s: seq<char>, p: nat)
    requires p <= |s|
    ensures var k := FirstNonBlank(s, p);
            var r := Peek(s, Cursor(p, false));
            && (r.found <==> k < |s|)
            && (r.found ==> r.ch == s[k] && r.after == Cursor(k, false))
            && (!r.found ==> r.after == Cursor(|s|, true))
    decreases |s| - p
  {
    if p < |s| && IsSpace(s[p]) {
      PeekFindsFirstNonBlank(s, p + 1);
    }
  }

  /** Once the end-of-file flag is raised, `look` keeps failing. */
  lemma PeekAtEndFails(s: seq<char>, c: Cursor)
    requires c.eof
    ensures Peek(s, c) == Lookahead(false, EndOfStream, Cursor(|s|, true))
  {
  }

  /** `look` only fails when nothing but blanks is left. */
  lemma {:induction false} PeekFailsOnlyOnBlanks(s: seq<char>, p: nat)
    requires p <= |s|
    ensures !Peek(s, Cursor(p, false)).found <==> forall i :: p <= i < |s| ==> IsSpace(s[i])
  {
    PeekFindsFirstNonBlank(s, p);
  }

  /** `skipLine` discards everything up to and including the next newline. */
  lemma {:induction false} PastLineSkipsToNewline(s: seq<char>, p: nat)
    requires p <= |s|
    ensures var k := NextNewline(s, p);
            PastLine(s, Cursor(p, false)) == if k < |s| then Cursor(k + 1, false) else Cursor(|s|, true)
    decreases |s| - p
  {
    if p < |s| && s[p] != '\n' {
      PastLineSkipsToNewline(s, p + 1);
    }
  }

  lemma {:induction false} SkipToNumberFindsStart(s: seq<char>, p: nat)
    requires p <= |s|
    ensures var k := NumberStart(s, p);
            var r := SkipToNumber(s, Cursor(p, false));
            if k < |s| then r == Scanned(s[k], Cursor(k + 1, false))
            else r == Scanned(EndOfStream, Cursor(|s|, true))
    decreases |s| - p
  {
    if p < |s| && !IsNumberStart(s[p]) {
      SkipToNumberFindsStart(s, p + 1);
    }
  }

  lemma DecimalValueAppend(ds: seq<char>, d: char)
    requires AllDigits(ds) && IsDigit(d)
    ensures AllDigits(ds + [d])
    ensures DecimalValue(ds + [d]) == 10 * DecimalValue(ds) + DigitValue(d)
  {
    assert (ds + [d])[..|ds|] == ds;
  }

  /** Started on the digit at `i` of a run `d..e` with `value` holding the
      digits before `i`, the accumulator loop ends with the whole run. */
  lemma {:induction false} AccumulateReadsRun(s: seq<char>, d: nat, i: nat, e: nat)
    requires d <= i < e <= |s|
    requires forall j :: d <= j < e ==> IsDigit(s[j])
    requires e < |s| ==> !IsDigit(s[e])
    ensures AllDigits(s[d..i]) && AllDigits(s[d..e])
    ensures var r := Accumulate(s, DecimalValue(s[d..i]), Scanned(s[i], Cursor(i + 1, false)));
            r.0 == DecimalValue(s[d..e]) && r.1 == Get(s, Cursor(e, false))
    decreases e - i
  {
    assert AllDigits(s[d..i]) && AllDigits(s[d..e]);
    assert s[d..i + 1] == s[d..i] + [s[i]];
    DecimalValueAppend(s[d..i], s[i]);
    if i + 1 < e {
      AccumulateReadsRun(s, d, i + 1, e);
    } else if e < |s| {
      assert Get(s, Cursor(i + 1, false)) == Scanned(s[e], Cursor(e + 1, false));
    }
  }

  /** The number reader, stated over the text: it skips every character that
      is neither a digit nor a sign, takes an optional sign, fails unless a
      digit follows, and otherwise yields the sign times the decimal value of
      the longest run of digits, stopping on the character after the run. */
  lemma ScanNumberMeaning(s: seq<char>, p: nat)
    requires p <= |s|
    ensures var k := NumberStart(s, p);
            var signed := k < |s| && (s[k] == '-' || s[k] == '+');
            var d := if signed then k + 1 else k;
            var sign := if k < |s| && s[k] == '-' then -1 else 1;
            var r := ScanNumber(s, Cursor(p, false));
            if d < |s| && IsDigit(s[d]) then
              var e := DigitRunEnd(s, d);
              AllDigits(s[d..e]) && r == Ok(Scanned(sign * DecimalValue(s[d..e]), StopAt(s, e)))
            else
              r == Fail(ParseException(NonDigitMessage))
  {
    var k := NumberStart(s, p);
    SkipToNumberFindsStart(s, p);
    var signed := k < |s| && (s[k] == '-' || s[k] == '+');
    var d := if signed then k + 1 else k;
    var sign := if k < |s| && s[k] == '-' then -1 else 1;
    ScanDigitsAt(s, sign, d);
    if k < |s| {
      // The character the skip loop stops on is read again by `Get` at `k`,
      // and a sign is followed by a read at `k + 1`.
      assert SkipToNumber(s, Cursor(p, false)) == Get(s, Cursor(k, false));
      assert ScanNumber(s, Cursor(p, false)) == ScanDigits(s, sign, Get(s, Cursor(d, false)));
    }
  }

  /** `ScanDigits` started on the character at `d`. */
  lemma ScanDigitsAt(s: seq<char>, sign: int, d: nat)
    requires d <= |s|
    ensures var first := Get(s, Cursor(d, false));
            var r := ScanDigits(s, sign, first);
            if d < |s| && IsDigit(s[d]) then
              var e := DigitRunEnd(s, d);
              AllDigits(s[d..e]) && r == Ok(Scanned(sign * DecimalValue(s[d..e]), StopAt(s, e)))
            else
              r == Fail(ParseException(NonDigitMessage))
  {
    if d < |s| && IsDigit(s[d]) {
      var e := DigitRunEnd(s, d);
      var first := Get(s, Cursor(d, false));
      var (value, stop) := Accumulate(s, 0, first);
      assert value == DecimalValue(s[d..e]) && stop == Get(s, Cursor(e, false)) by {
        assert s[d..d] == [];
        AccumulateReadsRun(s, d, d, e);
      }
      var after := if stop.after.eof then stop.after else Unget(stop.after);
      assert after == StopAt(s, e);
      assert ScanDigits(s, sign, first) == Ok(Scanned(sign * value, after));
    }
  }

  /** On "  -007abc" the reader yields -7 and leaves 'a' as the next
      character. */
  lemma ScanNumberExample()
    ensures var s := "  -007abc";
            ScanNumber(s, Cursor(0, false)) == Ok(Scanned(-7, Cursor(6, false))) && s[6] == 'a'
  {
    var s := "  -007abc";
    assert NumberStart(s, 0) == 2;
    assert DigitRunEnd(s, 3) == 6;
    assert AllDigits(s[3..6]) && DecimalValue(s[3..6]) == 7 by {
      assert s[3..6] == "007";
      assert "007"[..2] == "00";
      assert "00"[..1] == "0";
      assert "0"[..0] == "";
    }
    ScanNumberMeaning(s, 0);
  }

  // ---------------------------------------------------------------------

  /** A scanner over a stream, whose text is `input`; `position` counts the
      characters taken and `eofBit` is the stream's end-of-file flag. */
  class Scanner {
    const input: seq<char>
    var position: nat
    var eofBit: bool

    function At(): Cursor
      reads this
    {
      Cursor(position, eofBit)
    }

    ghost predicate Valid()
      reads this
    {
      Consistent(input, At())
    }

    constructor (input: seq<char>)
      ensures this.input == input && At() == Cursor(0, false) && Valid()
    {
      this.input := input;
      position := 0;
      eofBit := false;
    }

    /** `read()`: takes exactly one character, or raises the end-of-file flag. */
    method Read() returns (c: char)
      modifies this
      ensures Scanned(c, At()) == Get(input, old(At()))
      ensures Valid()
    {
      if !eofBit && position < |input| {
        c := input[position];
        position := position + 1;
      } else {
        c := EndOfStream;
        position := |input|;
        eofBit := true;
      }
    }

    /** `input.putback(c)` of the character just read. */
    method Putback()
      requires 0 < position
      modifies this
      ensures At() == Unget(old(At()))
    {
      position := position - 1;
      eofBit := false;
    }

    /** `look(c)`. */
    method Look() returns (found: bool, c: char)
      modifies this
      ensures Lookahead(found, c, At()) == Peek(input, old(At()))
      ensures Valid()
    {
      ghost var before := At();
      c := Read();
      while !eofBit && IsSpace(c)
        invariant Get(input, before) == Scanned(c, At())
        invariant Peek(input, before) == Peek(input, old(At()))
        decreases Rank(input, At())
      {
        before := At();
        c := Read();
      }
      if eofBit {
        return false, c;
      }
      Putback();
      found := true;
    }

    /** The first loop of the number reader: read until a digit or a sign,
        or the end of the stream. */
    method SkipToNumberStart() returns (c: char)
      modifies this
      ensures Scanned(c, At()) == SkipToNumber(input, old(At()))
      ensures Valid()
    {
      ghost var before := At();
      c := Read();
      while !eofBit && !IsDigit(c) && c != '+' && c != '-'
        invariant Valid()
        invariant Get(input, before) == Scanned(c, At())
        invariant SkipToNumber(input, before) == SkipToNumber(input, old(At()))
        decreases Rank(input, At())
      {
        before := At();
        c := Read();
      }
    }

    /** The accumulator loop of the number reader, from the digit `first`
        just read: the value of the run of digits, and the character that
        stopped it. */
    method AccumulateDigits(first: char) returns (value: int, c: char)
      requires Valid() && (!eofBit ==> 0 < position)
      modifies this
      ensures (value, Scanned(c, At())) == Accumulate(input, 0, Scanned(first, old(At())))
      ensures Valid()
    {
      value, c := 0, first;
      while !eofBit && IsDigit(c)
        invariant Valid()
        invariant !eofBit ==> 0 < position
        invariant Accumulate(input, value, Scanned(c, At())) == Accumulate(input, 0, Scanned(first, old(At())))
        decreases Rank(input, At())
      {
        value := 10 * value + DigitValue(c);
        c := Read();
      }
    }

    /** `read(BigInteger&)`, and `read(int&)` which narrows its result. */
    method ReadNumber() returns (r: Result<int>)
      modifies this
      ensures var spec := ScanNumber(input, old(At()));
              && (r.Ok? <==> spec.Ok?)
              && (spec.Ok? ==> r.value == spec.value.value && At() == spec.value.after)
              && (spec.Fail? ==> r.error == spec.error)
      ensures Valid()
    {
      var c := SkipToNumberStart();
      var sign := 1;
      if c == '-' {
        sign := -1;
        c := Read();
      } else if c == '+' {
        c := Read();
      }
      if eofBit || !IsDigit(c) {
        return Fail(ParseException(NonDigitMessage));
      }
      var value;
      value, c := AccumulateDigits(c);
      value := value * sign;
      if !eofBit {
        Putback();
      }
      r := Ok(value);
    }

    /** `skipLine()`. */
    method SkipLine()
      modifies this
      ensures At() == PastLine(input, old(At()))
      ensures Valid()
    {
      ghost var before := At();
      var c := Read();
      while !eofBit && c != '\n'
        invariant Get(input, before) == Scanned(c, At())
        invariant PastLine(input, before) == PastLine(input, old(At()))
        decreases Rank(input, At())
      {
        before := At();
        c := Read();
      }
    }

    /** `eof()`: the flag is only ever raised once the whole text is taken. */
    function Eof(): (b: bool)
      reads this
      requires Valid()
      ensures b ==> position == |input|
    {
      eofBit
    }
  }
}

=== FILE: xcsp_callback.dfy ===
/** The callback the XCSP3 parser drives when it reads a constraint network:
    it translates XCSP3 expression trees into intension constraints through
    the factory, maps XCSP3 conditions to relational operators, and turns
    extension and sum constraints into calls on the CSP solver. */
module XcspCallback {
  import opened Outcomes
  import opened Backend
  import opened IntensionFactory

  const UnknownOperator := "Unknown operator"
  const UnsupportedConditionOperator := "Unsupported condition operator"
  const UnsupportedConditionType := "Unsupported condition type"
  const StarredTuplesNotSupported := "Starred tuples are not supported"

  /** The operator tags of an XCSP3 expression tree: those the translator
      knows, and any other tag of the XCSP3 library, by name. */
  datatype Tag =
    | OAbs | ONeg | OSqr | ONot
    | ODist | ODiv | OMod | OPow | OSub | OImp | OLt | OLe | ONe | OGe | OGt
    | OAdd | OMax | OMin | OMul | OIff | OAnd | OOr | OXor | OEq
    | OtherTag(name: string)

  /** A node of an XCSP3 expression tree: an integer constant, a variable,
      or an operator applied to its parameters, in order. */
  datatype Node =
    | NodeConstant(val: int)
    | NodeVariable(name: string)
    | NodeOperator(tag: Tag, parameters: seq<Node>)

  /** What the translator does with an operator tag: one factory call on
      the first parameter, on the first two, on all of them, or none. */
  datatype Translation = ToUnary(unary: UnaryCall) | ToBinary(binary: BinaryCall) | ToNary(nary: NaryCall) | Unknown

  /** The switch of `createIntension`. */
  function TranslationOf(t: Tag): Translation {
    match t
    case OAbs => ToUnary(UnaryCall.Abs)
    case ONeg => ToUnary(Neg)
    case OSqr => ToUnary(Sqr)
    case ONot => ToUnary(Negation)
    case ODist => ToBinary(Dist)
    case ODiv => ToBinary(Div)
    case OMod => ToBinary(Mod)
    case OPow => ToBinary(Pow)
    case OSub => ToBinary(Sub)
    case OImp => ToBinary(Impl)
    case OLt => ToBinary(Lt)
    case OLe => ToBinary(Le)
    case ONe => ToBinary(Neq)
    case OGe => ToBinary(Ge)
    case OGt => ToBinary(Gt)
    case OAdd => ToNary(Add)
    case OMax => ToNary(Max)
    case OMin => ToNary(Min)
    case OMul => ToNary(Mult)
    case OIff => ToNary(Equiv)
    case OAnd => ToNary(Conjunction)
    case OOr => ToNary(Disjunction)
    case OXor => ToNary(Parity)
    case OEq => ToNary(Eq)
    case OtherTag(_) => Unknown
  }

  /** The tag each factory call comes from: the reverse of the switch. */
  function TagOf(tr: Translation): Tag {
    match tr
    case ToUnary(u) => (match u case Abs => OAbs case Neg => ONeg case Sqr => OSqr case Negation => ONot)
    case ToBinary(b) =>
      (match b
       case Dist => ODist case Div => ODiv case Mod => OMod case Pow => OPow case Sub => OSub
       case Impl => OImp case Lt => OLt case Le => OLe case Neq => ONe case Ge => OGe case Gt => OGt)
    case ToNary(k) =>
      (match k
       case Add => OAdd case Max => OMax case Min => OMin case Mult => OMul case Equiv => OIff
       case Conjunction => OAnd case Disjunction => OOr case Parity => OXor case Eq => OEq)
    case Unknown => OtherTag("")
  }

  /** The switch is one-to-one on the known tags: each factory call comes
      from exactly one tag, and only the tags outside the switch are
      unknown. */
  lemma SwitchIsOneToOne(t: Tag, tr: Translation)
    ensures TranslationOf(t) == Unknown <==> t.OtherTag?
    ensures tr != Unknown ==> (TranslationOf(t) == tr <==> TagOf(tr) == t)
  {
    if tr != Unknown && TagOf(tr) == t {
      match tr
      case ToUnary(u) =>
      case ToBinary(b) =>
      case ToNary(k) =>
    }
  }

  /** What the XCSP3 parser guarantees of the trees it builds: the unary
      operators have a parameter and the binary ones two, wherever the
      translation reads them. */
  predicate Translatable(n: Node)
    decreases n
  {
    match n
    case NodeOperator(tag, ps) =>
      (match TranslationOf(tag)
       case ToUnary(_) => |ps| >= 1 && Translatable(ps[0])
       case ToBinary(_) => |ps| >= 2 && Translatable(ps[0]) && Translatable(ps[1])
       case ToNary(_) => forall i :: 0 <= i < |ps| ==> Translatable(ps[i])
       case Unknown => true)
    case _ => true
  }

  /** `createIntension`: a post-order translation, children first and in
      order; an unknown tag the translation reaches throws. */
  function CreateIntension(n: Node): (r: Result<Intension>)
    requires Translatable(n)
    ensures r.Fail? ==> r.error == IllegalArgument(UnknownOperator)
    decreases n, 1
  {
    match n
    case NodeConstant(v) => Ok(Constant(v))
    case NodeVariable(x) => Ok(Variable(x))
    case NodeOperator(tag, ps) =>
      match TranslationOf(tag)
      case ToUnary(u) =>
        var child := CreateIntension(ps[0]);
        if child.Fail? then Fail(child.error) else Ok(Unary(u, child.value))
      case ToBinary(b) =>
        var child1 := CreateIntension(ps[0]);
        if child1.Fail? then Fail(child1.error)
        else
          var child2 := CreateIntension(ps[1]);
          if child2.Fail? then Fail(child2.error) else Ok(Binary(b, child1.value, child2.value))
      case ToNary(k) =>
        var constrs := CreateAll(n, ps);
        if constrs.Fail? then Fail(constrs.error) else Ok(Nary(k, constrs.value))
      case Unknown => Fail(IllegalArgument(UnknownOperator))
  }

  /** The loop of the n-ary cases over `ps`, the parameters of `parent` from
      some index on: each child is translated in turn, up to the first that
      throws. */
  function CreateAll(ghost parent: Node, ps: seq<Node>): (r: Result<seq<Intension>>)
    requires parent.NodeOperator? && |ps| <= |parent.parameters|
    requires ps == parent.parameters[|parent.parameters| - |ps|..]
    requires forall i :: 0 <= i < |ps| ==> Translatable(ps[i])
    ensures r.Ok? ==> |r.value| == |ps|
    ensures r.Fail? ==> r.error == IllegalArgument(UnknownOperator)
    decreases parent, 0, |ps|
  {
    if ps == [] then Ok([])
    else
      assert ps[0] in parent.parameters;
      var first := CreateIntension(ps[0]);
      if first.Fail? then Fail(first.error)
      else
        var rest := CreateAll(parent, ps[1..]);
        if rest.Fail? then Fail(rest.error) else Ok([first.value] + rest.value)
  }

  /** `n` translates to `t`: constants and variables to themselves, and each
      known operator to its factory call on the translations of the
      parameters it reads, in their order, with one child per parameter for
      the n-ary calls. */
  predicate Mirrors(n: Node, t: Intension)
    decreases n
  {
    match n
    case NodeConstant(v) => t == Constant(v)
    case NodeVariable(x) => t == Variable(x)
    case NodeOperator(tag, ps) =>
      match TranslationOf(tag)
      case ToUnary(u) => t.Unary? && t.unary == u && |ps| >= 1 && Mirrors(ps[0], t.child)
      case ToBinary(b) =>
        t.Binary? && t.binary == b && |ps| >= 2 && Mirrors(ps[0], t.left) && Mirrors(ps[1], t.right)
      case ToNary(k) =>
        t.Nary? && t.nary == k && |t.children| == |ps|
        && forall i :: 0 <= i < |ps| ==> Mirrors(ps[i], t.children[i])
      case Unknown => false
  }

  /** The translation preserves structure, child order and arity, and it
      yields a constraint exactly when one mirrors the tree. */
  lemma {:induction false} CreateIntensionMirrors(n: Node, t: Intension)
    requires Translatable(n)
    ensures CreateIntension(n) == Ok(t) <==> Mirrors(n, t)
    decreases n, 1
  {
    match n
    case NodeConstant(_) =>
    case NodeVariable(_) =>
    case NodeOperator(tag, ps) =>
      match TranslationOf(tag)
      case ToUnary(u) =>
        if t.Unary? {
          CreateIntensionMirrors(ps[0], t.child);
        } else if CreateIntension(ps[0]).Ok? {
          CreateIntensionMirrors(ps[0], CreateIntension(ps[0]).value);
        }
      case ToBinary(b) =>
        if t.Binary? {
          CreateIntensionMirrors(ps[0], t.left);
          CreateIntensionMirrors(ps[1], t.right);
        }
      case ToNary(k) =>
        if t.Nary? {
          CreateAllMirrors(n, ps, t.children);
        }
      case Unknown =>
  }

  /** The n-ary loop yields one translation per child, in order, exactly
      when each child translates. */
  lemma {:induction false} CreateAllMirrors(parent: Node, ps: seq<Node>, ts: seq<Intension>)
    requires parent.NodeOperator? && |ps| <= |parent.parameters|
    requires ps == parent.parameters[|parent.parameters| - |ps|..]
    requires forall i :: 0 <= i < |ps| ==> Translatable(ps[i])
    ensures CreateAll(parent, ps) == Ok(ts) <==>
              |ts| == |ps| && forall i :: 0 <= i < |ps| ==> Mirrors(ps[i], ts[i])
    decreases parent, 0, |ps|
  {
    if ps != [] {
      assert ps[0] in parent.parameters;
      if ts == [] {
        CreateIntensionMirrors(ps[0], if CreateIntension(ps[0]).Ok? then CreateIntension(ps[0]).value else Constant(0));
      } else {
        CreateIntensionMirrors(ps[0], ts[0]);
        CreateAllMirrors(parent, ps[1..], ts[1..]);
        if |ts| == |ps| && forall i :: 0 <= i < |ps| ==> Mirrors(ps[i], ts[i]) {
          assert forall i :: 0 <= i < |ps| - 1 ==> Mirrors(ps[1..][i], ts[1..][i]) by {
            forall i | 0 <= i < |ps| - 1 ensures Mirrors(ps[1..][i], ts[1..][i]) {
              assert ps[1..][i] == ps[i + 1] && ts[1..][i] == ts[i + 1];
            }
          }
          assert ts == [ts[0]] + ts[1..];
        }
      }
    }
  }

  /** Every tag the translation reaches is known. */
  predicate Known(n: Node)
    decreases n
  {
    match n
    case NodeOperator(tag, ps) =>
      (match TranslationOf(tag)
       case ToUnary(_) => |ps| >= 1 && Known(ps[0])
       case ToBinary(_) => |ps| >= 2 && Known(ps[0]) && Known(ps[1])
       case ToNary(_) => forall i :: 0 <= i < |ps| ==> Known(ps[i])
       case Unknown => false)
    case _ => true
  }

  /** The translation throws exactly when it reaches an unknown tag. */
  lemma {:induction false} FailsExactlyOnUnknownTag(n: Node)
    requires Translatable(n)
    ensures CreateIntension(n).Fail? <==> !Known(n)
    decreases n, 1
  {
    match n
    case NodeConstant(_) =>
    case NodeVariable(_) =>
    case NodeOperator(tag, ps) =>
      match TranslationOf(tag)
      case ToUnary(_) => FailsExactlyOnUnknownTag(ps[0]);
      case ToBinary(_) =>
        FailsExactlyOnUnknownTag(ps[0]);
        FailsExactlyOnUnknownTag(ps[1]);
      case ToNary(_) => AllFailExactlyOnUnknownTag(n, ps);
      case Unknown =>
  }

  /** A unary tag reads only its first parameter and a binary one only its
      first two: parameters past the arity are never looked at, whatever
      their tags. */
  lemma ChildrenPastArityAreIgnored(tag: Tag, ps: seq<Node>, extra: seq<Node>)
    requires (TranslationOf(tag).ToUnary? && |ps| == 1) || (TranslationOf(tag).ToBinary? && |ps| == 2)
    requires Translatable(NodeOperator(tag, ps))
    ensures Translatable(NodeOperator(tag, ps + extra))
    ensures CreateIntension(NodeOperator(tag, ps + extra)) == CreateIntension(NodeOperator(tag, ps))
    ensures Known(NodeOperator(tag, ps + extra)) == Known(NodeOperator(tag, ps))
  {
    assert (ps + extra)[0] == ps[0];
    if TranslationOf(tag).ToBinary? {
      assert (ps + extra)[1] == ps[1];
    }
  }

  /** So a tree can hold an unknown tag the translation never reaches:
      `abs(x, foo())` translates to the absolute value of `x`. */
  lemma UnreachedUnknownTagExample()
    ensures var n := NodeOperator(OAbs, [NodeVariable("x"), NodeOperator(OtherTag("foo"), [])]);
            Translatable(n) && Known(n) && CreateIntension(n) == Ok(Unary(UnaryCall.Abs, Variable("x")))
  {
    ChildrenPastArityAreIgnored(OAbs, [NodeVariable("x")], [NodeOperator(OtherTag("foo"), [])]);
    assert [NodeVariable("x")] + [NodeOperator(OtherTag("foo"), [])]
           == [NodeVariable("x"), NodeOperator(OtherTag("foo"), [])];
  }

  /** The n-ary loop throws exactly when some child reaches an unknown tag. */
  lemma {:induction false} AllFailExactlyOnUnknownTag(parent: Node, ps: seq<Node>)
    requires parent.NodeOperator? && |ps| <= |parent.parameters|
    requires ps == parent.parameters[|parent.parameters| - |ps|..]
    requires forall i :: 0 <= i < |ps| ==> Translatable(ps[i])
    ensures CreateAll(parent, ps).Fail? <==> exists i :: 0 <= i < |ps| && !Known(ps[i])
    decreases parent, 0, |ps|
  {
    if ps != [] {
      assert ps[0] in parent.parameters;
      FailsExactlyOnUnknownTag(ps[0]);
      AllFailExactlyOnUnknownTag(parent, ps[1..]);
      if exists i :: 0 <= i < |ps| && !Known(ps[i]) {
        var i :| 0 <= i < |ps| && !Known(ps[i]);
        if i > 0 {
          assert !Known(ps[1..][i - 1]);
        }
      }
      if exists i :: 0 <= i < |ps| - 1 && !Known(ps[1..][i]) {
        var i :| 0 <= i < |ps| - 1 && !Known(ps[1..][i]);
        assert !Known(ps[i + 1]);
      }
    }
  }

  /** The tree an intension constraint is written as: each factory call
      under the tag that translates to it. */
  function ToNode(t: Intension): Node
    decreases t
  {
    match t
    case Constant(v) => NodeConstant(v)
    case Variable(x) => NodeVariable(x)
    case Unary(u, c) => NodeOperator(TagOf(ToUnary(u)), [ToNode(c)])
    case Binary(b, l, r) => NodeOperator(TagOf(ToBinary(b)), [ToNode(l), ToNode(r)])
    case Nary(k, cs) => NodeOperator(TagOf(ToNary(k)), seq(|cs|, i requires 0 <= i < |cs| => ToNode(cs[i])))
  }

  /** Every intension constraint is the translation of the tree it is
      written as. */
  lemma RoundTrip(t: Intension)
    ensures Translatable(ToNode(t)) && CreateIntension(ToNode(t)) == Ok(t)
  {
    ToNodeIsMirrored(t);
    CreateIntensionMirrors(ToNode(t), t);
  }

  /** The tree of `eq(add(x,y),z)` becomes the n-ary equality of the n-ary
      sum of `x` and `y` with `z`. */
  lemma SumEqualityExample()
    ensures var tree := NodeOperator(OEq, [NodeOperator(OAdd, [NodeVariable("x"), NodeVariable("y")]), NodeVariable("z")]);
            Translatable(tree) && CreateIntension(tree) == Ok(Nary(Eq, [Nary(Add, [Variable("x"), Variable("y")]), Variable("z")]))
  {
    var sum := Nary(Add, [Variable("x"), Variable("y")]);
    var t := Nary(Eq, [sum, Variable("z")]);
    RoundTrip(t);
    assert ToNode(sum) == NodeOperator(OAdd, [NodeVariable("x"), NodeVariable("y")]);
    assert ToNode(t) == NodeOperator(OEq, [ToNode(sum), NodeVariable("z")]);
  }

  lemma {:induction false} ToNodeIsMirrored(t: Intension)
    ensures Translatable(ToNode(t)) && Mirrors(ToNode(t), t)
    decreases t
  {
    match t
    case Constant(_) =>
    case Variable(_) =>
    case Unary(u, c) =>
      SwitchIsOneToOne(TagOf(ToUnary(u)), ToUnary(u));
      ToNodeIsMirrored(c);
    case Binary(b, l, r) =>
      SwitchIsOneToOne(TagOf(ToBinary(b)), ToBinary(b));
      ToNodeIsMirrored(l);
      ToNodeIsMirrored(r);
    case Nary(k, cs) =>
      SwitchIsOneToOne(TagOf(ToNary(k)), ToNary(k));
      forall i | 0 <= i < |cs|
        ensures Translatable(ToNode(cs[i])) && Mirrors(ToNode(cs[i]), cs[i])
      {
        ToNodeIsMirrored(cs[i]);
      }
  }

  /** The comparison operators of an XCSP3 condition. */
  datatype OrderType = LE | LT | GE | GT | IN | EQ | NE

  /** `operatorOf`: every comparison but membership has a solver operator,
      `NE` being `NEQ`. */
  function OperatorOf(op: OrderType): (r: Result<RelationalOperator>)
    ensures r.Fail? <==> op == OrderType.IN
    ensures r.Fail? ==> r.error == UnsupportedOperation(UnsupportedConditionOperator)
  {
    match op
    case LT => Ok(RelationalOperator.LT)
    case LE => Ok(RelationalOperator.LE)
    case EQ => Ok(RelationalOperator.EQ)
    case NE => Ok(NEQ)
    case GE => Ok(RelationalOperator.GE)
    case GT => Ok(RelationalOperator.GT)
    case IN => Fail(UnsupportedOperation(UnsupportedConditionOperator))
  }

  /** The XCSP3 comparison each solver operator stands for. */
  function OrderOf(o: RelationalOperator): OrderType {
    match o
    case LT => OrderType.LT
    case LE => OrderType.LE
    case EQ => OrderType.EQ
    case NEQ => NE
    case GE => OrderType.GE
    case GT => OrderType.GT
  }

  /** `operatorOf` is one-to-one: each solver operator comes from exactly
      one comparison, the one it stands for. */
  lemma OperatorOfIsOneToOne(op: OrderType, o: RelationalOperator)
    ensures OperatorOf(op) == Ok(o) <==> OrderOf(o) == op
  {
    match o
    case LT =>
    case LE =>
    case EQ =>
    case NEQ =>
    case GE =>
    case GT =>
  }

  /** The kinds of right operand of an XCSP3 condition. */
  datatype OperandType = VARIABLE | INTEGER | INTERVAL

  /** An XCSP3 condition: a comparison with an integer, a variable, or an
      interval (whose bounds no callback here reads). */
  datatype Condition = Condition(op: OrderType, operandType: OperandType, val: int, variable: string)

  /** The operator and right-hand side a sum callback passes for a
      condition: the operand type is examined first, and only an integer or
      a variable operand leads to `operatorOf`. */
  function ConditionOf(cond: Condition): (r: Result<(RelationalOperator, RightHandSide)>)
    ensures cond.operandType == INTERVAL ==> r == Fail(UnsupportedOperation(UnsupportedConditionType))
    ensures cond.operandType != INTERVAL ==>
              (r.Fail? <==> cond.op == OrderType.IN) && (r.Fail? ==> r.error == UnsupportedOperation(UnsupportedConditionOperator))
    ensures r.Ok? ==> OrderOf(r.value.0) == cond.op
    ensures r.Ok? && cond.operandType == INTEGER ==> r.value.1 == Value(cond.val)
    ensures r.Ok? && cond.operandType == VARIABLE ==> r.value.1 == OnVariable(cond.variable)
  {
    match cond.operandType
    case INTERVAL => Fail(UnsupportedOperation(UnsupportedConditionType))
    case _ =>
      var op := OperatorOf(cond.op);
      if op.Fail? then Fail(op.error)
      else
        OperatorOfIsOneToOne(cond.op, op.value);
        Ok((op.value, if cond.operandType == INTEGER then Value(cond.val) else OnVariable(cond.variable)))
  }

  /** A variable of the instance, seen through its identifier. */
  datatype XVariable = XVariable(id: string)

  /** The identifiers of `list`, in order. */
  function Ids(list: seq<XVariable>): (r: seq<string>)
    ensures |r| == |list| && forall i :: 0 <= i < |list| ==> r[i] == list[i].id
  {
    if list == [] then [] else [list[0].id] + Ids(list[1..])
  }

  /** The translations of the roots `trees`, in order, up to the first that
      throws. */
  function CreateEach(trees: seq<Node>): (r: Result<seq<Intension>>)
    requires forall i :: 0 <= i < |trees| ==> Translatable(trees[i])
    ensures r.Ok? <==> forall i :: 0 <= i < |trees| ==> CreateIntension(trees[i]).Ok?
    ensures r.Ok? ==> |r.value| == |trees| && forall i :: 0 <= i < |trees| ==> CreateIntension(trees[i]) == Ok(r.value[i])
    ensures r.Fail? ==> r.error == IllegalArgument(UnknownOperator)
  {
    if trees == [] then Ok([])
    else
      var first := CreateIntension(trees[0]);
      if first.Fail? then Fail(first.error)
      else
        var rest := CreateEach(trees[1..]);
        if rest.Fail? then
          Fail(rest.error)
        else
          assert forall i :: 1 <= i < |trees| ==> trees[i] == trees[1..][i - 1];
          Ok([first.value] + rest.value)
  }

  /** `toStringVector`: the identifiers of the variables, in order. */
  method ToStringVector(list: seq<XVariable>) returns (vars: seq<string>)
    ensures vars == Ids(list)
  {
    vars := [];
    var i := 0;
    while i < |list|
      invariant 0 <= i <= |list|
      invariant |vars| == i && forall j :: 0 <= j < i ==> vars[j] == list[j].id
    {
      vars := vars + [list[i].id];
      i := i + 1;
    }
  }

  /** `toBigIntegerVector`: the same integers, in order. */
  method ToBigIntegerVector(integers: seq<int>) returns (list: seq<int>)
    ensures list == integers
  {
    list := [];
    var i := 0;
    while i < |integers|
      invariant 0 <= i <= |integers|
      invariant list == integers[..i]
    {
      list := list + [integers[i]];
      i := i + 1;
    }
  }

  /** `toBigIntegerMatrix`: the same tuples, in order. */
  method ToBigIntegerMatrix(matrix: seq<seq<int>>) returns (lists: seq<seq<int>>)
    ensures lists == matrix
  {
    lists := [];
    var i := 0;
    while i < |matrix|
      invariant 0 <= i <= |matrix|
      invariant lists == matrix[..i]
    {
      var row := ToBigIntegerVector(matrix[i]);
      lists := lists + [row];
      i := i + 1;
    }
  }

  /** `toIntensionConstraintVector`: the translations of the roots, in
      order; the first root that reaches an unknown tag throws. */
  method ToIntensionConstraintVector(trees: seq<Node>) returns (r: Result<seq<Intension>>)
    requires forall i :: 0 <= i < |trees| ==> Translatable(trees[i])
    ensures r == CreateEach(trees)
  {
    var lists := [];
    var i := 0;
    while i < |trees|
      invariant 0 <= i <= |trees|
      invariant |lists| == i && forall j :: 0 <= j < i ==> CreateIntension(trees[j]) == Ok(lists[j])
    {
      var constraint := CreateIntension(trees[i]);
      if constraint.Fail? {
        return Fail(constraint.error);
      }
      lists := lists + [constraint.value];
      i := i + 1;
    }
    assert CreateEach(trees).Ok?;
    assert forall j :: 0 <= j < |trees| ==> CreateEach(trees).value[j] == lists[j];
    assert CreateEach(trees).value == lists;
    return Ok(lists);
  }

  /** The call `buildConstraintIntension` makes: the translation of the
      root, which mirrors it, or the error of an unknown tag. */
  function IntensionOf(tree: Node): (r: Result<CspCall>)
    requires Translatable(tree)
    ensures r.Ok? <==> Known(tree)
    ensures r.Ok? ==> r.value.AddIntension? && Mirrors(tree, r.value.constraint)
    ensures r.Fail? ==> r.error == IllegalArgument(UnknownOperator)
  {
    FailsExactlyOnUnknownTag(tree);
    var constraint := CreateIntension(tree);
    if constraint.Fail? then Fail(constraint.error)
    else
      CreateIntensionMirrors(tree, constraint.value);
      Ok(AddIntension(constraint.value))
  }

  /** The call the extension callback on one variable makes: starred tuples
      are rejected first; then the tuples are supports or conflicts of the
      variable as `support` says. */
  function UnaryExtensionOf(variable: XVariable, tuples: seq<int>, support: bool, hasStar: bool): (r: Result<CspCall>)
    ensures r.Fail? <==> hasStar
    ensures r.Fail? ==> r.error == UnsupportedOperation(StarredTuplesNotSupported)
    ensures r.Ok? ==> (r.value.AddSupportOf? || r.value.AddConflictsOf?) && (r.value.AddSupportOf? <==> support)
    ensures r.Ok? ==> r.value.variable == variable.id && r.value.values == tuples
  {
    if hasStar then Fail(UnsupportedOperation(StarredTuplesNotSupported))
    else if support then Ok(AddSupportOf(variable.id, tuples))
    else Ok(AddConflictsOf(variable.id, tuples))
  }

  /** The call the extension callback on a list of variables makes, in the
      same way. */
  function ExtensionOf(list: seq<XVariable>, tuples: seq<seq<int>>, support: bool, hasStar: bool): (r: Result<CspCall>)
    ensures r.Fail? <==> hasStar
    ensures r.Fail? ==> r.error == UnsupportedOperation(StarredTuplesNotSupported)
    ensures r.Ok? ==> (r.value.AddSupport? || r.value.AddConflicts?) && (r.value.AddSupport? <==> support)
    ensures r.Ok? ==> r.value.variables == Ids(list) && r.value.tuples == tuples
  {
    if hasStar then Fail(UnsupportedOperation(StarredTuplesNotSupported))
    else if support then Ok(AddSupport(Ids(list), tuples))
    else Ok(AddConflicts(Ids(list), tuples))
  }

  /** The call the sum callback on variables makes: the identifiers, in
      order, with the operator and right-hand side of the condition, unless
      the condition is not supported. */
  function SumOf(list: seq<XVariable>, cond: Condition): (r: Result<CspCall>)
    ensures r.Fail? <==> ConditionOf(cond).Fail?
    ensures r.Fail? ==> r.error == ConditionOf(cond).error
    ensures r.Ok? ==> r.value.AddSum? && r.value.variables == Ids(list)
                      && (r.value.operator, r.value.rhs) == ConditionOf(cond).value
  {
    var c := ConditionOf(cond);
    if c.Fail? then Fail(c.error) else Ok(AddSum(Ids(list), c.value.0, c.value.1))
  }

  /** The call the weighted sum callback makes: as for a sum, with the
      coefficients, in order. */
  function WeightedSumOf(list: seq<XVariable>, coeffs: seq<int>, cond: Condition): (r: Result<CspCall>)
    ensures r.Fail? <==> ConditionOf(cond).Fail?
    ensures r.Fail? ==> r.error == ConditionOf(cond).error
    ensures r.Ok? ==> r.value.AddWeightedSum? && r.value.variables == Ids(list) && r.value.coefficients == coeffs
                      && (r.value.operator, r.value.rhs) == ConditionOf(cond).value
  {
    var c := ConditionOf(cond);
    if c.Fail? then Fail(c.error) else Ok(AddWeightedSum(Ids(list), coeffs, c.value.0, c.value.1))
  }

  /** The call the sum callback with variable coefficients makes: as for a
      sum, with the identifiers of the coefficient variables, in order. */
  function VariableCoefficientSumOf(list: seq<XVariable>, coeffs: seq<XVariable>, cond: Condition): (r: Result<CspCall>)
    ensures r.Fail? <==> ConditionOf(cond).Fail?
    ensures r.Fail? ==> r.error == ConditionOf(cond).error
    ensures r.Ok? ==> r.value.AddSumWithVariableCoefficients? && r.value.variables == Ids(list)
                      && r.value.coefficientVariables == Ids(coeffs)
                      && (r.value.operator, r.value.rhs) == ConditionOf(cond).value
  {
    var c := ConditionOf(cond);
    if c.Fail? then Fail(c.error) else Ok(AddSumWithVariableCoefficients(Ids(list), Ids(coeffs), c.value.0, c.value.1))
  }

  /** The call the sum callback on expression trees makes: an interval
      operand is rejected before any tree is translated; otherwise the
      trees are translated, then the operator of the condition is
      taken. */
  function SumIntensionOf(trees: seq<Node>, cond: Condition): (r: Result<CspCall>)
    requires forall i :: 0 <= i < |trees| ==> Translatable(trees[i])
    ensures cond.operandType == INTERVAL ==> r == Fail(UnsupportedOperation(UnsupportedConditionType))
    ensures r.Ok? <==> CreateEach(trees).Ok? && ConditionOf(cond).Ok?
    ensures r.Ok? ==> r == Ok(AddSumIntension(CreateEach(trees).value, ConditionOf(cond).value.0, ConditionOf(cond).value.1))
  {
    if cond.operandType == INTERVAL then Fail(UnsupportedOperation(UnsupportedConditionType))
    else
      var constraints := CreateEach(trees);
      if constraints.Fail? then Fail(constraints.error)
      else
        var c := ConditionOf(cond);
        if c.Fail? then Fail(c.error) else Ok(AddSumIntension(constraints.value, c.value.0, c.value.1))
  }

  /** The call the weighted sum callback on expression trees makes, in the
      same way, with the coefficients. */
  function WeightedSumIntensionOf(trees: seq<Node>, coefs: seq<int>, cond: Condition): (r: Result<CspCall>)
    requires forall i :: 0 <= i < |trees| ==> Translatable(trees[i])
    ensures cond.operandType == INTERVAL ==> r == Fail(UnsupportedOperation(UnsupportedConditionType))
    ensures r.Ok? <==> CreateEach(trees).Ok? && ConditionOf(cond).Ok?
    ensures r.Ok? ==>
              r == Ok(AddWeightedSumIntension(CreateEach(trees).value, coefs, ConditionOf(cond).value.0, ConditionOf(cond).value.1))
  {
    if cond.operandType == INTERVAL then Fail(UnsupportedOperation(UnsupportedConditionType))
    else
      var constraints := CreateEach(trees);
      if constraints.Fail? then Fail(constraints.error)
      else
        var c := ConditionOf(cond);
        if c.Fail? then Fail(c.error) else Ok(AddWeightedSumIntension(constraints.value, coefs, c.value.0, c.value.1))
  }

  /** A callback that computed `r` made its call on the solver and returned,
      or made no call and threw. */
  predicate Applied(r: Result<CspCall>, before: seq<Call>, after: seq<Call>, outcome: Outcome) {
    match r
    case Ok(c) => after == before + [Csp(c)] && outcome == Pass
    case Fail(e) => after == before && outcome == Raise(e)
  }

  /** Whether the instance is a satisfaction or an optimisation problem. */
  datatype InstanceType = CSP | COP

  /** The callback, over the CSP solver it fills. */
  class AutisXcspCallback {
    const solver: Solver
    var optimization: bool
    var intensionUsingString: bool

    /** The callback asks the XCSP3 parser for expression trees, not
        strings. */
    constructor (solver: Solver)
      ensures this.solver == solver && !intensionUsingString && !optimization
    {
      this.solver := solver;
      intensionUsingString := false;
      optimization := false;
    }

    /** `beginInstance`: the instance is an optimisation problem exactly
        when it is a COP. */
    method BeginInstance(instance: InstanceType)
      modifies this
      ensures optimization == (instance == COP) && intensionUsingString == old(intensionUsingString)
    {
      optimization := instance == COP;
    }

    /** `buildConstraintIntension`. */
    method BuildConstraintIntension(tree: Node) returns (outcome: Outcome)
      requires Translatable(tree)
      modifies solver
      ensures Applied(IntensionOf(tree), old(solver.calls), solver.calls, outcome)
    {
      var constraint := CreateIntension(tree);
      if constraint.Fail? {
        return Raise(constraint.error);
      }
      solver.Add(Csp(AddIntension(constraint.value)));
      return Pass;
    }

    /** `buildConstraintExtension` on one variable. */
    method BuildConstraintUnaryExtension(variable: XVariable, tuples: seq<int>, support: bool, hasStar: bool)
      returns (outcome: Outcome)
      modifies solver
      ensures Applied(UnaryExtensionOf(variable, tuples, support, hasStar), old(solver.calls), solver.calls, outcome)
    {
      if hasStar {
        return Raise(UnsupportedOperation(StarredTuplesNotSupported));
      }
      var values := ToBigIntegerVector(tuples);
      if support {
        solver.Add(Csp(AddSupportOf(variable.id, values)));
      } else {
        solver.Add(Csp(AddConflictsOf(variable.id, values)));
      }
      return Pass;
    }

    /** `buildConstraintExtension` on a list of variables. */
    method BuildConstraintExtension(list: seq<XVariable>, tuples: seq<seq<int>>, support: bool, hasStar: bool)
      returns (outcome: Outcome)
      modifies solver
      ensures Applied(ExtensionOf(list, tuples, support, hasStar), old(solver.calls), solver.calls, outcome)
    {
      if hasStar {
        return Raise(UnsupportedOperation(StarredTuplesNotSupported));
      }
      var vars := ToStringVector(list);
      var matrix := ToBigIntegerMatrix(tuples);
      if support {
        solver.Add(Csp(AddSupport(vars, matrix)));
      } else {
        solver.Add(Csp(AddConflicts(vars, matrix)));
      }
      return Pass;
    }

    /** The right-hand side of a sum callback: the value for an integer
        operand, the variable for a variable operand. */
    static method RightHandSideOf(cond: Condition) returns (rhs: RightHandSide)
      requires cond.operandType != INTERVAL
      ensures cond.operandType == INTEGER ==> rhs == Value(cond.val)
      ensures cond.operandType == VARIABLE ==> rhs == OnVariable(cond.variable)
    {
      if cond.operandType == INTEGER {
        rhs := Value(cond.val);
      } else {
        rhs := OnVariable(cond.variable);
      }
    }

    /** `buildConstraintSum` on variables. */
    method BuildConstraintSum(list: seq<XVariable>, cond: Condition) returns (outcome: Outcome)
      modifies solver
      ensures Applied(SumOf(list, cond), old(solver.calls), solver.calls, outcome)
    {
      if cond.operandType == INTERVAL {
        return Raise(UnsupportedOperation(UnsupportedConditionType));
      }
      var vars := ToStringVector(list);
      var op := OperatorOf(cond.op);
      if op.Fail? {
        return Raise(op.error);
      }
      var rhs := RightHandSideOf(cond);
      solver.Add(Csp(AddSum(vars, op.value, rhs)));
      return Pass;
    }

    /** `buildConstraintSum` on variables with integer coefficients. */
    method BuildConstraintWeightedSum(list: seq<XVariable>, coeffs: seq<int>, cond: Condition) returns (outcome: Outcome)
      modifies solver
      ensures Applied(WeightedSumOf(list, coeffs, cond), old(solver.calls), solver.calls, outcome)
    {
      if cond.operandType == INTERVAL {
        return Raise(UnsupportedOperation(UnsupportedConditionType));
      }
      var vars := ToStringVector(list);
      var coefficients := ToBigIntegerVector(coeffs);
      var op := OperatorOf(cond.op);
      if op.Fail? {
        return Raise(op.error);
      }
      var rhs := RightHandSideOf(cond);
      solver.Add(Csp(AddWeightedSum(vars, coefficients, op.value, rhs)));
      return Pass;
    }

    /** `buildConstraintSum` on variables with variable coefficients. */
    method BuildConstraintVariableCoefficientSum(list: seq<XVariable>, coeffs: seq<XVariable>, cond: Condition)
      returns (outcome: Outcome)
      modifies solver
      ensures Applied(VariableCoefficientSumOf(list, coeffs, cond), old(solver.calls), solver.calls, outcome)
    {
      if cond.operandType == INTERVAL {
        return Raise(UnsupportedOperation(UnsupportedConditionType));
      }
      var vars := ToStringVector(list);
      var coefficients := ToStringVector(coeffs);
      var op := OperatorOf(cond.op);
      if op.Fail? {
        return Raise(op.error);
      }
      var rhs := RightHandSideOf(cond);
      solver.Add(Csp(AddSumWithVariableCoefficients(vars, coefficients, op.value, rhs)));
      return Pass;
    }

    /** `buildConstraintSum` on expression trees. */
    method BuildConstraintSumIntension(trees: seq<Node>, cond: Condition) returns (outcome: Outcome)
      requires forall i :: 0 <= i < |trees| ==> Translatable(trees[i])
      modifies solver
      ensures Applied(SumIntensionOf(trees, cond), old(solver.calls), solver.calls, outcome)
    {
      if cond.operandType == INTERVAL {
        return Raise(UnsupportedOperation(UnsupportedConditionType));
      }
      var constraints := ToIntensionConstraintVector(trees);
      if constraints.Fail? {
        return Raise(constraints.error);
      }
      var op := OperatorOf(cond.op);
      if op.Fail? {
        return Raise(op.error);
      }
      var rhs := RightHandSideOf(cond);
      solver.Add(Csp(AddSumIntension(constraints.value, op.value, rhs)));
      return Pass;
    }

    /** `buildConstraintSum` on expression trees with integer coefficients. */
    method BuildConstraintWeightedSumIntension(trees: seq<Node>, coefs: seq<int>, cond: Condition) returns (outcome: Outcome)
      requires forall i :: 0 <= i < |trees| ==> Translatable(trees[i])
      modifies solver
      ensures Applied(WeightedSumIntensionOf(trees, coefs, cond), old(solver.calls), solver.calls, outcome)
    {
      if cond.operandType == INTERVAL {
        return Raise(UnsupportedOperation(UnsupportedConditionType));
      }
      var constraints := ToIntensionConstraintVector(trees);
      if constraints.Fail? {
        return Raise(constraints.error);
      }
      var coefficients := ToBigIntegerVector(coefs);
      var op := OperatorOf(cond.op);
      if op.Fail? {
        return Raise(op.error);
      }
      var rhs := RightHandSideOf(cond);
      solver.Add(Csp(AddWeightedSumIntension(constraints.value, coefficients, op.value, rhs)));
      return Pass;
    }
  }
}
